=== FILE: README.md ===
# Vou Junto Aventuras — a Dafny model of its data core

Vou Junto Aventuras is a web app where people publish and find off-road
adventures: 4x4 trails, carpools, travel-partner searches and events. This
project models the logic behind the app's screens, written as pure functions
over immutable data, and proves properties about it:

- **`SupabaseQuery`**: the generic read hook `useSupabaseQuery`.
  - Options are compiled into a query plan:
    - filters, with `eq` as the default operator;
    - `%…%` wrapping for `like`;
    - an ordering whose direction defaults to ascending;
    - a `limit`/`page` window;
    - single or list mode.
  - The plan is given a reference meaning over an in-memory table of rows.
  - The hook's settled state is modelled too.
- **`AventuraService`**: the four record kinds (`Carona`, `Trilha`,
  `ParceirosViagem`, `Evento`) and their nine fetchers.
  - List fetchers return a table newest first and degrade to `[]` on any
    store error.
  - By-id fetchers return the one row with that id, or null.
- **`UseAventuras`**: the aggregated feed of `useAventuras`.
  - Each included kind is fetched and mapped to one display record
    (`AventuraItem`).
  - The lists are concatenated and sorted ascending by the leading date of
    each item's rendered date.
- **`EncontrarAventuras`**: the search page.
  - One run of `buscarAventuras` in `cidade`, `estado` or `todas` mode:
    the CEP (Brazilian postal code) prefix filter, the missing-CEP warning
    and the page window of six rows.
  - The page count, and the pagination bar built from it.
- **`FormRules`, `EventoForm`, `TrilhaForm`, `OferecerCaronaForm`,
  `ParceirosViagemForm`, `Cadastro`**: the five forms.
  - Each one's validation schema and its defaults.
  - The row or sign-up request built from validated data, and what a
    success or a failure leaves behind.
  - The date-picker predicates.
- **`Common`, `Text`, `Sequences`, `Paging`**: the vocabulary the modules
  share.
  - Options, decimal digit strings, SQL `LIKE` and prefix/substring
    reasoning.
  - Filtering and a stable insertion sort.
  - Page windows and page counts.

The remote store is modelled as in-memory tables. A failure of a read
(network, permissions, a missing relation) is an explicit parameter. The
current date, the signed-in user and the user's profile are parameters too.

Dates are instants in milliseconds. A calendar day picked in a form is the
instant of its local midnight, and the date pickers compare it with the
current instant (`new Date()`), so once today has begun its midnight lies in
the past and the pickers refuse today itself. The search page, by contrast,
truncates "today" to midnight, so it keeps adventures dated today.

Pattern filters are evaluated as the store evaluates them. PostgREST reads
`*` in a `like` or `ilike` value as `%`. PostgreSQL's LIKE treats `%` and `_`
as wildcards and `\` as its escape character.

The search page's page count does not apply the CEP filter the page query
applies. The code is modelled as written, and the corrected count is stated
alongside it (see Findings).

## Model

| member | source | states |
|---|---|---|
| SupabaseQuery.OperatorOf | src/hooks/useSupabaseQuery.ts:30-53 | an absent or empty operator means `eq`; each of the seven switch labels selects its operator; any other text selects none |
| SupabaseQuery.OperatorNameRoundTrip | src/hooks/useSupabaseQuery.ts:31-53 | every operator is recognised under the name the switch gives it |
| SupabaseQuery.FilterWithoutOperatorIsEq | src/hooks/useSupabaseQuery.ts:30 | a filter without an operator, or with an empty one, keeps exactly the rows an explicit `eq` keeps: those whose cell equals the non-null value |
| SupabaseQuery.LikeFilterIsSubstring | src/hooks/useSupabaseQuery.ts:51 | a `like` filter keeps every row whose text contains the value, when the value holds no `\`; when the value holds none of `%`, `_`, `*` and `\`, these are the only rows it keeps |
| SupabaseQuery.Satisfies | src/hooks/useSupabaseQuery.ts:30-53 | what one filter asks of a row: an unknown operator asks nothing, `like` asks for the store's match of `%value%`, the rest compare the cell. No contract of its own: `FilterWithoutOperatorIsEq`, `LikeFilterIsSubstring` and `ConditionsMeanAllFilters` state its meaning |
| SupabaseQuery.Compares | src/hooks/useSupabaseQuery.ts:32-49 | the six comparison operators on a non-null cell of the operand's type. No contract of its own: `FilterWithoutOperatorIsEq` and `RowLeTotalPreorder` state the order it uses |
| SupabaseQuery.PlanOf | src/hooks/useSupabaseQuery.ts:25-78 | the chain of query calls the options compile to. No contract of its own: `ConditionsMeanAllFilters`, `UnknownOperatorIgnored`, `OrderingOf` and `PagedWindowIsPage` state each part |
| SupabaseQuery.Execute | src/hooks/useSupabaseQuery.ts:28-78 | the store running a plan: filter, order, window, then single or list mode. No contract of its own: `QueryRowsMeetFilters`, `UnpagedQueryIsComplete`, `QueryRowsOrdered`, `PagedQueryWidth`, `SingleModeExactlyOne` and `SingleModeCountsWindow` state what it returns |
| SupabaseQuery.Query | src/hooks/useSupabaseQuery.ts:25-78 | the request the hook sends, on a store that may fail. No contract of its own: the same lemmas state its result |
| SupabaseQuery.UseSupabaseQuery | src/hooks/useSupabaseQuery.ts:20-90 | the hook's settled state after one fetch. No contract of its own: `Settle` and `StoreFaultIsReported` state it |
| SupabaseQuery.ConditionsMeanAllFilters | src/hooks/useSupabaseQuery.ts:28-55 | the chain of query calls the `forEach` builds holds for a row exactly when the row meets every recognised filter |
| SupabaseQuery.UnknownOperatorIgnored | src/hooks/useSupabaseQuery.ts:31-53 | a filter with an unknown operator can be removed from any position without changing the query's result |
| SupabaseQuery.QueryRowsMeetFilters | src/hooks/useSupabaseQuery.ts:28-55 | a successful query saw no store fault and named an existing table; every row it returns, in list or single mode, is a stored row that meets every recognised filter |
| SupabaseQuery.UnpagedQueryIsComplete | src/hooks/useSupabaseQuery.ts:65-78 | without a limit (or with limit 0), a list query succeeds and returns every matching row, each as often as it is stored |
| SupabaseQuery.OrderingOf | src/hooks/useSupabaseQuery.ts:58-62 | the direction is descending exactly when `ascending` is literally `false`; an absent flag means ascending |
| SupabaseQuery.RowLeTotalPreorder | src/hooks/useSupabaseQuery.ts:58-62 | ordering by a column, in either direction, is total and transitive, so sorting by it is well defined |
| SupabaseQuery.QueryRowsOrdered | src/hooks/useSupabaseQuery.ts:58-62 | with an `orderBy`, the rows of a list query are non-decreasing in that column, or non-increasing when `ascending` is `false` |
| SupabaseQuery.PagedWindowIsPage | src/hooks/useSupabaseQuery.ts:65-73 | with a positive limit, the window cut from the ordered rows is page `max(page, 1)` of size `limit`; it is the unpaged window exactly when that page is 1 |
| SupabaseQuery.NoLimitNoWindow | src/hooks/useSupabaseQuery.ts:65 | without a limit, or with limit 0, no window is cut, whatever the page |
| SupabaseQuery.FirstPageSameAsNoPage | src/hooks/useSupabaseQuery.ts:67 | page 1, a page of 0 or below, and no page all give the same result |
| SupabaseQuery.PagedQueryWidth | src/hooks/useSupabaseQuery.ts:65-73 | a limited list query returns at most `limit` rows, and exactly `limit` when enough matching rows lie past the page's start |
| SupabaseQuery.SingleModeExactlyOne | src/hooks/useSupabaseQuery.ts:76-78 | without a limit, single mode returns the one matching row, whatever the ordering, and fails with the number of matches when there are none or several |
| SupabaseQuery.SingleModeCountsWindow | src/hooks/useSupabaseQuery.ts:58-78 | with a limit, single mode counts the fetched window, not the matches: under a limit of 1 on the first page it succeeds exactly when something matches, and returns a matching row |
| SupabaseQuery.FirstRowSingle | src/hooks/useSupabaseQuery.ts:58-78 | a single-mode plan that fetches one row succeeds exactly when some row meets its conditions, and returns such a row |
| SupabaseQuery.Settle | src/hooks/useSupabaseQuery.ts:80-89 | after a fetch, loading is off and exactly one of data and error is set: the payload on success, the error on failure |
| SupabaseQuery.StoreFaultIsReported | src/hooks/useSupabaseQuery.ts:83-89 | a store fault always ends as the hook's error, with null data and loading off |
| AventuraService.ParseTipoCarona | src/services/aventuraService.ts:22 | a carpool kind is accepted exactly when it is `trilha` or `viagem`, and reads back as the same spelling |
| AventuraService.ParseTipoVeiculo | src/services/aventuraService.ts:38 | a vehicle is accepted exactly when it is `jipe`, `moto` or `bicicleta` |
| AventuraService.ParseNivel | src/services/aventuraService.ts:44 | a difficulty is accepted exactly when it is `facil`, `medio`, `dificil` or `extremo` |
| AventuraService.EnumNamesRoundTrip | src/services/aventuraService.ts:15-46 | every value of the three closed enumerations is read back from its own spelling |
| AventuraService.ListOrEmpty | src/services/aventuraService.ts:64-77 | an error or a null payload gives the empty list; otherwise the payload is returned unchanged |
| AventuraService.FetchList | src/services/aventuraService.ts:64-77 | a list fetch returns `[]` on a store error; otherwise it returns the selected rows, each as often as stored, ordered newest first |
| AventuraService.FetchById | src/services/aventuraService.ts:80-94 | a by-id fetch yields a row exactly when the store is healthy and exactly one row has the id; that row is stored and carries the id |
| AventuraService.GetCaronas | src/services/aventuraService.ts:64-77 | every stored carpool, newest first, or `[]` on a store error |
| AventuraService.GetCaronaById | src/services/aventuraService.ts:80-94 | the carpool with the id when it is unique and the store is healthy, null otherwise |
| AventuraService.GetCaronasByUser | src/services/aventuraService.ts:97-111 | exactly the given user's stored carpools, newest first, or `[]` on a store error |
| AventuraService.GetTrilhas | src/services/aventuraService.ts:114-127 | every stored trail, newest first, or `[]` on a store error |
| AventuraService.GetTrilhaById | src/services/aventuraService.ts:130-144 | the trail with the id when it is unique and the store is healthy, null otherwise |
| AventuraService.GetParceirosViagem | src/services/aventuraService.ts:147-160 | every stored travel-partner search, newest first, or `[]` on a store error |
| AventuraService.GetParceirosViagemById | src/services/aventuraService.ts:163-177 | the travel-partner search with the id when it is unique and the store is healthy, null otherwise |
| AventuraService.GetEventos | src/services/aventuraService.ts:180-193 | every stored event, newest first, or `[]` on a store error |
| AventuraService.GetEventoById | src/services/aventuraService.ts:196-210 | the event with the id when it is unique and the store is healthy, null otherwise |
| AventuraService.ListedRowsKept | src/services/aventuraService.ts:97-111 | every row a list fetch returns is a stored row that the fetch's selection keeps |
| AventuraService.ListFetchKeepsEveryRow | src/services/aventuraService.ts:64-77 | an unfiltered list fetch of a healthy table loses and invents no row |
| UseAventuras.IncludedKinds | src/hooks/useAventuras.ts:30-82 | an absent or empty kind filter takes all four kinds; a kind's name takes that kind alone; any other value takes none |
| UseAventuras.RenderDate | src/hooks/useAventuras.ts:36 | a rendered date is a non-empty string of digits, so it holds no ` - ` separator |
| UseAventuras.ParseRenderDate | src/hooks/useAventuras.ts:100 | reading a rendered date back gives the date it was rendered from |
| UseAventuras.FromEvento | src/hooks/useAventuras.ts:32-43 | an event keeps its id, title, place, image, description and owner contact; its kind label is `Evento`; its sort key is its departure date |
| UseAventuras.FromTrilha | src/hooks/useAventuras.ts:50-60 | a trail is labelled `Trilha - <vehicle>`, keeps its meeting point, seats and owner contact, always has a description, and sorts by its date |
| UseAventuras.FromCarona | src/hooks/useAventuras.ts:67-77 | a carpool is titled `Carona para <destination>`, labelled `Carona - <kind>`, always has a description, and sorts by its date |
| UseAventuras.FromViagem | src/hooks/useAventuras.ts:84-94 | a trip is titled `Viagem para <city>, <state>` and placed `<city>, <state>`, offers its party size as seats, and sorts by its start date; its date text is the rendered start, ` - `, and a text that reads back as the end date |
| UseAventuras.RenderedDateKey | src/hooks/useAventuras.ts:99-103 | the sort comparator reads a single rendered date back as that date |
| UseAventuras.NoSeparatorBefore | src/hooks/useAventuras.ts:100 | splitting a digit string at ` - ` keeps it whole |
| UseAventuras.EventoVagasSentinel | src/hooks/useAventuras.ts:40 | an event's seat count is the `-1` sentinel exactly when the event is unlimited; otherwise it is the stored count |
| UseAventuras.DescricaoFallbacks | src/hooks/useAventuras.ts:56-90 | trail, carpool and trip descriptions are the notes when they are present and non-empty, and the kind's synthesised sentence otherwise |
| UseAventuras.KindOfRecoversKind | src/hooks/useAventuras.ts:35-87 | the kind label each mapping writes identifies the record kind the item came from |
| UseAventuras.Merge | src/hooks/useAventuras.ts:27-96 | the merged list has as many items as the included kinds have records together; an excluded kind contributes nothing. Which items sit where is stated by the four `MergeHolds` lemmas |
| UseAventuras.MergeHoldsEventos | src/hooks/useAventuras.ts:30-45 | when events are included, the merged list opens with every fetched event's item, once per fetched event, in fetch order |
| UseAventuras.MergeHoldsTrilhas | src/hooks/useAventuras.ts:47-62 | when trails are included, every fetched trail's item follows the events' block, once per fetched trail, in fetch order |
| UseAventuras.MergeHoldsCaronas | src/hooks/useAventuras.ts:64-79 | when carpools are included, every fetched carpool's item follows the trails' block, once per fetched carpool, in fetch order |
| UseAventuras.MergeHoldsViagens | src/hooks/useAventuras.ts:81-96 | when trips are included, the list closes with every fetched trip's item, once per fetched trip, in fetch order |
| UseAventuras.MergedEventoPresent | src/hooks/useAventuras.ts:30-45 | a fetched event of an included kind is in the merged list |
| UseAventuras.MergedTrilhaPresent | src/hooks/useAventuras.ts:47-62 | a fetched trail of an included kind is in the merged list |
| UseAventuras.MergedCaronaPresent | src/hooks/useAventuras.ts:64-79 | a fetched carpool of an included kind is in the merged list |
| UseAventuras.MergedViagemPresent | src/hooks/useAventuras.ts:81-96 | a fetched trip of an included kind is in the merged list |
| UseAventuras.FetchedEvento | src/services/aventuraService.ts:64-77 | every stored event of a healthy table is among the fetched events |
| UseAventuras.FetchedTrilha | src/services/aventuraService.ts:64-77 | every stored trail of a healthy table is among the fetched trails |
| UseAventuras.FetchedCarona | src/services/aventuraService.ts:64-77 | every stored carpool of a healthy table is among the fetched carpools |
| UseAventuras.FetchedViagem | src/services/aventuraService.ts:64-77 | every stored trip of a healthy table is among the fetched trips |
| UseAventuras.Fetched | src/hooks/useAventuras.ts:27-96 | the included kinds, fetched and merged, before sorting. No contract of its own: the `MergeHolds` lemmas and `MergedItemsAdmitted` state its contents |
| UseAventuras.Feed | src/hooks/useAventuras.ts:27-105 | the hook's list. No contract of its own: `FeedSortedPermutation` and the four `Stored…InFeed` lemmas state what it holds and in which order |
| UseAventuras.FetchedInFeed | src/hooks/useAventuras.ts:98-105 | sorting loses no merged item: every item of the merged list is in the feed |
| UseAventuras.StoredEventoInFeed | src/hooks/useAventuras.ts:27-105 | with events included and the events table healthy, every stored event's item is in the feed |
| UseAventuras.StoredTrilhaInFeed | src/hooks/useAventuras.ts:27-105 | with trails included and the trails table healthy, every stored trail's item is in the feed |
| UseAventuras.StoredCaronaInFeed | src/hooks/useAventuras.ts:27-105 | with carpools included and the carpools table healthy, every stored carpool's item is in the feed |
| UseAventuras.StoredViagemInFeed | src/hooks/useAventuras.ts:27-105 | with trips included and the trips table healthy, every stored trip's item is in the feed |
| UseAventuras.MergedItemsAdmitted | src/hooks/useAventuras.ts:27-96 | every merged item has a readable date key and belongs to a kind the filter includes |
| UseAventuras.FeedSortedPermutation | src/hooks/useAventuras.ts:98-105 | the feed is the merged list reordered, ascending by the leading date, and holds only admitted items |
| UseAventuras.EarlierOrSameTotalPreorder | src/hooks/useAventuras.ts:99-103 | the feed comparator is total and transitive, so the sort is well defined |
| UseAventuras.SingleKindFeed | src/hooks/useAventuras.ts:30-96 | a feed filtered on one kind's name holds items of that kind only |
| UseAventuras.UnknownKindGivesNothing | src/hooks/useAventuras.ts:30-96 | a filter naming no kind gives an empty feed, not an error |
| UseAventuras.EmptyStoreEmptyFeed | src/hooks/useAventuras.ts:27-105 | with every table empty, the feed is empty |
| UseAventuras.FeedResortStable | src/hooks/useAventuras.ts:99-103 | sorting the feed again changes nothing |
| EncontrarAventuras.ProfileCep | src/pages/EncontrarAventuras.tsx:55-61 | the CEP read is non-empty exactly when the profile read succeeds and the user's profile row holds a non-empty CEP |
| EncontrarAventuras.CepPattern | src/pages/EncontrarAventuras.tsx:81-89 | a pattern is applied exactly in `cidade` or `estado` mode with a non-empty CEP: its first three or two characters, followed by `%` |
| EncontrarAventuras.Buscar | src/pages/EncontrarAventuras.tsx:43-118 | one run of `buscarAventuras`. No contract of its own: `MissingCepWarning`, `RerunAfterWarning`, `ShownRowsAreFutureAndOrdered`, `ShownIsPage` and `PageCountIgnoresCep` state what it shows, warns and counts |
| EncontrarAventuras.CepFilterMeaning | src/pages/EncontrarAventuras.tsx:74-89 | a row is kept exactly when it is dated today or later and, if a pattern applies, its CEP starts with the user's three (city) or two (state) leading characters |
| EncontrarAventuras.NoCepFilterCases | src/pages/EncontrarAventuras.tsx:53-89 | with no signed-in user, in `todas` mode, or with an empty CEP, the run matches what `todas` matches |
| EncontrarAventuras.MissingCepWarning | src/pages/EncontrarAventuras.tsx:61-70 | the warning appears exactly for a signed-in user in `cidade` or `estado` mode whose profile has no CEP, and only then is the filter reset to `todas` |
| EncontrarAventuras.RerunAfterWarning | src/pages/EncontrarAventuras.tsx:63-70 | the run that the reset triggers shows the same listing again and does not warn a second time |
| EncontrarAventuras.EarlierFirstTotalPreorder | src/pages/EncontrarAventuras.tsx:78 | ordering by date is total and transitive |
| EncontrarAventuras.MatchingFutureAndOrdered | src/pages/EncontrarAventuras.tsx:74-89 | every matched row is a stored row dated today or later, and the rows come in date order |
| EncontrarAventuras.Shown | src/pages/EncontrarAventuras.tsx:92-94 | the shown rows are at most six, and the k-th is the matched row at position `(page-1)*6 + k` |
| EncontrarAventuras.ShownRowsAreFutureAndOrdered | src/pages/EncontrarAventuras.tsx:92-107 | after a successful run, at most six rows are on show; each is a stored future row, in date order |
| EncontrarAventuras.ShownIsPage | src/pages/EncontrarAventuras.tsx:92-94 | page `p` is the `p`-th block of six rows of one fixed order of the matched rows; under that one order, pages 1 to `n` together show exactly the first `6n` rows |
| EncontrarAventuras.CityWithinStateWithinAll | src/pages/EncontrarAventuras.tsx:81-89 | for the same CEP, the city results are among the state results, and those among the unfiltered results |
| EncontrarAventuras.CityImpliesState | src/pages/EncontrarAventuras.tsx:81-89 | a row kept by the city pattern is kept by the state pattern, whatever wildcards the CEP holds, when neither of its first two characters is `\` |
| EncontrarAventuras.PageCountIgnoresCep | src/pages/EncontrarAventuras.tsx:101-107 | the page count is the ceiling of (future rows / 6) over all future rows, whatever the mode |
| EncontrarAventuras.PaginationControls | src/pages/EncontrarAventuras.tsx:244-268 | the bar is shown exactly when there are two or more pages; "previous" is offered exactly past page 1, "next" exactly before the last page; the links are 1 to the page count |
| EncontrarAventuras.Navigate | src/pages/EncontrarAventuras.tsx:249-265 | a pagination click moves to the clicked page and keeps the filter. No contract of its own: `PaginationControls` and `ControlsStayInRange` state which pages the bar leads to |
| EncontrarAventuras.ControlsStayInRange | src/pages/EncontrarAventuras.tsx:244-268 | links and "next" lead to pages between 1 and the page count; "previous" leads to the page before, which lies in range whenever the current page does |
| EncontrarAventuras.EmptyPageBehindVisibleLink | src/pages/EncontrarAventuras.tsx:101-107 | as written, a city search that matches nothing, among seven future adventures, still links a second page, and that page is empty |
| EncontrarAventuras.EmptyCityPageCounted | src/pages/EncontrarAventuras.tsx:101-107 | the same mismatch for any store with seven future rows and no city match |
| EncontrarAventuras.BuscarConsistente | src/pages/EncontrarAventuras.tsx:101-107 | the run with the page count taken over the rows the page query matches. No contract of its own: `ConsistentPagesNonEmpty` states its property |
| EncontrarAventuras.ConsistentPagesNonEmpty | src/pages/EncontrarAventuras.tsx:101-107 | with the count taken over the rows the page query matches, a page shows rows exactly when it is one of the numbered pages |
| Paging.TotalPages | src/pages/EncontrarAventuras.tsx:107 | the page count is the least number of pages that holds every row; it is zero exactly when there are no rows |
| Paging.PagesCover | src/pages/EncontrarAventuras.tsx:92-94 | consecutive pages of one fixed sequence do not overlap and leave no gap: pages 1 to `n` concatenate to its first `n*size` elements |
| Paging.PageNonEmptyIff | src/pages/EncontrarAventuras.tsx:101-107 | a page of a list is non-empty exactly when its number is at most the list's page count |
| Text.OrElse | src/hooks/useAventuras.ts:56 | `x \|\| fallback` on optional text: the text when present and non-empty, the fallback otherwise |
| Text.EmptyToNull | src/components/TrilhaForm.tsx:95 | `x \|\| null`: null exactly for an absent or empty text, the text itself otherwise |
| Text.Take | src/pages/EncontrarAventuras.tsx:83 | `substring(0, n)`: a prefix of the text, of length n or the whole text when it is shorter |
| Text.BeforeSeparatorOfJoin | src/hooks/useAventuras.ts:88-100 | splitting `a - b` at ` - ` gives back `a` when `a` has no blank |
| Text.Like | src/hooks/useSupabaseQuery.ts:51 | PostgreSQL's LIKE: `%` any run, `_` any character, `\` escapes the next character. No contract of its own: the lemmas below state its meaning |
| Text.StarAsPercent | src/hooks/useSupabaseQuery.ts:51 | PostgREST's reading of a pattern: every `*` becomes `%` and every other character stays in place |
| Text.LiteralPrefixMatch | src/pages/EncontrarAventuras.tsx:84 | for `x` free of `%`, `_`, `*` and `\`, the LIKE pattern `x%` matches exactly the texts that start with `x` |
| Text.LikePrefix | src/pages/EncontrarAventuras.tsx:84 | on the store, for `x` free of `%`, `_`, `*` and `\`, the pattern `x%` matches exactly the texts that start with `x` |
| Text.LikeSelfPrefix | src/hooks/useSupabaseQuery.ts:51 | a text without `\`, followed by anything, matches its own store pattern followed by `%`, wildcards included |
| Text.ContainsMatchesLike | src/hooks/useSupabaseQuery.ts:51 | every text holding a `\`-free `x` matches `%x%` on the store |
| Text.LikeIsContains | src/hooks/useSupabaseQuery.ts:51 | on the store, for `x` free of `%`, `_`, `*` and `\`, the pattern `%x%` matches exactly the texts that contain `x` |
| Text.LikeShorterPrefix | src/pages/EncontrarAventuras.tsx:81-89 | cutting a `\`-free pattern head short and ending it with `%` keeps every text the longer pattern matched |
| Sequences.SortBySorted | src/hooks/useAventuras.ts:99-103 | sorting with a total preorder gives a sorted permutation of the input |
| Sequences.SortByIdempotent | src/hooks/useAventuras.ts:99-103 | sorting a sorted list changes nothing |
| Sequences.FilterNarrows | src/pages/EncontrarAventuras.tsx:74-89 | filtering by a wider test and then by a narrower one equals filtering by the narrower one alone |
| Common.KeepDigits | src/components/EventoForm.tsx:327 | the count inputs yield a digit string never longer than what was typed, and leave a digit string unchanged |
| Common.KeepDigitsCounts | src/components/EventoForm.tsx:327 | the count inputs keep every digit typed, each as often as typed, and drop every other character |
| Common.KeepDigitsOneChar | src/components/EventoForm.tsx:327 | a single character is kept exactly when it is a digit |
| Common.KeepDigitsAppend | src/components/EventoForm.tsx:327 | the digits of a joined text are the first part's digits followed by the second part's: the kept digits stay in typed order |
| Common.KeepDigitsLast | src/components/EventoForm.tsx:326-329 | one more character at the end of the input's value is appended to the kept digits when it is a digit and dropped otherwise |
| Common.KeepDigitsEmptyIff | src/components/EventoForm.tsx:327 | nothing is kept exactly when no typed character is a digit |
| Common.DecimalOfNatToString | src/components/EventoForm.tsx:91 | a count written out in decimal parses back to the same number |
| FormRules.MinLengthIssues | src/components/EventoForm.tsx:33-40 | `min(n)` reports an issue on the field exactly when the text is shorter than `n` |
| FormRules.RequiredIssues | src/components/EventoForm.tsx:35 | a required date reports an issue exactly when it is unset |
| FormRules.EnumIssues | src/components/TrilhaForm.tsx:38-50 | a closed-choice field reports an issue exactly when the value is not one of the choices |
| FormRules.CountInput | src/components/EventoForm.tsx:326-329 | from the value the input reports, the count field holds only the digits, in that value's order: each character is appended when it is a digit and dropped otherwise; it is empty exactly when the value holds no digit, and a digits-only value stays unchanged |
| FormRules.ReportedValue | src/components/EventoForm.tsx:322-327 | the value a `type="number"` input reports: the text shown when it is a valid floating-point number, and `""` otherwise. No contract of its own: `CountField` and the lemmas after it state its effect |
| FormRules.CountField | src/components/EventoForm.tsx:320-329 | what a count field holds for the text shown in the box: nothing when that text is not a valid number, and otherwise its digits |
| FormRules.NumberRunAppend | src/components/EventoForm.tsx:322 | reading the shown text one more character further is one more step of the number grammar |
| FormRules.DigitsRun | src/components/EventoForm.tsx:322 | a run of digits, read from the start, after a `-` or after digits, leaves the reader among the integer digits |
| FormRules.TypedDigitsKept | src/components/EventoForm.tsx:320-329 | a non-empty digit string shown in the box is a valid number, and the field holds it unchanged |
| FormRules.TypingDigitExtends | src/components/EventoForm.tsx:320-329 | typing a digit after digits appends it to the field |
| FormRules.TypingNonDigitClears | src/components/EventoForm.tsx:320-329 | typing any other character after digits (`12e`, `12.`, `12-`) leaves a text that is not a valid number, so the field becomes empty while the box still shows the text |
| FormRules.DecimalPointDropped | src/components/EventoForm.tsx:320-329 | a typed `1.5` is a valid number and is held as `15` |
| FormRules.MinusSignDropped | src/components/EventoForm.tsx:320-329 | a typed `-3` is a valid number and is held as `3` |
| FormRules.PositiveCountIffNonZeroDigit | src/components/EventoForm.tsx:41-44 | a digit-string count is accepted exactly when some digit is not `0`; the empty field is refused |
| FormRules.CountIssues | src/components/EventoForm.tsx:41-44 | a count field is clean exactly when its value is positive; an empty field fails both the length and the positivity checks |
| FormRules.ParseCount | src/components/EventoForm.tsx:91 | an accepted count parses to its decimal value, which is at least 1 (`03` parses to 3) |
| FormRules.ParseCountOfRendered | src/components/EventoForm.tsx:91 | typing any positive number and submitting it stores that very number |
| FormRules.Report | src/components/EventoForm.tsx:103-108 | no error means saved; an error reports its own message when it has a non-empty one, the form's default text otherwise |
| FormRules.Finish | src/components/EventoForm.tsx:94-108 | for each of the four content forms: a save resets the form to its defaults; a failure keeps what was typed and reports the error's message, or the form's own text when the message is missing or empty |
| FormRules.DayEnabled | src/components/EventoForm.tsx:183 | the first-day picker of every form (also OferecerCaronaForm.tsx:195, ParceirosViagemForm.tsx:177). No contract of its own: `PickerStartsTomorrow` states which days it offers |
| FormRules.LaterDayEnabled | src/components/EventoForm.tsx:240-243 | the return or end picker. No contract of its own: `LaterDayEnabledIff` states which days it offers |
| FormRules.PickerStartsTomorrow | src/components/EventoForm.tsx:183 | once today has begun, a picker offers exactly the days after today: today's midnight is before the current instant, so today itself is refused |
| FormRules.LaterDayEnabledIff | src/components/EventoForm.tsx:240-243 | the return or end picker offers exactly the days the first-day picker offers that are not before the chosen first day |
| EventoForm.ValidIff | src/components/EventoForm.tsx:32-45 | the event schema accepts exactly the forms meeting each field's bound; the return date and time never matter |
| EventoForm.DefaultsRefused | src/components/EventoForm.tsx:56-64 | the untouched form is refused, with an issue on each of the seven required fields |
| EventoForm.Submit | src/components/EventoForm.tsx:67-92 | a signed-out visitor is sent to login without a write; otherwise the row is owned by the user, copies the name, description, departure time, meeting point and place, keeps the dates, stores the typed count's decimal value as seats (at least 1), and stores an empty return time as null |
| EventoForm.FormOfSubmit | src/components/EventoForm.tsx:67-92 | every accepted form is inserted, and the inserted row's own form is the submitted one, except that the count is rendered without leading zeros and an empty return time becomes null |
| EventoForm.SubmitFormOf | src/components/EventoForm.tsx:79-92 | every row the schema can produce comes from its own form, and submitting that form inserts exactly that row |
| EventoForm.Finish | src/components/EventoForm.tsx:94-109 | the event form after a submission. No contract of its own: `FormRules.Finish` states it for every content form |
| EventoForm.DepartureDayEnabled | src/components/EventoForm.tsx:183 | the departure picker, the first-day picker. No contract of its own: `FormRules.PickerStartsTomorrow` states it |
| EventoForm.ReturnDayEnabled | src/components/EventoForm.tsx:240-243 | the return picker. No contract of its own: `ReturnOrderOnlyInPicker` and `FormRules.LaterDayEnabledIff` state it |
| EventoForm.ReturnOrderOnlyInPicker | src/components/EventoForm.tsx:240-243 | a return day the picker offers is never before the departure, yet the schema accepts a return before the departure |
| TrilhaForm.ValidIff | src/components/TrilhaForm.tsx:38-50 | the trail schema accepts exactly the forms meeting each field's bound with a listed vehicle and difficulty; the notes never matter |
| TrilhaForm.DefaultsChosen | src/components/TrilhaForm.tsx:61-69 | the defaults pick a jeep and medium difficulty validly, but the untouched form is refused on its empty fields only |
| TrilhaForm.Submit | src/components/TrilhaForm.tsx:72-96 | a signed-out visitor is sent to login; otherwise the row is owned by the user, keeps the parsed choices and the date, copies the trail name, time and meeting point, stores the typed count's decimal value as seats (at least 1), and stores empty notes as null |
| TrilhaForm.FormOfSubmit | src/components/TrilhaForm.tsx:72-96 | every accepted form is inserted, and the inserted row's own form is the submitted one, except that the count is rendered without leading zeros and empty notes become null |
| TrilhaForm.SubmitFormOf | src/components/TrilhaForm.tsx:84-96 | submitting the form of any producible trail row inserts exactly that row |
| TrilhaForm.Finish | src/components/TrilhaForm.tsx:98-113 | the trail form after a submission. No contract of its own: `FormRules.Finish` states it |
| TrilhaForm.DayOffered | src/components/TrilhaForm.tsx:224 | the trail date picker. No contract of its own: `FormRules.PickerStartsTomorrow` states it |
| OferecerCaronaForm.ValidIff | src/components/OferecerCaronaForm.tsx:39-51 | the carpool schema accepts exactly the forms meeting each field's bound with a listed kind; the notes never matter |
| OferecerCaronaForm.DefaultsChosen | src/components/OferecerCaronaForm.tsx:62-70 | the default kind is a trail, a valid choice, but the untouched form is refused on its empty fields only |
| OferecerCaronaForm.Submit | src/components/OferecerCaronaForm.tsx:73-97 | a signed-out visitor is sent to login; otherwise the row is owned by the user, keeps the carpool kind and the date, copies the car model, time, destination and meeting point, stores the typed count's decimal value as seats (at least 1), and stores empty notes as null |
| OferecerCaronaForm.FormOfSubmit | src/components/OferecerCaronaForm.tsx:73-97 | every accepted form is inserted, and the inserted row's own form is the submitted one, except that the count is rendered without leading zeros and empty notes become null |
| OferecerCaronaForm.SubmitFormOf | src/components/OferecerCaronaForm.tsx:85-97 | submitting the form of any producible carpool row inserts exactly that row |
| OferecerCaronaForm.Finish | src/components/OferecerCaronaForm.tsx:99-114 | the carpool form after a submission. No contract of its own: `FormRules.Finish` states it |
| ParceirosViagemForm.ValidIff | src/components/ParceirosViagemForm.tsx:32-42 | the travel-partner schema accepts exactly the forms meeting each field's bound with both dates set, in any order; the notes never matter |
| ParceirosViagemForm.Submit | src/components/ParceirosViagemForm.tsx:61-83 | a signed-out visitor is sent to login; otherwise the row is owned by the user, keeps both dates, copies the city and state, stores the typed count's decimal value as its party size (at least 1), and stores empty notes as null |
| ParceirosViagemForm.FormOfSubmit | src/components/ParceirosViagemForm.tsx:61-83 | every accepted form is inserted, and the inserted row's own form is the submitted one, except that the count is rendered without leading zeros and empty notes become null |
| ParceirosViagemForm.SubmitFormOf | src/components/ParceirosViagemForm.tsx:73-83 | submitting the form of any producible travel-partner row inserts exactly that row |
| ParceirosViagemForm.Finish | src/components/ParceirosViagemForm.tsx:85-100 | the travel-partner form after a submission. No contract of its own: `FormRules.Finish` states it |
| ParceirosViagemForm.EndDayEnabled | src/components/ParceirosViagemForm.tsx:218-221 | the end picker. No contract of its own: `EndOrderOnlyInPicker` and `FormRules.LaterDayEnabledIff` state it |
| ParceirosViagemForm.EndOrderOnlyInPicker | src/components/ParceirosViagemForm.tsx:218-221 | an end day the picker offers is never before the start, yet the schema accepts an end before the start |
| Cadastro.ValidIff | src/pages/Cadastro.tsx:23-34 | sign-up accepts exactly a name of two or more characters, a valid email, a password of six or more characters, a matching confirmation and ticked terms |
| Cadastro.MismatchOnConfirmation | src/pages/Cadastro.tsx:31-34 | a mismatch is reported exactly when the passwords differ, on the confirmation field, even when other fields fail |
| Cadastro.DefaultsRefused | src/pages/Cadastro.tsx:45-51 | the untouched form is refused, among other reasons for the unticked terms |
| Cadastro.Request | src/pages/Cadastro.tsx:56-62 | sign-up sends the typed email and password with a profile of the name, an empty avatar and the `usuario` kind |
| Cadastro.RequestFormOf | src/pages/Cadastro.tsx:56-62 | every request with an empty avatar and the `usuario` kind, a long enough name and password, and an email the email check accepts comes from a valid form; with an email the check refuses, that form is refused |
| Cadastro.Finish | src/pages/Cadastro.tsx:62-75 | a successful sign-up leads to login; a failure reports the error's message or the sign-up default text |

## Left out

- Projection (`select` columns) is recorded in the plan but not applied: rows are returned whole.
- A column missing from a row reads as null. The store's own errors for unknown columns are not modelled.
- `like` on non-text cells: only text cells can match. The store's implicit casts are not modelled.
- SupabaseQuery.Compares: a filter value of another kind than the cell keeps no row in the model. The store casts instead. The hook sends the value as text (useSupabaseQuery.ts:32-49), and PostgREST casts that text to the column's type. So `eq('vagas', '5')` keeps a row whose integer is 5, and `eq('nome', 5)` keeps the text `"5"`. A text that does not cast, such as `eq('vagas', 'abc')`, fails the whole request, while the model answers with no rows. Column types are not part of this model, so neither the cast nor that failure is modelled.
- `ilike` case folding is not modelled: the search page's pattern is applied as a case-sensitive `LIKE`. CEPs are digit strings, where case does not matter.
- Value order across types is fixed as booleans < integers < text < null. Null sorts last ascending and first descending, as in PostgreSQL. Collations other than code-point order are not modelled.
- The store's order for rows that tie on the sort column is unspecified. The model's stable insertion sort stands in for it.
- A negative or fractional `limit` or `page` is not modelled: `limit` is a natural number and `page` an integer.
- Dates are instants in milliseconds, and a picked day is its local midnight. `toLocaleDateString`, `new Date(text)` and `toISOString` are idealised: a rendered date reads back as the same date. Time zones, daylight-saving days and locales are not modelled. The current instant and the search page's midnight "today" are parameters.
- `UseAventuras.EarlierOrSame` treats an unreadable date as the earliest. JavaScript's comparator would yield `NaN` there. `UseAventuras.MergedItemsAdmitted` shows that every merged item has a readable date.
- The `catch` branch of `useAventuras`: every fetcher already turns a store error into `[]`, so no error reaches it.
- Loading flags, toasts, `console.error`, navigation and React effect re-runs are modelled only as the resulting state, notices or outcome tags. Their timing and concurrency are not modelled.
- zod error messages are not modelled: an issue records only its field and rule. The email format check is a parameter (`emailValid`) standing for zod's email pattern.
- The count fields are typed as digit strings, because their input handlers strip non-digits. The value they strip is the one the `type="number"` input reports (TrilhaForm.tsx:291, OferecerCaronaForm.tsx:148 and ParceirosViagemForm.tsx:246 repeat EventoForm.tsx:322). `Number` and `parseInt` rounding for counts beyond 2^53 is not modelled.
- The `-1` seat sentinel is passed on by the feed. How the screens display it is not modelled.
- Login, the auth context, `userService`, the Supabase client set-up, the generated database types and the purely presentational components are not part of this model.
- EncontrarAventuras.ControlsStayInRange: "previous" is stated to stay within the page count only when the current page does. Changing the filter does not reset the page, so the current page can exceed the count.
- UseAventuras.EventoVagasSentinel: assumes a stored seat count that is not negative. A stored `-1` for a limited event would read as unlimited.
- EncontrarAventuras.CepFilterMeaning: the prefix meaning is stated for a CEP without `%`, `_`, `*` or `\`. In a CEP, `%`, `_` and `*` act as wildcards and `\` escapes the next character.
- EncontrarAventuras.CityWithinStateWithinAll: stated for a CEP whose first two characters are not `\`, for the reason given for `CityImpliesState`.
- EncontrarAventuras.CityImpliesState: stated for a CEP whose first two characters are not `\`. A `\` in second place escapes the `%` of the state pattern, which then asks for a literal `%`. A row kept by the city pattern can then be dropped by the state pattern.
- SupabaseQuery.LikeFilterIsSubstring: "contains implies kept" is stated for a value without `\`. PostgreSQL reads `\` as an escape, so `%a\b%` keeps texts containing `ab`, not `a\b`. The exact substring meaning is stated for a value without `%`, `_`, `*` or `\`.
- Text.LikePrefix: the exact "starts with" meaning is stated for `x` free of `%`, `_`, `*` and `\`. With those, `x%` is a pattern rather than a prefix, and for `x` without `\` `LikeSelfPrefix` states the one direction that still holds.
- Text.LikeIsContains: the exact "contains" meaning is stated for `x` free of `%`, `_`, `*` and `\`. For `x` without `\`, `ContainsMatchesLike` states "contains implies matches"; with `\`, not even that holds.
- Text.Like: PostgreSQL rejects a pattern ending in a lone `\` with an error. The model instead keeps no row.
- FormRules.CountInput: `raw` is the value the number input reports, not the keys pressed. For a text that is not a valid floating-point number the input reports `""`, so typing `e` after `12` empties the field. `CountField` and `TypingNonDigitClears` state that. How the browser reads the text is taken from the HTML standard's definition of a valid floating-point number. Differences between browsers are not modelled.
- Common.KeepDigitsLast: it speaks of the value the input reports. What the field holds for the text in the box is stated by `FormRules.CountField` and the lemmas after it.
- EncontrarAventuras.ShownIsPage: the pages agree only under one fixed order of the rows that tie on `data`. Each page is a separate request ordered only by `data` (EncontrarAventuras.tsx:92-94), and PostgreSQL keeps no fixed order among tied rows across separate requests. So a row tied at a page boundary can show on two pages or on none. The model orders tied rows by their stored order on every request.
- Common.KeepDigits: its own contract bounds the result and fixes digit strings. The order and the contents are stated by `KeepDigitsAppend`, `KeepDigitsOneChar` and `KeepDigitsCounts`.
- Cadastro.Finish: assumes the auth context's `signUp` throws on failure. The `signUp` in src/lib/auth.ts:8-43 instead catches every error and returns it, and Cadastro.tsx:62 discards the result. If the context passes that function on, a failed sign-up still reports success and goes to /login. The auth context is not part of this model.
- The empty-state "Ver Todas" button and the navigation handlers set the filter or the page directly (`EncontrarAventuras.Navigate`). No separate property is stated about them.

## Findings

| source | as written | input that shows it | evidently intended | confidence | as-written member | corrected member |
|---|---|---|---|---|---|---|
| src/pages/EncontrarAventuras.tsx:101-107 | the page count counts every future adventure, without the CEP filter the page query applies | a signed-in user with CEP `01001000`, in `cidade` mode, and seven future adventures without a CEP: the count gives two pages, so a link to page 2 is shown, and page 2 is empty | the count uses the same filters as the page query, so every numbered page shows rows | high that the mismatch exists; medium that it is unintended; not executed | EncontrarAventuras.EmptyPageBehindVisibleLink | EncontrarAventuras.ConsistentPagesNonEmpty |

=== FILE: aventura_service.dfy ===
/** The four record kinds and their fetchers (`aventuraService`): list
    fetchers return a table newest first and degrade to an empty list on any
    store error; by-id fetchers return the single row with that id and
    degrade to null on any error, including zero or several matches. */
module AventuraService {
  import opened Common
  import Seq = Sequences

  // ---------------------------------------------------------------------
  // Closed enumerations

  datatype TipoCarona = TipoTrilha | TipoViagem
  datatype TipoVeiculo = Jipe | Moto | Bicicleta
  datatype Nivel = Facil | Medio | Dificil | Extremo

  function TipoCaronaName(t: TipoCarona): string {
    match t
    case TipoTrilha => "trilha"
    case TipoViagem => "viagem"
  }

  function TipoVeiculoName(t: TipoVeiculo): string {
    match t
    case Jipe => "jipe"
    case Moto => "moto"
    case Bicicleta => "bicicleta"
  }

  function NivelName(n: Nivel): string {
    match n
    case Facil => "facil"
    case Medio => "medio"
    case Dificil => "dificil"
    case Extremo => "extremo"
  }

  /** `'trilha' | 'viagem'`: the only accepted spellings. */
  function ParseTipoCarona(s: string): (r: Option<TipoCarona>)
    ensures r.Some? ==> TipoCaronaName(r.value) == s
    ensures r.None? <==> s != "trilha" && s != "viagem"
  {
    if s == "trilha" then Some(TipoTrilha)
    else if s == "viagem" then Some(TipoViagem)
    else None
  }

  /** `'jipe' | 'moto' | 'bicicleta'`. */
  function ParseTipoVeiculo(s: string): (r: Option<TipoVeiculo>)
    ensures r.Some? ==> TipoVeiculoName(r.value) == s
    ensures r.None? <==> s != "jipe" && s != "moto" && s != "bicicleta"
  {
    if s == "jipe" then Some(Jipe)
    else if s == "moto" then Some(Moto)
    else if s == "bicicleta" then Some(Bicicleta)
    else None
  }

  /** `'facil' | 'medio' | 'dificil' | 'extremo'`. */
  function ParseNivel(s: string): (r: Option<Nivel>)
    ensures r.Some? ==> NivelName(r.value) == s
    ensures r.None? <==> s != "facil" && s != "medio" && s != "dificil" && s != "extremo"
  {
    if s == "facil" then Some(Facil)
    else if s == "medio" then Some(Medio)
    else if s == "dificil" then Some(Dificil)
    else if s == "extremo" then Some(Extremo)
    else None
  }

  /** Each enumeration reads back every value it writes. */
  lemma EnumNamesRoundTrip(t: TipoCarona, v: TipoVeiculo, n: Nivel)
    ensures ParseTipoCarona(TipoCaronaName(t)) == Some(t)
    ensures ParseTipoVeiculo(TipoVeiculoName(v)) == Some(v)
    ensures ParseNivel(NivelName(n)) == Some(n)
  {
  }

  // ---------------------------------------------------------------------
  // Records

  /** Fields every record carries: owner and a snapshot of the owner's
      contact details taken when the record was created. */
  datatype Base = Base(id: string, userId: string, nome: string, telefone: string, cep: string, createdAt: Date)

  datatype Carona = Carona(
    base: Base,
    modeloCarro: string,
    vagas: int,
    data: Date,
    hora: string,
    destino: string,
    pontoEncontro: string,
    tipo: TipoCarona,
    observacoes: Option<string>)

  datatype ParceirosViagem = ParceirosViagem(
    base: Base,
    cidade: string,
    estado: string,
    dataInicio: Date,
    dataFim: Date,
    numPessoas: int,
    observacoes: Option<string>)

  datatype Trilha = Trilha(
    base: Base,
    tipoVeiculo: TipoVeiculo,
    nomeTrilha: string,
    data: Date,
    hora: string,
    pontoEncontro: string,
    vagas: int,
    nivelDificuldade: Nivel,
    observacoes: Option<string>)

  datatype Evento = Evento(
    base: Base,
    nomeEvento: string,
    descricao: string,
    dataIda: Date,
    horaIda: string,
    dataVolta: Option<Date>,
    horaVolta: Option<string>,
    pontoEncontro: string,
    localEvento: string,
    vagas: int,
    vagasIlimitadas: bool,
    imagemUrl: Option<string>)

  // ---------------------------------------------------------------------
  // The store

  /** One remote table: its rows, and the failure a read of it meets, if
      any (network, permissions, a missing relation). */
  datatype Table<T> = Table(rows: seq<T>, fault: Option<string>)

  datatype Store = Store(
    caronas: Table<Carona>,
    trilhas: Table<Trilha>,
    viagens: Table<ParceirosViagem>,
    eventos: Table<Evento>)

  /** What the remote client hands back: `{ data, error }`. */
  datatype Response<T> = Response(data: Option<seq<T>>, error: Option<string>)

  /** `if (error) throw error; return data || []`, with the `catch`
      returning `[]`. */
  function ListOrEmpty<T>(r: Response<T>): (rows: seq<T>)
    ensures r.error.Some? || r.data.None? ==> rows == []
    ensures r.error.None? && r.data.Some? ==> rows == r.data.value
  {
    if r.error.Some? then [] else r.data.GetOr([])
  }

  /** "Newer or as new": the order of `order('created_at', { ascending: false })`. */
  function NewerFirst<T>(base: T -> Base): (T, T) -> bool {
    (a: T, b: T) => base(a).createdAt >= base(b).createdAt
  }

  lemma NewerFirstTotalPreorder<T(!new)>(base: T -> Base)
    ensures Seq.TotalPreorder(NewerFirst(base))
  {
  }

  /** `select('*')[.eq(column, value)].order('created_at', desc)` on a table. */
  function SelectNewestFirst<T>(t: Table<T>, keep: T -> bool, base: T -> Base): Response<T> {
    if t.fault.Some? then Response(None, t.fault)
    else Response(Some(Seq.SortBy(Seq.Filter(t.rows, keep), NewerFirst(base))), None)
  }

  /** The contract every list fetcher meets: `[]` on a store error;
      otherwise exactly the kept rows, each as often as stored, newest
      first. */
  ghost predicate ListedNewestFirst<T>(t: Table<T>, keep: T -> bool, base: T -> Base, r: seq<T>) {
    if t.fault.Some? then r == []
    else
      && multiset(r) == multiset(Seq.Filter(t.rows, keep))
      && forall i, j :: 0 <= i < j < |r| ==> base(r[i]).createdAt >= base(r[j]).createdAt
  }

  function FetchList<T(!new)>(t: Table<T>, keep: T -> bool, base: T -> Base): (r: seq<T>)
    ensures ListedNewestFirst(t, keep, base, r)
  {
    var rows := ListOrEmpty(SelectNewestFirst(t, keep, base));
    if t.fault.None? then
      NewerFirstTotalPreorder(base);
      Seq.SortBySorted(Seq.Filter(t.rows, keep), NewerFirst(base));
      rows
    else rows
  }

  /** `eq('id', id)` as a row test. */
  function WithId<T>(base: T -> Base, id: string): T -> bool {
    (x: T) => base(x).id == id
  }

  /** `select('*').eq('id', id).single()` with the error-to-null `catch`:
      the row with that id when exactly one row has it, null otherwise. */
  function FetchById<T>(t: Table<T>, id: string, base: T -> Base): (r: Option<T>)
    ensures r.Some? <==> t.fault.None? && |Seq.Filter(t.rows, WithId(base, id))| == 1
    ensures r.Some? ==> r.value in t.rows && base(r.value).id == id
  {
    var matches := Seq.Filter(t.rows, WithId(base, id));
    if t.fault.None? && |matches| == 1 then
      assert matches[0] in matches;
      Some(matches[0])
    else None
  }

  function CaronaBase(c: Carona): Base { c.base }
  function TrilhaBase(t: Trilha): Base { t.base }
  function ViagemBase(v: ParceirosViagem): Base { v.base }
  function EventoBase(e: Evento): Base { e.base }

  // ---------------------------------------------------------------------
  // The fetchers

  function GetCaronas(s: Store): (r: seq<Carona>)
    ensures ListedNewestFirst(s.caronas, (c: Carona) => true, CaronaBase, r)
  {
    FetchList(s.caronas, (c: Carona) => true, CaronaBase)
  }

  function GetCaronaById(s: Store, id: string): (r: Option<Carona>)
    ensures r.Some? <==> s.caronas.fault.None? && |Seq.Filter(s.caronas.rows, WithId(CaronaBase, id))| == 1
    ensures r.Some? ==> r.value in s.caronas.rows && r.value.base.id == id
  {
    FetchById(s.caronas, id, CaronaBase)
  }

  /** Only the given user's carpools, newest first. */
  function GetCaronasByUser(s: Store, userId: string): (r: seq<Carona>)
    ensures ListedNewestFirst(s.caronas, (c: Carona) => c.base.userId == userId, CaronaBase, r)
    ensures forall i :: 0 <= i < |r| ==> r[i].base.userId == userId && r[i] in s.caronas.rows
  {
    var keep := (c: Carona) => c.base.userId == userId;
    var rows := FetchList(s.caronas, keep, CaronaBase);
    ListedRowsKept(s.caronas, keep, CaronaBase, rows);
    rows
  }

  /** A listed row is a stored row the selection keeps. */
  lemma ListedRowsKept<T(!new)>(t: Table<T>, keep: T -> bool, base: T -> Base, r: seq<T>)
    requires ListedNewestFirst(t, keep, base, r)
    ensures forall i :: 0 <= i < |r| ==> r[i] in t.rows && keep(r[i])
  {
    if t.fault.None? {
      var kept := Seq.Filter(t.rows, keep);
      forall i | 0 <= i < |r|
        ensures r[i] in t.rows && keep(r[i])
      {
        assert r[i] in multiset(kept);
        var j :| 0 <= j < |kept| && kept[j] == r[i];
      }
    }
  }

  function GetTrilhas(s: Store): (r: seq<Trilha>)
    ensures ListedNewestFirst(s.trilhas, (t: Trilha) => true, TrilhaBase, r)
  {
    FetchList(s.trilhas, (t: Trilha) => true, TrilhaBase)
  }

  function GetTrilhaById(s: Store, id: string): (r: Option<Trilha>)
    ensures r.Some? <==> s.trilhas.fault.None? && |Seq.Filter(s.trilhas.rows, WithId(TrilhaBase, id))| == 1
    ensures r.Some? ==> r.value in s.trilhas.rows && r.value.base.id == id
  {
    FetchById(s.trilhas, id, TrilhaBase)
  }

  function GetParceirosViagem(s: Store): (r: seq<ParceirosViagem>)
    ensures ListedNewestFirst(s.viagens, (v: ParceirosViagem) => true, ViagemBase, r)
  {
    FetchList(s.viagens, (v: ParceirosViagem) => true, ViagemBase)
  }

  function GetParceirosViagemById(s: Store, id: string): (r: Option<ParceirosViagem>)
    ensures r.Some? <==> s.viagens.fault.None? && |Seq.Filter(s.viagens.rows, WithId(ViagemBase, id))| == 1
    ensures r.Some? ==> r.value in s.viagens.rows && r.value.base.id == id
  {
    FetchById(s.viagens, id, ViagemBase)
  }

  function GetEventos(s: Store): (r: seq<Evento>)
    ensures ListedNewestFirst(s.eventos, (e: Evento) => true, EventoBase, r)
  {
    FetchList(s.eventos, (e: Evento) => true, EventoBase)
  }

  function GetEventoById(s: Store, id: string): (r: Option<Evento>)
    ensures r.Some? <==> s.eventos.fault.None? && |Seq.Filter(s.eventos.rows, WithId(EventoBase, id))| == 1
    ensures r.Some? ==> r.value in s.eventos.rows && r.value.base.id == id
  {
    FetchById(s.eventos, id, EventoBase)
  }

  /** A full list fetch of a healthy table returns every stored row. */
  lemma ListFetchKeepsEveryRow<T(!new)>(t: Table<T>, base: T -> Base)
    requires t.fault.None?
    ensures multiset(FetchList(t, (x: T) => true, base)) == multiset(t.rows)
  {
    Seq.FilterAll(t.rows, (x: T) => true);
  }
}

=== FILE: cadastro.dfy ===
/** The sign-up page (`Cadastro`): its schema with the password
    confirmation and the terms checkbox, and the sign-up request built from
    validated data. Whether an address is a well-formed email is decided
    by the schema library and enters here as `emailValid`. */
module Cadastro {
  import opened Common
  import opened FormRules

  datatype CadastroData = CadastroData(
    nome: string,
    email: string,
    password: string,
    confirmPassword: string,
    termos: bool)

  const Defaults: CadastroData := CadastroData("", "", "", "", false)

  const FailureText: string := "Ocorreu um erro ao tentar criar sua conta."

  /** Field checks first, then the object-level confirmation check, whose
      issue is filed under `confirmPassword`. The confirmation check runs
      even when a field check failed. */
  function Issues(d: CadastroData, emailValid: bool): seq<Issue> {
    MinLengthIssues("nome", d.nome, 2)
    + (if emailValid then [] else [Issue("email", InvalidEmail)])
    + MinLengthIssues("password", d.password, 6)
    + (if d.termos then [] else [Issue("termos", MustBeTrue)])
    + (if d.password == d.confirmPassword then [] else [Issue("confirmPassword", Mismatch)])
  }

  predicate Valid(d: CadastroData, emailValid: bool) {
    Issues(d, emailValid) == []
  }

  lemma ValidIff(d: CadastroData, emailValid: bool)
    ensures Valid(d, emailValid) <==>
      && |d.nome| >= 2
      && emailValid
      && |d.password| >= 6
      && d.termos
      && d.confirmPassword == d.password
  {
  }

  /** A mismatch is reported exactly when the two passwords differ, always
      on the confirmation field and never on the password field. */
  lemma MismatchOnConfirmation(d: CadastroData, emailValid: bool)
    ensures (exists k :: 0 <= k < |Issues(d, emailValid)| && Issues(d, emailValid)[k].rule == Mismatch)
        <==> d.password != d.confirmPassword
    ensures forall k :: 0 <= k < |Issues(d, emailValid)| && Issues(d, emailValid)[k].rule == Mismatch ==>
      Issues(d, emailValid)[k].field == "confirmPassword"
  {
    var found := Issues(d, emailValid);
    if d.password != d.confirmPassword {
      assert found[|found| - 1] == Issue("confirmPassword", Mismatch);
    }
  }

  /** The untouched form is refused, among others for the unticked terms. */
  lemma DefaultsRefused(emailValid: bool)
    ensures !Valid(Defaults, emailValid)
    ensures Issue("termos", MustBeTrue) in Issues(Defaults, emailValid)
  {
  }

  /** The profile sent along with the credentials. */
  datatype Profile = Profile(nome: string, avatarUrl: string, tipo: string)

  datatype SignUpRequest = SignUpRequest(email: string, password: string, profile: Profile)

  /** The `signUp(email, password, userData)` call `onSubmit` makes. */
  function Request(d: CadastroData, emailValid: bool): (r: SignUpRequest)
    requires Valid(d, emailValid)
    ensures r.profile == Profile(d.nome, "", "usuario")
    ensures r.email == d.email && r.password == d.password == d.confirmPassword
  {
    SignUpRequest(d.email, d.password, Profile(d.nome, "", "usuario"))
  }

  /** A filled-in form for a request: both password fields typed alike and
      the terms accepted. */
  function FormOf(r: SignUpRequest): CadastroData {
    CadastroData(r.profile.nome, r.email, r.password, r.password, true)
  }

  /** Exactly the requests with an empty avatar and the `usuario` kind are
      sent, and each one from its own form. `emailValid` is the email
      check's verdict on `r.email`: the form is accepted exactly when that
      check accepts the address. */
  lemma RequestFormOf(r: SignUpRequest, emailValid: bool)
    requires |r.profile.nome| >= 2 && |r.password| >= 6
    requires r.profile.avatarUrl == "" && r.profile.tipo == "usuario"
    ensures Valid(FormOf(r), emailValid) <==> emailValid
    ensures emailValid ==> Request(FormOf(r), emailValid) == r
  {
  }

  datatype SignUpResult = GoToLogin | Failed(message: string)

  /** Success leads to the login page; a failure reports the error's
      message, or the default text when there is none. */
  function Finish(error: Option<ServiceError>): (r: SignUpResult)
    ensures r.GoToLogin? <==> error.None?
    ensures error.Some? && error.value.message.Some? && error.value.message.value != ""
      ==> r == Failed(error.value.message.value)
    ensures error.Some? && (error.value.message.None? || error.value.message.value == "")
      ==> r == Failed(FailureText)
  {
    match Report(error, FailureText)
    case Saved => GoToLogin
    case Reported(m) => Failed(m)
  }
}

=== FILE: common.dfy ===
/** Shared vocabulary: optional values, abstract dates, the signed-in user
    and decimal digit strings (the shape every count field of the forms is
    kept in). */
module Common {

  /** Absent-or-present value, the model of `undefined`/`null`. */
  datatype Option<+T> = None | Some(value: T) {
    function GetOr(default: T): T {
      match this
      case Some(v) => v
      case None => default
    }
  }

  /** An instant, in milliseconds. A calendar day picked in a form is the
      instant of its local midnight, and the search page's "today" is
      today's midnight, while the pickers compare with the current instant.
      Only the order of instants matters to the rules modelled here. */
  type Date = nat

  /** The authenticated identity as the forms and pages see it. */
  datatype User = User(id: string, email: string)

  predicate IsDigit(c: char) {
    '0' <= c <= '9'
  }

  predicate AllDigits(s: string) {
    forall i :: 0 <= i < |s| ==> IsDigit(s[i])
  }

  /** A string of decimal digits only (possibly empty). */
  type Digits = s: string | AllDigits(s) witness ""

  function DigitValue(c: char): nat
    requires IsDigit(c)
  {
    c as int - '0' as int
  }

  function DigitChar(d: nat): (c: char)
    requires d < 10
    ensures IsDigit(c) && DigitValue(c) == d
  {
    ('0' as int + d) as char
  }

  /** The number a digit string denotes (`parseInt`/`Number` on digits;
      the empty string denotes 0, as `Number('')` does). */
  function DecimalValue(s: Digits): nat
    decreases |s|
  {
    if |s| == 0 then 0
    else DecimalValue(s[..|s| - 1]) * 10 + DigitValue(s[|s| - 1])
  }

  /** Canonical decimal rendering of a natural number. */
  function NatToString(n: nat): (r: Digits)
    ensures |r| > 0
    decreases n
  {
    if n < 10 then [DigitChar(n)]
    else NatToString(n / 10) + [DigitChar(n % 10)]
  }

  /** Template-literal rendering of an integer (`${n}`). */
  function IntToString(i: int): (r: string)
    ensures |r| > 0
  {
    if i < 0 then "-" + NatToString(-i) else NatToString(i)
  }

  /** Rendering a number and reading it back gives the number. */
  lemma {:induction false} DecimalOfNatToString(n: nat)
    ensures DecimalValue(NatToString(n)) == n
    decreases n
  {
    if n >= 10 {
      var s := NatToString(n);
      assert s[..|s| - 1] == NatToString(n / 10);
      DecimalOfNatToString(n / 10);
    }
  }

  /** A digit string denotes zero exactly when every digit is '0'. */
  lemma {:induction false} DecimalZeroIffAllZeros(s: Digits)
    ensures DecimalValue(s) == 0 <==> forall i :: 0 <= i < |s| ==> s[i] == '0'
    decreases |s|
  {
    if |s| > 0 {
      var init: Digits := s[..|s| - 1];
      DecimalZeroIffAllZeros(init);
      assert forall i :: 0 <= i < |init| ==> init[i] == s[i];
    }
  }

  /** `value.replace(/\D/g, '')`: keep the digits, in order. */
  function KeepDigits(s: string): (r: Digits)
    ensures |r| <= |s|
    ensures AllDigits(s) ==> r == s
  {
    if |s| == 0 then ""
    else
      var head: Digits := if IsDigit(s[0]) then [s[0]] else "";
      var rest := KeepDigits(s[1..]);
      assert AllDigits(s) ==> AllDigits(s[1..]) && head == [s[0]] && s == [s[0]] + s[1..];
      assert forall i :: 0 <= i < |head + rest| ==> (head + rest)[i] == if i < |head| then head[i] else rest[i - |head|];
      head + rest
  }

  /** Every digit is kept as often as it occurs, and nothing else is. */
  lemma {:induction false} KeepDigitsCounts(s: string)
    ensures forall c :: multiset(KeepDigits(s))[c] == if IsDigit(c) then multiset(s)[c] else 0
  {
    if |s| > 0 {
      KeepDigitsCounts(s[1..]);
      assert s == [s[0]] + s[1..];
      assert multiset(s) == multiset{s[0]} + multiset(s[1..]);
    }
  }

  /** A single character is kept exactly when it is a digit. */
  lemma KeepDigitsOneChar(c: char)
    ensures KeepDigits([c]) == if IsDigit(c) then [c] else []
  {
    assert [c][1..] == [];
  }

  /** The digits of a joined text are the digits of its first part followed
      by those of its second: the kept digits stay in the order typed. */
  lemma {:induction false} KeepDigitsAppend(a: string, b: string)
    ensures KeepDigits(a + b) == KeepDigits(a) + KeepDigits(b)
    decreases |a|
  {
    if |a| == 0 {
      assert a + b == b;
    } else {
      var head: string := if IsDigit(a[0]) then [a[0]] else "";
      assert (a + b)[0] == a[0];
      assert (a + b)[1..] == a[1..] + b;
      assert KeepDigits(a) == head + KeepDigits(a[1..]);
      calc {
        KeepDigits(a + b);
        head + KeepDigits(a[1..] + b);
        { KeepDigitsAppend(a[1..], b); }
        head + (KeepDigits(a[1..]) + KeepDigits(b));
        (head + KeepDigits(a[1..])) + KeepDigits(b);
      }
    }
  }

  /** Typing one more character appends it when it is a digit and leaves
      the kept digits alone otherwise. */
  lemma KeepDigitsLast(s: string)
    ensures |s| > 0 ==>
      KeepDigits(s) == KeepDigits(s[..|s| - 1]) + (if IsDigit(s[|s| - 1]) then [s[|s| - 1]] else [])
  {
    if |s| == 0 { return; }
    var last := s[|s| - 1];
    assert s == s[..|s| - 1] + [last];
    KeepDigitsAppend(s[..|s| - 1], [last]);
    KeepDigitsOneChar(last);
  }

  /** Nothing is kept exactly when nothing typed is a digit. */
  lemma KeepDigitsEmptyIff(s: string)
    ensures |KeepDigits(s)| == 0 <==> forall i :: 0 <= i < |s| ==> !IsDigit(s[i])
  {
    var r := KeepDigits(s);
    KeepDigitsCounts(s);
    if i :| 0 <= i < |s| && IsDigit(s[i]) {
      assert s[i] in multiset(s);
      assert multiset(r)[s[i]] > 0;
    }
    if |r| > 0 {
      assert r[0] in multiset(r);
      assert IsDigit(r[0]);
      assert r[0] in multiset(s);
      var j :| 0 <= j < |s| && s[j] == r[0];
    }
  }
}

=== FILE: encontrar_aventuras.dfy ===
/** The "find adventures" listing (`buscarAventuras`): future adventures
    ordered by date, optionally narrowed to the user's city or state by a
    prefix of the postal code (CEP), shown six to a page, with a page count
    and the previous/next/page-number controls. */
module EncontrarAventuras {
  import opened Common
  import opened Text
  import Seq = Sequences
  import Paging

  datatype Filtro = Cidade | Estado | Todas

  /** A row of the `aventuras` table. */
  datatype Aventura = Aventura(
    id: int,
    titulo: string,
    tipo: string,
    local: string,
    data: Date,
    vagas: int,
    custo: string,
    descricao: string,
    cep: Option<string>,
    imagem: Option<string>,
    usuarioId: Option<string>)

  const ItemsPerPage: nat := 6

  /** What a run of the listing reads: the signed-in user, the `perfis`
      table's CEP per user id (a null CEP is `None`), whether the profile
      read fails, today's midnight, the `aventuras` table, the failure the
      page query meets if any, and whether the count query fails. */
  datatype Env = Env(
    user: Option<User>,
    profiles: map<string, Option<string>>,
    profileFault: bool,
    today: Date,
    aventuras: seq<Aventura>,
    pageFault: Option<string>,
    countFault: bool)

  /** The page's state: the chosen filter, the page number, the rows on
      show and the page count. */
  datatype Listing = Listing(filtro: Filtro, page: nat, aventuras: seq<Aventura>, totalPages: nat)

  const Initial: Listing := Listing(Todas, 1, [], 1)

  datatype Notice = CepMissing | FetchFailed(message: string)

  datatype Outcome = Outcome(state: Listing, notices: seq<Notice>)

  // ---------------------------------------------------------------------
  // The CEP filter

  /** `userProfile?.cep || ''`: a failed read, a missing row and a null or
      empty CEP all read as `''`. */
  function ProfileCep(env: Env, userId: string): (cep: string)
    ensures cep != "" <==>
      (!env.profileFault && userId in env.profiles && env.profiles[userId].Some? && env.profiles[userId].value != "")
  {
    if env.profileFault || userId !in env.profiles then ""
    else OrElse(env.profiles[userId], "")
  }

  /** The profile is consulted only for a signed-in user in city or state
      mode; otherwise the CEP stays `''`. */
  function UserCep(filtro: Filtro, env: Env): string {
    if env.user.Some? && !filtro.Todas? then ProfileCep(env, env.user.value.id) else ""
  }

  /** A signed-in user asked for a location filter but has no CEP. */
  predicate WarnsMissingCep(filtro: Filtro, env: Env) {
    env.user.Some? && !filtro.Todas? && UserCep(filtro, env) == ""
  }

  /** The `ilike('cep', prefix%)` pattern, if any is applied. */
  function CepPattern(filtro: Filtro, cep: string): (p: Option<string>)
    ensures p.Some? <==> (!filtro.Todas? && cep != "")
    ensures p.Some? ==> p.value == Take(cep, if filtro.Cidade? then 3 else 2) + "%"
  {
    if filtro.Cidade? && cep != "" then Some(Take(cep, 3) + "%")
    else if filtro.Estado? && cep != "" then Some(Take(cep, 2) + "%")
    else None
  }

  /** `gte('data', today)` plus the CEP pattern, as a row test. A null CEP
      never matches a pattern. */
  function Keep(today: Date, pattern: Option<string>): Aventura -> bool {
    (a: Aventura) => a.data >= today && (pattern.None? || (a.cep.Some? && StoreLike(a.cep.value, pattern.value)))
  }

  function EarlierFirst(): (Aventura, Aventura) -> bool {
    (a: Aventura, b: Aventura) => a.data <= b.data
  }

  lemma EarlierFirstTotalPreorder()
    ensures Seq.TotalPreorder(EarlierFirst())
  {
  }

  /** Every row the query matches, in date order. */
  function Ordered(env: Env, pattern: Option<string>): seq<Aventura> {
    Seq.SortBy(Seq.Filter(env.aventuras, Keep(env.today, pattern)), EarlierFirst())
  }

  /** The rows of mode `filtro`, before the page window. */
  function Matching(filtro: Filtro, env: Env): seq<Aventura> {
    Ordered(env, CepPattern(filtro, UserCep(filtro, env)))
  }

  /** `range((page - 1) * 6, page * 6 - 1)`. */
  function Shown(filtro: Filtro, page: nat, env: Env): (r: seq<Aventura>)
    requires page >= 1
    ensures |r| <= ItemsPerPage
    ensures forall k :: 0 <= k < |r| ==>
      (page - 1) * ItemsPerPage + k < |Matching(filtro, env)|
      && r[k] == Matching(filtro, env)[(page - 1) * ItemsPerPage + k]
  {
    assert page * ItemsPerPage - 1 - (page - 1) * ItemsPerPage + 1 == ItemsPerPage;
    Paging.Range(Matching(filtro, env), (page - 1) * ItemsPerPage, page * ItemsPerPage - 1)
  }

  /** The second query's `count`: future rows, with no CEP filter; `null`
      (a failed count) reads as 0. */
  function FutureCount(env: Env): nat {
    if env.countFault then 0 else |Seq.Filter(env.aventuras, Keep(env.today, None))|
  }

  /** One run of `buscarAventuras` on the current state. The run keeps the
      filter it started with: the reset to `todas` after the warning only
      takes effect in the next run. A failed page query leaves the rows and
      the page count as they were. */
  function Buscar(st: Listing, env: Env): Outcome
    requires st.page >= 1
  {
    var warn := WarnsMissingCep(st.filtro, env);
    var filtro := if warn then Todas else st.filtro;
    var warnings := if warn then [CepMissing] else [];
    if env.pageFault.Some? then
      Outcome(st.(filtro := filtro), warnings + [FetchFailed(env.pageFault.value)])
    else
      Outcome(
        Listing(filtro, st.page, Shown(st.filtro, st.page, env),
                Paging.TotalPages(FutureCount(env), ItemsPerPage)),
        warnings)
  }

  // ---------------------------------------------------------------------
  // What a run shows

  /** City mode keeps the future rows whose CEP starts with the first
      three characters of the user's CEP, state mode the first two, and
      all mode every future row. */
  lemma CepFilterMeaning(filtro: Filtro, env: Env, a: Aventura)
    requires Literal(UserCep(filtro, env))
    ensures var cep := UserCep(filtro, env);
      Keep(env.today, CepPattern(filtro, cep))(a) <==>
        a.data >= env.today &&
        (filtro.Todas? || cep == "" ||
         (a.cep.Some? && Take(cep, if filtro.Cidade? then 3 else 2) <= a.cep.value))
  {
    var cep := UserCep(filtro, env);
    if !filtro.Todas? && cep != "" && a.cep.Some? {
      var x := Take(cep, if filtro.Cidade? then 3 else 2);
      assert Literal(x) by {
        assert forall i :: 0 <= i < |x| ==> x[i] == cep[i];
      }
      LikePrefix(a.cep.value, x);
    }
  }

  /** With no user, in all mode, or with an empty CEP, no CEP filter is
      applied: the run matches what all mode matches. */
  lemma NoCepFilterCases(filtro: Filtro, env: Env)
    requires env.user.None? || filtro.Todas? || UserCep(filtro, env) == ""
    ensures Matching(filtro, env) == Matching(Todas, env)
  {
  }

  /** A signed-in user in city or state mode whose profile has no CEP gets
      the warning and the filter is reset to all; nobody else does. */
  lemma MissingCepWarning(st: Listing, env: Env)
    requires st.page >= 1
    ensures var o := Buscar(st, env);
      (CepMissing in o.notices <==> env.user.Some? && !st.filtro.Todas? && ProfileCep(env, env.user.value.id) == "")
      && (CepMissing in o.notices ==> o.state.filtro.Todas?)
      && (CepMissing !in o.notices ==> o.state.filtro == st.filtro)
  {
    var o := Buscar(st, env);
    if WarnsMissingCep(st.filtro, env) {
      assert o.notices[0] == CepMissing;
    } else {
      assert forall k :: 0 <= k < |o.notices| ==> o.notices[k].FetchFailed?;
    }
  }

  /** The run that warns already shows the unfiltered rows, and the run the
      reset triggers shows the same rows again without a second warning. */
  lemma RerunAfterWarning(st: Listing, env: Env)
    requires st.page >= 1 && env.pageFault.None?
    requires WarnsMissingCep(st.filtro, env)
    ensures var next := Buscar(st, env).state;
      && next.filtro.Todas?
      && Buscar(next, env).notices == []
      && Buscar(next, env).state == next
  {
    NoCepFilterCases(st.filtro, env);
  }

  /** Stored rows dated today or later, in date order. */
  predicate FutureInOrder(s: seq<Aventura>, env: Env) {
    && (forall k :: 0 <= k < |s| ==> s[k] in env.aventuras && s[k].data >= env.today)
    && (forall i, j :: 0 <= i < j < |s| ==> s[i].data <= s[j].data)
  }

  /** The matched rows are stored future rows, in date order. */
  lemma MatchingFutureAndOrdered(filtro: Filtro, env: Env)
    ensures FutureInOrder(Matching(filtro, env), env)
  {
    var pattern := CepPattern(filtro, UserCep(filtro, env));
    var matched := Seq.Filter(env.aventuras, Keep(env.today, pattern));
    var ordered := Matching(filtro, env);
    EarlierFirstTotalPreorder();
    Seq.SortBySorted(matched, EarlierFirst());
    forall k | 0 <= k < |ordered|
      ensures ordered[k] in env.aventuras && ordered[k].data >= env.today
    {
      assert ordered[k] in multiset(matched);
    }
  }

  /** Every row on show is a stored future row; the rows come in date
      order and are at most six. */
  lemma ShownRowsAreFutureAndOrdered(st: Listing, env: Env)
    requires st.page >= 1 && env.pageFault.None?
    ensures |Buscar(st, env).state.aventuras| <= ItemsPerPage
    ensures FutureInOrder(Buscar(st, env).state.aventuras, env)
  {
    assert Buscar(st, env).state.aventuras == Shown(st.filtro, st.page, env);
    ShownFutureAndOrdered(st.filtro, st.page, env);
  }

  lemma ShownFutureAndOrdered(filtro: Filtro, page: nat, env: Env)
    requires page >= 1
    ensures FutureInOrder(Shown(filtro, page, env), env)
  {
    var matched := Matching(filtro, env);
    var shown := Shown(filtro, page, env);
    MatchingFutureAndOrdered(filtro, env);
    WindowKeepsFutureAndOrdered(matched, shown, (page - 1) * ItemsPerPage, env);
  }

  /** A window of a list of stored future rows in date order is one too. */
  lemma WindowKeepsFutureAndOrdered(ordered: seq<Aventura>, shown: seq<Aventura>, base: nat, env: Env)
    requires forall k :: 0 <= k < |shown| ==> base + k < |ordered| && shown[k] == ordered[base + k]
    requires FutureInOrder(ordered, env)
    ensures FutureInOrder(shown, env)
  {
    forall i, j | 0 <= i < j < |shown|
      ensures shown[i].data <= shown[j].data
    {
      var a, b := shown[i], shown[j];
      assert a == ordered[base + i] && b == ordered[base + j];
    }
  }

  /** Page `p` is the `p`-th block of six matched rows: pages do not
      overlap, and pages 1 to `n` together show the first `6 n` rows. */
  lemma ShownIsPage(filtro: Filtro, page: nat, env: Env)
    requires page >= 1
    ensures Shown(filtro, page, env) == Paging.Page(Matching(filtro, env), ItemsPerPage, page)
    ensures Paging.Pages(Matching(filtro, env), ItemsPerPage, page)
      == Matching(filtro, env)[..Paging.Min(page * ItemsPerPage, |Matching(filtro, env)|)]
  {
    Paging.PagesCover(Matching(filtro, env), ItemsPerPage, page);
  }

  /** For the same profile CEP, city results are among the state results
      and those among the unfiltered results, each row as often as stored. */
  lemma CityWithinStateWithinAll(env: Env)
    requires env.user.Some?
    requires NoEscape(Take(ProfileCep(env, env.user.value.id), 2))
    ensures multiset(Matching(Cidade, env)) <= multiset(Matching(Estado, env))
    ensures multiset(Matching(Estado, env)) <= multiset(Matching(Todas, env))
  {
    var city := Keep(env.today, CepPattern(Cidade, UserCep(Cidade, env)));
    var state := Keep(env.today, CepPattern(Estado, UserCep(Estado, env)));
    var all := Keep(env.today, CepPattern(Todas, UserCep(Todas, env)));
    forall a | city(a) ensures state(a) {
      CityImpliesState(env, a);
    }
    NarrowerFilterFewerRows(env.aventuras, city, state);
    NarrowerFilterFewerRows(env.aventuras, state, all);
  }

  /** A row in the user's city is in the user's state, whatever wildcards
      the CEP holds, as long as its first two characters are not the escape
      character. */
  lemma CityImpliesState(env: Env, a: Aventura)
    requires env.user.Some?
    requires NoEscape(Take(ProfileCep(env, env.user.value.id), 2))
    ensures Keep(env.today, CepPattern(Cidade, UserCep(Cidade, env)))(a) ==>
            Keep(env.today, CepPattern(Estado, UserCep(Estado, env)))(a)
  {
    var cep := ProfileCep(env, env.user.value.id);
    if cep != "" && a.cep.Some? && StoreLike(a.cep.value, Take(cep, 3) + "%") {
      var q := StarAsPercent(Take(cep, 2));
      if |cep| >= 3 {
        var s := StarAsPercent([cep[2]]) + "%";
        assert Take(cep, 3) + "%" == Take(cep, 2) + ([cep[2]] + "%");
        assert StarAsPercent(Take(cep, 3) + "%") == q + s;
        assert StarAsPercent(Take(cep, 2) + "%") == q + "%";
        LikeShorterPrefix(a.cep.value, q, s);
      } else {
        assert Take(cep, 3) == Take(cep, 2);
      }
    }
  }

  /** Sorting what a narrower test keeps gives a sub-multiset of sorting
      what a wider test keeps. */
  lemma NarrowerFilterFewerRows(rows: seq<Aventura>, strong: Aventura -> bool, weak: Aventura -> bool)
    requires forall a :: strong(a) ==> weak(a)
    ensures multiset(Seq.SortBy(Seq.Filter(rows, strong), EarlierFirst()))
         <= multiset(Seq.SortBy(Seq.Filter(rows, weak), EarlierFirst()))
  {
    Seq.FilterNarrows(rows, strong, weak);
    assert multiset(Seq.Filter(Seq.Filter(rows, weak), strong)) <= multiset(Seq.Filter(rows, weak));
  }

  /** The page count counts every future row, whatever the CEP filter. */
  lemma PageCountIgnoresCep(st: Listing, env: Env)
    requires st.page >= 1 && env.pageFault.None? && !env.countFault
    ensures Buscar(st, env).state.totalPages
      == Paging.TotalPages(|Matching(Todas, env)|, ItemsPerPage)
  {
  }

  // ---------------------------------------------------------------------
  // Pagination controls

  /** What the pagination bar offers: whether it is shown, the previous
      and next targets, and the numbered links. */
  datatype Controls = Controls(visible: bool, previous: Option<nat>, links: seq<nat>, next: Option<nat>)

  function PaginationControls(page: nat, totalPages: nat): (c: Controls)
    ensures c.visible <==> totalPages > 1
    ensures c.previous.Some? <==> totalPages > 1 && page > 1
    ensures c.next.Some? <==> totalPages > 1 && page < totalPages
    ensures c.visible ==> |c.links| == totalPages && forall k :: 0 <= k < |c.links| ==> c.links[k] == k + 1
    ensures !c.visible ==> c.links == []
  {
    if totalPages <= 1 then Controls(false, None, [], None)
    else
      Controls(
        true,
        if page > 1 then Some(page - 1) else None,
        seq(totalPages, k requires 0 <= k < totalPages => k + 1),
        if page < totalPages then Some(page + 1) else None)
  }

  /** The numbered links and "next" lead to pages between 1 and the page
      count, "previous" to the page before the current one; from a page
      within the count, "previous" stays within it too. */
  lemma ControlsStayInRange(page: nat, totalPages: nat)
    requires page >= 1
    ensures var c := PaginationControls(page, totalPages);
      && (c.previous.Some? ==> c.previous.value == page - 1 && 1 <= c.previous.value)
      && (c.previous.Some? && page <= totalPages ==> c.previous.value <= totalPages)
      && (c.next.Some? ==> c.next.value == page + 1 && 1 <= c.next.value <= totalPages)
      && (forall k :: 0 <= k < |c.links| ==> 1 <= c.links[k] <= totalPages)
  {
  }

  /** Clicking a control changes the page only. */
  function Navigate(st: Listing, target: nat): Listing {
    st.(page := target)
  }

  // ---------------------------------------------------------------------
  // The page count as evidently intended

  /** The listing with the page count taken over the same rows the page
      query matches. */
  function BuscarConsistente(st: Listing, env: Env): Outcome
    requires st.page >= 1
  {
    var o := Buscar(st, env);
    if env.pageFault.Some? then o
    else o.(state := o.state.(totalPages :=
      if env.countFault then 0 else Paging.TotalPages(|Matching(st.filtro, env)|, ItemsPerPage)))
  }

  /** With the consistent count, a page shows rows exactly when it is one
      of the numbered pages. */
  lemma ConsistentPagesNonEmpty(st: Listing, env: Env)
    requires st.page >= 1 && env.pageFault.None? && !env.countFault
    ensures var s := BuscarConsistente(st, env).state;
      |s.aventuras| > 0 <==> st.page <= s.totalPages
  {
    ShownIsPage(st.filtro, st.page, env);
    Paging.PageNonEmptyIff(Matching(st.filtro, env), ItemsPerPage, st.page);
  }

  /** As written, a city filter that matches nothing still offers a second
      page when seven future adventures exist, and that page is empty. */
  lemma EmptyPageBehindVisibleLink()
    ensures var st := Buscar(Listing(Cidade, 2, [], 1), SevenUnlocated()).state;
      && st.totalPages == 2
      && 2 in PaginationControls(1, st.totalPages).links
      && st.aventuras == []
  {
    SevenUnlocatedCounts();
    CityUserCep();
    EmptyCityPageCounted(SevenUnlocated());
  }

  /** Any store with seven future rows and no city match shows the same
      mismatch. */
  lemma EmptyCityPageCounted(env: Env)
    requires env.pageFault.None? && env.user.Some? && UserCep(Cidade, env) != ""
    requires FutureCount(env) == 7 && Matching(Cidade, env) == []
    ensures var st := Buscar(Listing(Cidade, 2, [], 1), env).state;
      && st.totalPages == 2
      && 2 in PaginationControls(1, st.totalPages).links
      && st.aventuras == []
  {
    assert Paging.TotalPages(7, ItemsPerPage) == 2;
    assert PaginationControls(1, 2).links[1] == 2;
  }

  /** In that store, seven rows count and none matches the city. */
  lemma SevenUnlocatedCounts()
    ensures FutureCount(SevenUnlocated()) == 7
    ensures Matching(Cidade, SevenUnlocated()) == []
  {
    SevenCount();
    NoCityMatch();
  }

  lemma SevenCount()
    ensures FutureCount(SevenUnlocated()) == 7
  {
    AllFuture(SevenUnlocated().aventuras, 0);
  }

  lemma NoCityMatch()
    ensures Matching(Cidade, SevenUnlocated()) == []
  {
    var env := SevenUnlocated();
    CityUserCep();
    var p := CepPattern(Cidade, "01001000");
    NothingMatches(env.aventuras, p);
    assert Seq.Filter(env.aventuras, Keep(0, p)) == [];
  }

  lemma CityUserCep()
    ensures UserCep(Cidade, SevenUnlocated()) == "01001000"
  {
    var env := SevenUnlocated();
    assert env.user.value.id == "u";
    assert env.profiles["u"] == Some("01001000");
  }

  lemma AllFuture(rows: seq<Aventura>, today: Date)
    requires forall k :: 0 <= k < |rows| ==> rows[k].data >= today
    ensures |Seq.Filter(rows, Keep(today, None))| == |rows|
  {
    Seq.FilterAll(rows, Keep(today, None));
  }

  /** Rows without a CEP never match a CEP pattern. */
  lemma {:induction false} NothingMatches(rows: seq<Aventura>, pattern: Option<string>)
    requires pattern.Some?
    requires forall k :: 0 <= k < |rows| ==> rows[k].cep.None?
    ensures Seq.Filter(rows, Keep(0, pattern)) == []
  {
    if |rows| > 0 {
      NothingMatches(rows[1..], pattern);
    }
  }

  function Unlocated(): Aventura {
    Aventura(0, "Trilha", "trilha", "Serra", 0, 4, "", "", None, None, None)
  }

  /** Seven adventures today, none with a CEP; the user's CEP is 01001000. */
  function SevenUnlocated(): Env {
    Env(Some(User("u", "u@exemplo.com")), map["u" := Some("01001000")], false, 0,
        [Unlocated(), Unlocated(), Unlocated(), Unlocated(), Unlocated(), Unlocated(), Unlocated()], None, false)
  }
}

=== FILE: evento_form.dfy ===
/** The event form (`EventoForm`): its schema, its defaults, the insert
    row built from validated data, and the return-date picker. */
module EventoForm {
  import opened Common
  import opened Text
  import opened FormRules

  datatype EventoData = EventoData(
    nomeEvento: string,
    descricao: string,
    dataIda: Option<Date>,
    horaIda: string,
    dataVolta: Option<Date>,
    horaVolta: Option<string>,
    pontoEncontro: string,
    localEvento: string,
    vagas: Digits)

  /** `defaultValues`: every text empty, no dates chosen. */
  const Defaults: EventoData := EventoData("", "", None, "", None, Some(""), "", "", "")

  const FailureText: string := "Ocorreu um erro ao cadastrar o evento"

  /** The schema's issues, field by field. */
  function Issues(d: EventoData): seq<Issue> {
    MinLengthIssues("nome_evento", d.nomeEvento, 2)
    + MinLengthIssues("descricao", d.descricao, 10)
    + RequiredIssues("data_ida", d.dataIda)
    + MinLengthIssues("hora_ida", d.horaIda, 1)
    + MinLengthIssues("ponto_encontro", d.pontoEncontro, 2)
    + MinLengthIssues("local_evento", d.localEvento, 2)
    + CountIssues("vagas", d.vagas)
  }

  predicate Valid(d: EventoData) {
    Issues(d) == []
  }

  /** The schema accepts exactly these forms; the return date and time
      play no part. */
  lemma ValidIff(d: EventoData)
    ensures Valid(d) <==>
      && |d.nomeEvento| >= 2
      && |d.descricao| >= 10
      && d.dataIda.Some?
      && |d.horaIda| >= 1
      && |d.pontoEncontro| >= 2
      && |d.localEvento| >= 2
      && PositiveCount(d.vagas)
    ensures forall volta: Option<Date>, hora: Option<string> ::
      Valid(d) <==> Valid(d.(dataVolta := volta, horaVolta := hora))
  {
  }

  /** The untouched form is refused, on every required field. */
  lemma DefaultsRefused()
    ensures !Valid(Defaults)
    ensures forall f :: f in ["nome_evento", "descricao", "data_ida", "hora_ida", "ponto_encontro", "local_evento", "vagas"] ==>
      (exists k :: 0 <= k < |Issues(Defaults)| && Issues(Defaults)[k].field == f)
  {
    var found := Issues(Defaults);
    assert found[0].field == "nome_evento";
    assert found[1].field == "descricao";
    assert found[2].field == "data_ida";
    assert found[3].field == "hora_ida";
    assert found[4].field == "ponto_encontro";
    assert found[5].field == "local_evento";
    assert found[6].field == "vagas";
  }

  /** The `eventos` row `onSubmit` inserts. */
  datatype EventoRow = EventoRow(
    userId: string,
    nomeEvento: string,
    descricao: string,
    dataIda: Date,
    horaIda: string,
    dataVolta: Option<Date>,
    horaVolta: Option<string>,
    pontoEncontro: string,
    localEvento: string,
    vagas: int)

  /** `onSubmit`, which the form calls only with validated data. */
  function Submit(d: EventoData, user: Option<User>): (s: Submission<EventoRow>)
    requires Valid(d)
    ensures s.RedirectToLogin? <==> user.None?
    ensures s.Insert? ==>
      && s.row.userId == user.value.id
      && s.row.vagas >= 1
      && s.row.vagas == DecimalValue(d.vagas)
      && s.row.nomeEvento == d.nomeEvento && s.row.descricao == d.descricao
      && s.row.horaIda == d.horaIda
      && s.row.pontoEncontro == d.pontoEncontro && s.row.localEvento == d.localEvento
      && Some(s.row.dataIda) == d.dataIda
      && s.row.dataVolta == d.dataVolta
      && (s.row.horaVolta.None? <==> d.horaVolta.None? || d.horaVolta.value == "")
      && s.row.horaVolta == EmptyToNull(d.horaVolta)
  {
    if user.None? then RedirectToLogin
    else
      Insert(EventoRow(
        user.value.id, d.nomeEvento, d.descricao, d.dataIda.value, d.horaIda,
        d.dataVolta, EmptyToNull(d.horaVolta),
        d.pontoEncontro, d.localEvento, ParseCount(d.vagas)))
  }

  /** The form that writes a given row. */
  function FormOf(row: EventoRow): (d: EventoData)
    requires row.vagas >= 1
  {
    EventoData(row.nomeEvento, row.descricao, Some(row.dataIda), row.horaIda, row.dataVolta,
               row.horaVolta, row.pontoEncontro, row.localEvento, NatToString(row.vagas))
  }

  /** Every row the schema can produce is produced, by its own form, and
      nothing is lost on the way: submitting `FormOf(row)` inserts `row`. */
  lemma SubmitFormOf(row: EventoRow, email: string)
    requires row.vagas >= 1 && row.horaVolta != Some("")
    requires |row.nomeEvento| >= 2 && |row.descricao| >= 10 && |row.horaIda| >= 1
    requires |row.pontoEncontro| >= 2 && |row.localEvento| >= 2
    ensures Valid(FormOf(row))
    ensures Submit(FormOf(row), Some(User(row.userId, email))) == Insert(row)
  {
    ValidIff(FormOf(row));
    ParseCountOfRendered(row.vagas);
  }

  /** Every accepted form is submitted as a row whose own form is the
      submitted one up to the count's rendering (`03` is stored as 3) and
      an empty return time (stored as null). */
  lemma FormOfSubmit(d: EventoData, u: User)
    requires Valid(d)
    ensures Submit(d, Some(u)).Insert?
    ensures FormOf(Submit(d, Some(u)).row) ==
      d.(vagas := NatToString(DecimalValue(d.vagas)), horaVolta := EmptyToNull(d.horaVolta))
  {
    ValidIff(d);
  }

  /** What a submission leaves behind, with this form's failure text. */
  function Finish(d: EventoData, error: Option<ServiceError>): (EventoData, Outcome) {
    FormRules.Finish(d, Defaults, FailureText, error)
  }

  // ---------------------------------------------------------------------
  // Pickers

  /** The departure picker refuses past days. */
  predicate DepartureDayEnabled(date: Date, now: Date) {
    DayEnabled(date, now)
  }

  /** The return picker refuses past days and days before the departure. */
  predicate ReturnDayEnabled(date: Date, now: Date, d: EventoData) {
    LaterDayEnabled(date, now, d.dataIda)
  }

  /** A return day the picker offers is never before the departure; the
      schema itself does not check this, so a return date set otherwise
      (before the departure was changed, say) is accepted. */
  lemma ReturnOrderOnlyInPicker(date: Date, now: Date, d: EventoData)
    ensures ReturnDayEnabled(date, now, d) && d.dataIda.Some? ==> d.dataIda.value <= date
    ensures var w := EventoData("Festa", "Encontro de jipeiros", Some(10), "08:00", Some(5), None, "Praca", "Serra", "3");
      Valid(w) && w.dataVolta.value < w.dataIda.value
  {
    LaterDayEnabledIff(date, now, d.dataIda);
    var w := EventoData("Festa", "Encontro de jipeiros", Some(10), "08:00", Some(5), None, "Praca", "Serra", "3");
    assert PositiveCount(w.vagas) by {
      PositiveCountIffNonZeroDigit(w.vagas);
      assert w.vagas[0] != '0';
    }
  }
}

=== FILE: form_rules.dfy ===
/** Rules the content forms share: schema issues, the digits-only count
    field, the outcome of a submission, and the date-picker predicates. */
module FormRules {
  import opened Common

  /** The check a field failed. */
  datatype Rule =
    | MinLength(n: nat)   // `z.string().min(n)`
    | Required            // `z.date({ required_error })` left unset
    | PositiveNumber      // `refine(val => Number(val) > 0)`
    | Mismatch            // the sign-up password confirmation
    | MustBeTrue          // the terms checkbox
    | InvalidEmail        // `z.string().email()`
    | NotAnOption         // `z.enum([...])` given another value

  datatype Issue = Issue(field: string, rule: Rule)

  /** `z.string().min(n)` on one field. */
  function MinLengthIssues(field: string, s: string, n: nat): (r: seq<Issue>)
    ensures r == [] <==> |s| >= n
    ensures r != [] ==> r == [Issue(field, MinLength(n))]
  {
    if |s| >= n then [] else [Issue(field, MinLength(n))]
  }

  /** A required date. */
  function RequiredIssues(field: string, d: Option<Date>): (r: seq<Issue>)
    ensures r == [] <==> d.Some?
  {
    if d.Some? then [] else [Issue(field, Required)]
  }

  /** `z.enum([...])`, given the field's parse into the closed type. */
  function EnumIssues<T>(field: string, parsed: Option<T>): (r: seq<Issue>)
    ensures r == [] <==> parsed.Some?
  {
    if parsed.Some? then [] else [Issue(field, NotAnOption)]
  }

  // ---------------------------------------------------------------------
  // The digits-only count field

  /** The count inputs' change handler, `raw.replace(/\D/g, '')`, on the
      value `raw` the input reports: each character of `raw` is kept when
      it is a digit and dropped otherwise, so the kept digits keep their
      order. */
  function CountInput(raw: string): (v: Digits)
    ensures AllDigits(raw) ==> v == raw
    ensures |v| <= |raw|
    ensures |v| == 0 <==> forall i :: 0 <= i < |raw| ==> !IsDigit(raw[i])
    ensures |raw| > 0 ==>
      v == CountInput(raw[..|raw| - 1]) + (if IsDigit(raw[|raw| - 1]) then [raw[|raw| - 1]] else [])
    decreases |raw|
  {
    KeepDigitsLast(raw);
    KeepDigitsEmptyIff(raw);
    KeepDigits(raw)
  }

  /** How far a text has been read as the HTML standard's "valid
      floating-point number": an optional `-`, then digits, `.` and digits,
      or both, then optionally `e` or `E`, an optional sign and digits. */
  datatype NumberState =
    | Start | Signed | IntDigits | Dot | FracDigits | Exp | ExpSigned | ExpDigits | Rejected

  function NumberStep(q: NumberState, c: char): NumberState {
    match q
    case Start => if c == '-' then Signed else if IsDigit(c) then IntDigits else if c == '.' then Dot else Rejected
    case Signed => if IsDigit(c) then IntDigits else if c == '.' then Dot else Rejected
    case IntDigits =>
      if IsDigit(c) then IntDigits else if c == '.' then Dot else if c == 'e' || c == 'E' then Exp else Rejected
    case Dot => if IsDigit(c) then FracDigits else Rejected
    case FracDigits => if IsDigit(c) then FracDigits else if c == 'e' || c == 'E' then Exp else Rejected
    case Exp => if c == '-' || c == '+' then ExpSigned else if IsDigit(c) then ExpDigits else Rejected
    case ExpSigned => if IsDigit(c) then ExpDigits else Rejected
    case ExpDigits => if IsDigit(c) then ExpDigits else Rejected
    case Rejected => Rejected
  }

  function NumberRun(q: NumberState, t: string): NumberState
    decreases |t|
  {
    if |t| == 0 then q else NumberRun(NumberStep(q, t[0]), t[1..])
  }

  predicate IsNumberText(t: string) {
    var q := NumberRun(Start, t);
    q.IntDigits? || q.FracDigits? || q.ExpDigits?
  }

  /** `e.target.value` of an `<input type="number">` showing `shown`: the
      text itself when it is a valid floating-point number, and the empty
      string otherwise. */
  function ReportedValue(shown: string): string {
    if IsNumberText(shown) then shown else ""
  }

  /** What a count field holds after an edit that leaves `shown` in the
      box: the handler applied to the value the input reports. */
  function CountField(shown: string): (v: Digits)
    ensures !IsNumberText(shown) ==> v == ""
    ensures IsNumberText(shown) ==> v == KeepDigits(shown)
  {
    CountInput(ReportedValue(shown))
  }

  /** Reading one more character is one more step. */
  lemma {:induction false} NumberRunAppend(q: NumberState, t: string, c: char)
    ensures NumberRun(q, t + [c]) == NumberStep(NumberRun(q, t), c)
    decreases |t|
  {
    if |t| == 0 {
      assert [c][1..] == [];
    } else {
      assert (t + [c])[1..] == t[1..] + [c];
      NumberRunAppend(NumberStep(q, t[0]), t[1..], c);
    }
  }

  /** A run of digits, read from the start, after a sign or after digits,
      ends among the integer digits. */
  lemma {:induction false} DigitsRun(q: NumberState, t: string)
    requires q.Start? || q.Signed? || q.IntDigits?
    requires |t| > 0 && AllDigits(t)
    ensures NumberRun(q, t) == IntDigits
    decreases |t|
  {
    if |t| > 1 {
      DigitsRun(NumberStep(q, t[0]), t[1..]);
    }
  }

  /** A non-empty digit string is a valid number, so the field holds it. */
  lemma TypedDigitsKept(t: string)
    requires |t| > 0 && AllDigits(t)
    ensures IsNumberText(t)
    ensures CountField(t) == t
  {
    DigitsRun(Start, t);
  }

  /** Typing a digit after digits appends it to the field. */
  lemma TypingDigitExtends(t: string, c: char)
    requires AllDigits(t) && IsDigit(c)
    ensures CountField(t + [c]) == t + [c]
  {
    TypedDigitsKept(t + [c]);
  }

  /** Typing any other character after digits empties the field: `12e`,
      `12.` and `12-` are not valid numbers, so the input reports `""`,
      though the box still shows the text. */
  lemma TypingNonDigitClears(t: string, c: char)
    requires |t| > 0 && AllDigits(t) && !IsDigit(c)
    ensures !IsNumberText(t + [c])
    ensures CountField(t + [c]) == ""
  {
    DigitsRun(Start, t);
    NumberRunAppend(Start, t, c);
  }

  /** A valid number keeps only its digits: a typed `1.5` is held as
      `15`. */
  lemma DecimalPointDropped()
    ensures IsNumberText("1.5") && CountField("1.5") == "15"
  {
    assert "1.5" == "1." + "5" && "1." == "1" + ".";
    KeepDigitsAppend("1.", "5");
    KeepDigitsAppend("1", ".");
    KeepDigitsOneChar('1');
    KeepDigitsOneChar('.');
    KeepDigitsOneChar('5');
    assert KeepDigits("1.") == "1";
    assert KeepDigits("1.5") == "15";
    assert NumberRun(Start, "1.5") == FracDigits;
  }

  /** A typed `-3` is held as `3`. */
  lemma MinusSignDropped()
    ensures IsNumberText("-3") && CountField("-3") == "3"
  {
    assert "-3" == "-" + "3";
    KeepDigitsAppend("-", "3");
    KeepDigitsOneChar('-');
    KeepDigitsOneChar('3');
  }

  /** `!isNaN(Number(val)) && Number(val) > 0` on a digit string: the empty
      string reads as 0 and is rejected. */
  predicate PositiveCount(v: Digits) {
    DecimalValue(v) > 0
  }

  /** A count is accepted exactly when some digit is not `0`; in
      particular the empty field is refused. */
  lemma PositiveCountIffNonZeroDigit(v: Digits)
    ensures PositiveCount(v) <==> exists i :: 0 <= i < |v| && v[i] != '0'
    ensures v == "" ==> !PositiveCount(v)
  {
    DecimalZeroIffAllZeros(v);
  }

  /** `min(1)` followed by the positivity refinement. The refinement runs
      even after `min(1)` fails, so an empty field carries both issues. */
  function CountIssues(field: string, v: Digits): (r: seq<Issue>)
    ensures r == [] <==> PositiveCount(v)
    ensures v == "" ==> r == [Issue(field, MinLength(1)), Issue(field, PositiveNumber)]
  {
    PositiveCountIffNonZeroDigit(v);
    MinLengthIssues(field, v, 1) + (if PositiveCount(v) then [] else [Issue(field, PositiveNumber)])
  }

  /** `parseInt(val)` on an accepted count. */
  function ParseCount(v: Digits): (n: int)
    requires PositiveCount(v)
    ensures n >= 1
    ensures n == DecimalValue(v)
  {
    DecimalValue(v)
  }

  /** Typing a count and reading it back: the digits typed give the value. */
  lemma ParseCountOfRendered(n: nat)
    requires n >= 1
    ensures PositiveCount(NatToString(n)) && ParseCount(CountInput(NatToString(n))) == n
  {
    DecimalOfNatToString(n);
  }

  // ---------------------------------------------------------------------
  // Submitting

  /** What `onSubmit` does with validated data: send a signed-out visitor
      to the login page without writing, or insert a row. */
  datatype Submission<R> = RedirectToLogin | Insert(row: R)

  /** A failure reported by the store or the auth service; its message may
      be missing or empty. */
  datatype ServiceError = ServiceError(message: Option<string>)

  datatype Outcome = Saved | Reported(message: string)

  /** `error.message || default`. */
  function Report(error: Option<ServiceError>, default: string): (o: Outcome)
    ensures o.Saved? <==> error.None?
    ensures error.Some? && error.value.message.Some? && error.value.message.value != ""
      ==> o == Reported(error.value.message.value)
    ensures error.Some? && (error.value.message.None? || error.value.message.value == "")
      ==> o == Reported(default)
  {
    if error.None? then Saved
    else if error.value.message.Some? && error.value.message.value != "" then Reported(error.value.message.value)
    else Reported(default)
  }

  /** What a submission of a content form leaves behind: `form.reset()`
      runs only after a successful insert, and a failure is reported with
      the error's message or, when that is missing or empty, the form's own
      text. */
  function Finish<D>(d: D, defaults: D, failureText: string, error: Option<ServiceError>): (r: (D, Outcome))
    ensures error.None? <==> r.1 == Saved
    ensures error.None? ==> r.0 == defaults
    ensures error.Some? ==> r.0 == d
    ensures error.Some? && error.value.message.Some? && error.value.message.value != ""
      ==> r.1 == Reported(error.value.message.value)
    ensures error.Some? && (error.value.message.None? || error.value.message.value == "")
      ==> r.1 == Reported(failureText)
  {
    var o := Report(error, failureText);
    (if o.Saved? then defaults else d, o)
  }

  // ---------------------------------------------------------------------
  // Date pickers

  /** Milliseconds in a day. A calendar day picked in a form is the instant
      of its local midnight, `day * DayMs`, while `new Date()` is the
      current instant. */
  const DayMs: nat := 86400000

  /** `disabled={date => date < new Date()}`. */
  predicate DayEnabled(date: Date, now: Date) {
    !(date < now)
  }

  /** `date < new Date() || (first && date < first)`: the return or end
      date picker, which also refuses days before the chosen first day. */
  predicate LaterDayEnabled(date: Date, now: Date, first: Option<Date>) {
    !(date < now || (first.Some? && date < first.value))
  }

  /** An enabled later day is neither past nor before the first day, and
      every such day is enabled. */
  lemma LaterDayEnabledIff(date: Date, now: Date, first: Option<Date>)
    ensures LaterDayEnabled(date, now, first) <==>
      DayEnabled(date, now) && (first.None? || first.value <= date)
  {
  }

  /** Once today has begun, today's midnight lies before the current
      instant: the pickers refuse today itself and offer exactly the later
      days. */
  lemma PickerStartsTomorrow(day: nat, today: nat, now: Date)
    requires today * DayMs < now < (today + 1) * DayMs
    ensures DayEnabled(day * DayMs, now) <==> day > today
  {
  }
}

=== FILE: oferecer_carona_form.dfy ===
/** The carpool offer form (`OferecerCaronaForm`): its schema, its
    defaults, and the insert row built from validated data. */
module OferecerCaronaForm {
  import opened Common
  import opened Text
  import opened FormRules
  import opened AventuraService

  datatype CaronaData = CaronaData(
    modeloCarro: string,
    vagas: Digits,
    data: Option<Date>,
    hora: string,
    destino: string,
    pontoEncontro: string,
    tipo: string,
    observacoes: Option<string>)

  /** `defaultValues`: a carpool to a trail, everything else empty and no
      date chosen. */
  const Defaults: CaronaData := CaronaData("", "", None, "", "", "", "trilha", Some(""))

  const FailureText: string := "Ocorreu um erro ao cadastrar a carona"

  function Issues(d: CaronaData): seq<Issue> {
    MinLengthIssues("modelo_carro", d.modeloCarro, 2)
    + CountIssues("vagas", d.vagas)
    + RequiredIssues("data", d.data)
    + MinLengthIssues("hora", d.hora, 1)
    + MinLengthIssues("destino", d.destino, 2)
    + MinLengthIssues("ponto_encontro", d.pontoEncontro, 2)
    + EnumIssues("tipo", ParseTipoCarona(d.tipo))
  }

  predicate Valid(d: CaronaData) {
    Issues(d) == []
  }

  /** The schema accepts exactly these forms; the notes play no part. */
  lemma ValidIff(d: CaronaData)
    ensures Valid(d) <==>
      && |d.modeloCarro| >= 2
      && PositiveCount(d.vagas)
      && d.data.Some?
      && |d.hora| >= 1
      && |d.destino| >= 2
      && |d.pontoEncontro| >= 2
      && d.tipo in ["trilha", "viagem"]
    ensures forall obs: Option<string> :: Valid(d) <==> Valid(d.(observacoes := obs))
  {
  }

  /** The default kind is a valid choice (a trail), and the untouched form
      is refused only on the fields left empty. */
  lemma DefaultsChosen()
    ensures ParseTipoCarona(Defaults.tipo) == Some(TipoTrilha)
    ensures !Valid(Defaults)
    ensures forall k :: 0 <= k < |Issues(Defaults)| ==>
      Issues(Defaults)[k].field in ["modelo_carro", "vagas", "data", "hora", "destino", "ponto_encontro"]
  {
  }

  /** The `caronas` row `onSubmit` inserts. */
  datatype CaronaRow = CaronaRow(
    userId: string,
    modeloCarro: string,
    vagas: int,
    data: Date,
    hora: string,
    destino: string,
    pontoEncontro: string,
    tipo: TipoCarona,
    observacoes: Option<string>)

  /** `onSubmit`, which the form calls only with validated data. */
  function Submit(d: CaronaData, user: Option<User>): (s: Submission<CaronaRow>)
    requires Valid(d)
    ensures s.RedirectToLogin? <==> user.None?
    ensures s.Insert? ==>
      && s.row.userId == user.value.id
      && s.row.vagas >= 1
      && s.row.vagas == DecimalValue(d.vagas)
      && s.row.modeloCarro == d.modeloCarro && s.row.hora == d.hora
      && s.row.destino == d.destino && s.row.pontoEncontro == d.pontoEncontro
      && s.row.observacoes == EmptyToNull(d.observacoes)
      && TipoCaronaName(s.row.tipo) == d.tipo
      && Some(s.row.data) == d.data
      && (s.row.observacoes.None? <==> d.observacoes.None? || d.observacoes.value == "")
  {
    if user.None? then RedirectToLogin
    else
      Insert(CaronaRow(
        user.value.id, d.modeloCarro, ParseCount(d.vagas), d.data.value, d.hora,
        d.destino, d.pontoEncontro, ParseTipoCarona(d.tipo).value, EmptyToNull(d.observacoes)))
  }

  /** The form that writes a given row. */
  function FormOf(row: CaronaRow): CaronaData
    requires row.vagas >= 1
  {
    CaronaData(row.modeloCarro, NatToString(row.vagas), Some(row.data), row.hora, row.destino,
               row.pontoEncontro, TipoCaronaName(row.tipo), row.observacoes)
  }

  /** Submitting the form of a row inserts that very row: every other
      field is copied unchanged. */
  lemma SubmitFormOf(row: CaronaRow, email: string)
    requires row.vagas >= 1 && row.observacoes != Some("")
    requires |row.modeloCarro| >= 2 && |row.hora| >= 1 && |row.destino| >= 2 && |row.pontoEncontro| >= 2
    ensures Valid(FormOf(row))
    ensures Submit(FormOf(row), Some(User(row.userId, email))) == Insert(row)
  {
    ValidIff(FormOf(row));
    ParseCountOfRendered(row.vagas);
    EnumNamesRoundTrip(row.tipo, Jipe, Medio);
  }

  /** Every accepted form is submitted as a row whose own form is the
      submitted one up to the count's rendering and empty notes (stored as
      null). */
  lemma FormOfSubmit(d: CaronaData, u: User)
    requires Valid(d)
    ensures Submit(d, Some(u)).Insert?
    ensures FormOf(Submit(d, Some(u)).row) ==
      d.(vagas := NatToString(DecimalValue(d.vagas)), observacoes := EmptyToNull(d.observacoes))
  {
    ValidIff(d);
  }

  /** What a submission leaves behind, with this form's failure text. */
  function Finish(d: CaronaData, error: Option<ServiceError>): (CaronaData, Outcome) {
    FormRules.Finish(d, Defaults, FailureText, error)
  }
}

=== FILE: paging.dfy ===
/** Page windows over an ordered result: the `range(from, to)` requests
    and the `Math.ceil(count / size)` page count used by the listings. */
module Paging {

  function Min(a: int, b: int): int {
    if a <= b then a else b
  }

  /** `count` consecutive elements starting at `offset`, clipped to `s`. */
  function Window<T>(s: seq<T>, offset: nat, count: nat): (r: seq<T>)
    ensures |r| == if offset >= |s| then 0 else Min(count, |s| - offset)
    ensures forall k :: 0 <= k < |r| ==> offset + k < |s| && r[k] == s[offset + k]
  {
    if offset >= |s| then [] else s[offset..offset + Min(count, |s| - offset)]
  }

  /** `range(from, to)`: the rows from index `from` to index `to`,
      both inclusive, as far as they exist. */
  function Range<T>(s: seq<T>, from: nat, to: int): (r: seq<T>)
    ensures |r| <= if to < from then 0 else to - from + 1
    ensures forall k :: 0 <= k < |r| ==> from + k < |s| && r[k] == s[from + k]
  {
    if to < from then [] else Window(s, from, to - from + 1)
  }

  /** First index of page `page` (counting pages from 1). */
  function PageStart(page: nat, size: nat): nat
    requires page >= 1
  {
    (page - 1) * size
  }

  /** Last index of page `page`, inclusive. */
  function PageEnd(page: nat, size: nat): int
    requires page >= 1
  {
    page * size - 1
  }

  /** The rows shown on page `page` when pages hold `size` rows. */
  function Page<T>(s: seq<T>, size: nat, page: nat): (r: seq<T>)
    requires page >= 1
    ensures |r| <= size
    ensures forall k :: 0 <= k < |r| ==> (page - 1) * size + k < |s| && r[k] == s[(page - 1) * size + k]
  {
    PageSpan(page, size);
    Range(s, PageStart(page, size), PageEnd(page, size))
  }

  /** A page spans `size` indices from `(page - 1) * size`. */
  lemma PageSpan(page: nat, size: nat)
    requires page >= 1
    ensures PageStart(page, size) == (page - 1) * size
    ensures PageEnd(page, size) - PageStart(page, size) + 1 == size
  {
    assert page * size == (page - 1) * size + size;
  }

  /** `Math.ceil(count / size)` for a non-negative count. */
  function TotalPages(count: nat, size: nat): (n: nat)
    requires size > 0
    ensures n * size >= count
    ensures n == 0 || (n - 1) * size < count
    ensures n == 0 <==> count == 0
  {
    var q := (count + size - 1) / size;
    var m := (count + size - 1) % size;
    assert count + size - 1 == q * size + m && 0 <= m < size;
    assert q * size - size == (q - 1) * size;
    q
  }

  /** Pages 1 to `n`, one after another. */
  function Pages<T>(s: seq<T>, size: nat, n: nat): seq<T> {
    if n == 0 then [] else Pages(s, size, n - 1) + Page(s, size, n)
  }

  /** Reading pages 1 to `n` in turn shows the first `n * size` rows, each
      exactly once and in order: pages neither overlap nor leave gaps. */
  lemma {:induction false} PagesCover<T>(s: seq<T>, size: nat, n: nat)
    ensures Pages(s, size, n) == s[..Min(n * size, |s|)]
  {
    if n > 0 {
      PagesCover(s, size, n - 1);
      var before := Min((n - 1) * size, |s|);
      var after := Min(n * size, |s|);
      assert n * size == (n - 1) * size + size;
      var p := Page(s, size, n);
      assert |p| == after - before;
      assert s[..after] == s[..before] + s[before..after];
      assert p == s[before..after];
    }
  }

  /** Page `page` shows something exactly when it is within the page count. */
  lemma PageNonEmptyIff<T>(s: seq<T>, size: nat, page: nat)
    requires size > 0 && page >= 1
    ensures |Page(s, size, page)| > 0 <==> page <= TotalPages(|s|, size)
  {
    var n := TotalPages(|s|, size);
    if page <= n {
      MulMonotone(page - 1, n - 1, size);
      assert (page - 1) * size < |s|;
    } else {
      MulMonotone(n, page - 1, size);
      assert (page - 1) * size >= |s|;
    }
  }

  lemma MulMonotone(a: nat, b: nat, c: nat)
    requires a <= b
    ensures a * c <= b * c
  {
  }
}

=== FILE: parceiros_viagem_form.dfy ===
/** The travel-partner form (`ParceirosViagemForm`): its schema, the insert
    row built from validated data, and the end-date picker. */
module ParceirosViagemForm {
  import opened Common
  import opened Text
  import opened FormRules

  datatype ViagemData = ViagemData(
    cidade: string,
    estado: string,
    dataInicio: Option<Date>,
    dataFim: Option<Date>,
    numPessoas: Digits,
    observacoes: Option<string>)

  /** `defaultValues`: every text empty, no dates chosen. */
  const Defaults: ViagemData := ViagemData("", "", None, None, "", Some(""))

  const FailureText: string := "Ocorreu um erro ao cadastrar a busca por parceiros"

  function Issues(d: ViagemData): seq<Issue> {
    MinLengthIssues("cidade", d.cidade, 2)
    + MinLengthIssues("estado", d.estado, 2)
    + RequiredIssues("data_inicio", d.dataInicio)
    + RequiredIssues("data_fim", d.dataFim)
    + CountIssues("num_pessoas", d.numPessoas)
  }

  predicate Valid(d: ViagemData) {
    Issues(d) == []
  }

  /** The schema accepts exactly these forms: both dates are required, in
      any order, and the notes play no part. */
  lemma ValidIff(d: ViagemData)
    ensures Valid(d) <==>
      && |d.cidade| >= 2
      && |d.estado| >= 2
      && d.dataInicio.Some?
      && d.dataFim.Some?
      && PositiveCount(d.numPessoas)
    ensures forall obs: Option<string> :: Valid(d) <==> Valid(d.(observacoes := obs))
  {
  }

  /** The `viagens` row `onSubmit` inserts. */
  datatype ViagemRow = ViagemRow(
    userId: string,
    cidade: string,
    estado: string,
    dataInicio: Date,
    dataFim: Date,
    numPessoas: int,
    observacoes: Option<string>)

  /** `onSubmit`, which the form calls only with validated data. */
  function Submit(d: ViagemData, user: Option<User>): (s: Submission<ViagemRow>)
    requires Valid(d)
    ensures s.RedirectToLogin? <==> user.None?
    ensures s.Insert? ==>
      && s.row.userId == user.value.id
      && s.row.numPessoas >= 1
      && s.row.numPessoas == DecimalValue(d.numPessoas)
      && s.row.cidade == d.cidade && s.row.estado == d.estado
      && s.row.observacoes == EmptyToNull(d.observacoes)
      && Some(s.row.dataInicio) == d.dataInicio
      && Some(s.row.dataFim) == d.dataFim
      && (s.row.observacoes.None? <==> d.observacoes.None? || d.observacoes.value == "")
  {
    if user.None? then RedirectToLogin
    else
      Insert(ViagemRow(
        user.value.id, d.cidade, d.estado, d.dataInicio.value, d.dataFim.value,
        ParseCount(d.numPessoas), EmptyToNull(d.observacoes)))
  }

  /** The form that writes a given row. */
  function FormOf(row: ViagemRow): ViagemData
    requires row.numPessoas >= 1
  {
    ViagemData(row.cidade, row.estado, Some(row.dataInicio), Some(row.dataFim),
               NatToString(row.numPessoas), row.observacoes)
  }

  /** Submitting the form of a row inserts that very row. */
  lemma SubmitFormOf(row: ViagemRow, email: string)
    requires row.numPessoas >= 1 && row.observacoes != Some("")
    requires |row.cidade| >= 2 && |row.estado| >= 2
    ensures Valid(FormOf(row))
    ensures Submit(FormOf(row), Some(User(row.userId, email))) == Insert(row)
  {
    var d := FormOf(row);
    assert d.numPessoas == NatToString(row.numPessoas);
    ParseCountOfRendered(row.numPessoas);
    ValidIff(d);
    assert Valid(d);
    assert EmptyToNull(d.observacoes) == row.observacoes;
  }

  /** Every accepted form is submitted as a row whose own form is the
      submitted one up to the count's rendering and empty notes (stored as
      null). */
  lemma FormOfSubmit(d: ViagemData, u: User)
    requires Valid(d)
    ensures Submit(d, Some(u)).Insert?
    ensures FormOf(Submit(d, Some(u)).row) ==
      d.(numPessoas := NatToString(DecimalValue(d.numPessoas)), observacoes := EmptyToNull(d.observacoes))
  {
    ValidIff(d);
  }

  /** What a submission leaves behind, with this form's failure text. */
  function Finish(d: ViagemData, error: Option<ServiceError>): (ViagemData, Outcome) {
    FormRules.Finish(d, Defaults, FailureText, error)
  }

  /** The end-date picker refuses past days and days before the start. */
  predicate EndDayEnabled(date: Date, now: Date, d: ViagemData) {
    LaterDayEnabled(date, now, d.dataInicio)
  }

  /** An end day the picker offers is never before the chosen start, while
      the schema alone accepts an end before the start. */
  lemma EndOrderOnlyInPicker(date: Date, now: Date, d: ViagemData)
    ensures EndDayEnabled(date, now, d) && d.dataInicio.Some? ==> d.dataInicio.value <= date
    ensures var w := ViagemData("Ouro Preto", "MG", Some(10), Some(5), "2", None);
      Valid(w) && w.dataFim.value < w.dataInicio.value
  {
    LaterDayEnabledIff(date, now, d.dataInicio);
    var w := ViagemData("Ouro Preto", "MG", Some(10), Some(5), "2", None);
    assert PositiveCount(w.numPessoas) by {
      PositiveCountIffNonZeroDigit(w.numPessoas);
      assert w.numPessoas[0] != '0';
    }
  }
}

=== FILE: sequences.dfy ===
/** Order-preserving filtering and a stable insertion sort over any total
    preorder: the reference for the store's `eq`/`ilike` filters, its
    `order(column)` and the client-side `Array.prototype.sort`. */
module Sequences {

  /** `le` is total (so also reflexive) and transitive. */
  ghost predicate TotalPreorder<T(!new)>(le: (T, T) -> bool) {
    && (forall a, b :: le(a, b) || le(b, a))
    && (forall a, b, c :: le(a, b) && le(b, c) ==> le(a, c))
  }

  ghost predicate Sorted<T>(s: seq<T>, le: (T, T) -> bool) {
    forall i, j :: 0 <= i < j < |s| ==> le(s[i], s[j])
  }

  /** The elements of `s` that satisfy `keep`, in their original order. */
  function Filter<T>(s: seq<T>, keep: T -> bool): (r: seq<T>)
    ensures |r| <= |s|
    ensures forall i :: 0 <= i < |r| ==> r[i] in s && keep(r[i])
    ensures forall i :: 0 <= i < |s| && keep(s[i]) ==> s[i] in r
    ensures multiset(r) <= multiset(s)
  {
    if |s| == 0 then []
    else
      assert s == [s[0]] + s[1..];
      (if keep(s[0]) then [s[0]] else []) + Filter(s[1..], keep)
  }

  /** Filtering by a stronger condition after a weaker one is the same as
      filtering by the stronger one alone. */
  lemma {:induction false} FilterNarrows<T>(s: seq<T>, strong: T -> bool, weak: T -> bool)
    requires forall x :: strong(x) ==> weak(x)
    ensures Filter(Filter(s, weak), strong) == Filter(s, strong)
  {
    if |s| > 0 {
      var rest := Filter(s[1..], weak);
      FilterNarrows(s[1..], strong, weak);
      if weak(s[0]) {
        var fw := [s[0]] + rest;
        assert Filter(s, weak) == fw;
        assert fw[0] == s[0] && fw[1..] == rest;
      } else {
        assert !strong(s[0]);
        assert Filter(s, weak) == rest;
      }
    }
  }

  /** Filtering by a condition every element meets keeps everything. */
  lemma {:induction false} FilterAll<T>(s: seq<T>, keep: T -> bool)
    requires forall i :: 0 <= i < |s| ==> keep(s[i])
    ensures Filter(s, keep) == s
  {
    if |s| > 0 {
      FilterAll(s[1..], keep);
    }
  }

  /** Places `x` before the first element it does not follow, so `x` ends
      up ahead of every element equal to it. */
  function Insert<T>(x: T, s: seq<T>, le: (T, T) -> bool): (r: seq<T>)
    ensures multiset(r) == multiset(s) + multiset{x}
    ensures |r| == |s| + 1
  {
    if |s| == 0 then [x]
    else if le(x, s[0]) then [x] + s
    else
      assert s == [s[0]] + s[1..];
      [s[0]] + Insert(x, s[1..], le)
  }

  /** Stable insertion sort. */
  function SortBy<T>(s: seq<T>, le: (T, T) -> bool): (r: seq<T>)
    ensures multiset(r) == multiset(s)
    ensures |r| == |s|
  {
    if |s| == 0 then []
    else
      assert s == [s[0]] + s[1..];
      Insert(s[0], SortBy(s[1..], le), le)
  }

  lemma {:induction false} InsertSorted<T(!new)>(x: T, s: seq<T>, le: (T, T) -> bool)
    requires TotalPreorder(le)
    requires Sorted(s, le)
    ensures Sorted(Insert(x, s, le), le)
    decreases |s|
  {
    if |s| > 0 && !le(x, s[0]) {
      var tail := Insert(x, s[1..], le);
      InsertSorted(x, s[1..], le);
      assert le(s[0], x);
      forall y | y in tail
        ensures le(s[0], y)
      {
        assert y in multiset(tail);
        assert y == x || y in multiset(s[1..]);
      }
      var r := [s[0]] + tail;
      forall i, j | 0 <= i < j < |r|
        ensures le(r[i], r[j])
      {
        if i == 0 {
          assert r[j] == tail[j - 1];
          assert r[j] in tail;
        } else {
          assert r[i] == tail[i - 1] && r[j] == tail[j - 1];
        }
      }
    }
  }

  /** The sort's output is ordered and is a permutation of its input. */
  lemma {:induction false} SortBySorted<T(!new)>(s: seq<T>, le: (T, T) -> bool)
    requires TotalPreorder(le)
    ensures Sorted(SortBy(s, le), le)
    ensures multiset(SortBy(s, le)) == multiset(s)
  {
    if |s| > 0 {
      SortBySorted(s[1..], le);
      InsertSorted(s[0], SortBy(s[1..], le), le);
    }
  }

  /** An already ordered input comes back unchanged (the sort is stable). */
  lemma {:induction false} SortByKeepsSorted<T>(s: seq<T>, le: (T, T) -> bool)
    requires Sorted(s, le)
    ensures SortBy(s, le) == s
  {
    if |s| > 0 {
      assert Sorted(s[1..], le);
      SortByKeepsSorted(s[1..], le);
      if |s| > 1 {
        assert le(s[0], s[1]);
      }
    }
  }

  /** Re-sorting a sorted list changes nothing. */
  lemma SortByIdempotent<T(!new)>(s: seq<T>, le: (T, T) -> bool)
    requires TotalPreorder(le)
    ensures SortBy(SortBy(s, le), le) == SortBy(s, le)
  {
    SortBySorted(s, le);
    SortByKeepsSorted(SortBy(s, le), le);
  }
}

=== FILE: supabase_query.dfy ===
/** The generic read hook `useSupabaseQuery`: its options are compiled into
    a query plan (filters with a default operator, an ordering with a
    default direction, a page window, single or list mode), and the plan is
    given a reference meaning over an in-memory table of rows: keep the rows
    meeting every recognised filter, order them, cut the window. */
module SupabaseQuery {
  import opened Common
  import opened Text
  import Seq = Sequences
  import Paging

  // ---------------------------------------------------------------------
  // Rows and values

  datatype Value = VBool(b: bool) | VInt(i: int) | VText(t: string) | VNull

  /** A row maps column names to values; a missing column reads as null. */
  type Row = map<string, Value>

  function Cell(row: Row, column: string): Value {
    if column in row then row[column] else VNull
  }

  /** `${value}`: how a filter value is spelled inside a template literal. */
  function Show(v: Value): string {
    match v
    case VBool(b) => if b then "true" else "false"
    case VInt(i) => IntToString(i)
    case VText(t) => t
    case VNull => "null"
  }

  /** Code-point lexicographic order on text. */
  predicate TextLe(a: string, b: string)
    decreases |a|
  {
    |a| == 0 || (|b| > 0 && (a[0] < b[0] || (a[0] == b[0] && TextLe(a[1..], b[1..]))))
  }

  lemma {:induction false} TextLeTotal(a: string, b: string)
    ensures TextLe(a, b) || TextLe(b, a)
    decreases |a|
  {
    if |a| > 0 && |b| > 0 && a[0] == b[0] {
      TextLeTotal(a[1..], b[1..]);
    }
  }

  lemma {:induction false} TextLeTransitive(a: string, b: string, c: string)
    requires TextLe(a, b) && TextLe(b, c)
    ensures TextLe(a, c)
    decreases |a|
  {
    if |a| > 0 && a[0] == b[0] && b[0] == c[0] {
      TextLeTransitive(a[1..], b[1..], c[1..]);
    }
  }

  /** Kinds sort booleans, numbers, texts, then nulls, so nulls come last
      ascending and first descending. */
  function Rank(v: Value): nat {
    match v
    case VBool(_) => 0
    case VInt(_) => 1
    case VText(_) => 2
    case VNull => 3
  }

  /** The order `order(column)` sorts by. */
  predicate ValueLe(a: Value, b: Value) {
    if Rank(a) != Rank(b) then Rank(a) < Rank(b)
    else match a
      case VBool(x) => !x || b.b
      case VInt(x) => x <= b.i
      case VText(x) => TextLe(x, b.t)
      case VNull => true
  }

  lemma ValueLeTotal(a: Value, b: Value)
    ensures ValueLe(a, b) || ValueLe(b, a)
  {
    if a.VText? && b.VText? {
      TextLeTotal(a.t, b.t);
    }
  }

  lemma ValueLeTransitive(a: Value, b: Value, c: Value)
    requires ValueLe(a, b) && ValueLe(b, c)
    ensures ValueLe(a, c)
  {
    if a.VText? && b.VText? && c.VText? {
      TextLeTransitive(a.t, b.t, c.t);
    }
  }

  // ---------------------------------------------------------------------
  // Options, as the callers pass them

  datatype Filter = Filter(column: string, value: Value, operator: Option<string>)

  datatype OrderBy = OrderBy(column: string, ascending: Option<bool>)

  /** An absent `filters` array is the empty sequence; `limit` and `page`
      are absent when not given. */
  datatype QueryOptions = QueryOptions(
    table: string,
    select: Option<string>,
    filters: seq<Filter>,
    orderBy: Option<OrderBy>,
    limit: Option<nat>,
    page: Option<int>,
    single: bool)

  // ---------------------------------------------------------------------
  // Filters

  datatype Operator = Eq | Neq | Gt | Lt | Gte | Lte | Like

  function OperatorName(op: Operator): string {
    match op
    case Eq => "eq"
    case Neq => "neq"
    case Gt => "gt"
    case Lt => "lt"
    case Gte => "gte"
    case Lte => "lte"
    case Like => "like"
  }

  /** `filter.operator || 'eq'` followed by the switch, which has no default
      case: an unknown name yields no operator at all. */
  function OperatorOf(operator: Option<string>): (r: Option<Operator>)
    ensures operator.None? || operator == Some("") ==> r == Some(Eq)
    ensures r.Some? && operator.Some? && operator.value != "" ==> operator.value == OperatorName(r.value)
    ensures r.None? <==> operator.Some? && operator.value != "" && forall op :: operator.value != OperatorName(op)
  {
    var name := OrElse(operator, "eq");
    if name == "eq" then Some(Eq)
    else if name == "neq" then Some(Neq)
    else if name == "gt" then Some(Gt)
    else if name == "lt" then Some(Lt)
    else if name == "gte" then Some(Gte)
    else if name == "lte" then Some(Lte)
    else if name == "like" then Some(Like)
    else None
  }

  /** Every operator is recognised under its own name. */
  lemma OperatorNameRoundTrip(op: Operator)
    ensures OperatorOf(Some(OperatorName(op))) == Some(op)
  {
  }

  /** Comparison operators relate a non-null cell to an operand of the
      same kind, as SQL comparisons never hold for null. */
  predicate Compares(cell: Value, op: Operator, operand: Value) {
    && Rank(cell) == Rank(operand)
    && !cell.VNull?
    && match op
       case Eq => cell == operand
       case Neq => cell != operand
       case Gt => !ValueLe(cell, operand)
       case Lt => !ValueLe(operand, cell)
       case Gte => ValueLe(operand, cell)
       case Lte => ValueLe(cell, operand)
       case Like => false
  }

  /** What one filter, read straight from the options, asks of a row;
      a filter with an unknown operator asks nothing. */
  predicate Satisfies(row: Row, f: Filter) {
    match OperatorOf(f.operator)
    case None => true
    case Some(op) =>
      var cell := Cell(row, f.column);
      if op == Like then cell.VText? && Text.StoreLike(cell.t, "%" + Show(f.value) + "%")
      else Compares(cell, op, f.value)
  }

  /** The conjunction of all filters. */
  predicate SatisfiesAll(row: Row, fs: seq<Filter>) {
    forall i :: 0 <= i < |fs| ==> Satisfies(row, fs[i])
  }

  /** A filter after compilation: `like` values already wrapped in `%…%`. */
  datatype Condition = Condition(column: string, op: Operator, operand: Value)

  function Compile(f: Filter): Option<Condition> {
    match OperatorOf(f.operator)
    case None => None
    case Some(op) =>
      if op == Like then Some(Condition(f.column, Like, VText("%" + Show(f.value) + "%")))
      else Some(Condition(f.column, op, f.value))
  }

  /** The query calls one filter adds: one if recognised, none otherwise. */
  function Compiled(f: Filter): seq<Condition> {
    match Compile(f)
    case None => []
    case Some(c) => [c]
  }

  /** The `forEach` over the filters. */
  function Conditions(fs: seq<Filter>): seq<Condition> {
    if |fs| == 0 then [] else Compiled(fs[0]) + Conditions(fs[1..])
  }

  /** How the store evaluates one condition on one row. */
  predicate Holds(row: Row, c: Condition) {
    var cell := Cell(row, c.column);
    if c.op == Like then cell.VText? && c.operand.VText? && Text.StoreLike(cell.t, c.operand.t)
    else Compares(cell, c.op, c.operand)
  }

  predicate HoldsAll(row: Row, cs: seq<Condition>) {
    forall i :: 0 <= i < |cs| ==> Holds(row, cs[i])
  }

  lemma {:induction false} ConditionsAppend(a: seq<Filter>, b: seq<Filter>)
    ensures Conditions(a + b) == Conditions(a) + Conditions(b)
  {
    if |a| == 0 {
      assert a + b == b;
    } else {
      assert (a + b)[0] == a[0];
      assert (a + b)[1..] == a[1..] + b;
      ConditionsAppend(a[1..], b);
      assert Conditions(a + b) == Compiled(a[0]) + (Conditions(a[1..]) + Conditions(b));
    }
  }

  lemma CompiledMeansFilter(row: Row, f: Filter)
    ensures HoldsAll(row, Compiled(f)) <==> Satisfies(row, f)
  {
    match OperatorOf(f.operator)
    case None =>
    case Some(op) =>
      var c := Compile(f).value;
      assert Compiled(f) == [c];
      assert [c][0] == c;
      assert HoldsAll(row, [c]) <==> Holds(row, c);
  }

  lemma HoldsAllAppend(row: Row, x: seq<Condition>, y: seq<Condition>)
    ensures HoldsAll(row, x + y) <==> HoldsAll(row, x) && HoldsAll(row, y)
  {
    if HoldsAll(row, x + y) {
      forall i | 0 <= i < |x|
        ensures Holds(row, x[i])
      {
        assert (x + y)[i] == x[i];
      }
      forall i | 0 <= i < |y|
        ensures Holds(row, y[i])
      {
        assert (x + y)[|x| + i] == y[i];
      }
    }
    if HoldsAll(row, x) && HoldsAll(row, y) {
      forall i | 0 <= i < |x + y|
        ensures Holds(row, (x + y)[i])
      {
        if i < |x| {
          assert (x + y)[i] == x[i];
        } else {
          assert (x + y)[i] == y[i - |x|];
        }
      }
    }
  }

  /** The compiled conditions hold of a row exactly when every filter does:
      filters combine by AND and unknown operators drop out. */
  lemma {:induction false} ConditionsMeanAllFilters(row: Row, fs: seq<Filter>)
    ensures HoldsAll(row, Conditions(fs)) <==> SatisfiesAll(row, fs)
  {
    if |fs| > 0 {
      ConditionsMeanAllFilters(row, fs[1..]);
      var head := Compiled(fs[0]);
      var rest := Conditions(fs[1..]);
      assert Conditions(fs) == head + rest;
      HoldsAllAppend(row, head, rest);
      CompiledMeansFilter(row, fs[0]);
      assert SatisfiesAll(row, fs) <==> Satisfies(row, fs[0]) && SatisfiesAll(row, fs[1..]) by {
        if Satisfies(row, fs[0]) && SatisfiesAll(row, fs[1..]) {
          forall i | 0 <= i < |fs|
            ensures Satisfies(row, fs[i])
          {
            if i > 0 {
              assert fs[i] == fs[1..][i - 1];
            }
          }
        }
      }
    }
  }

  /** A filter without an operator (or with an empty one) is an equality
      filter: it keeps exactly the rows holding that non-null value. */
  lemma FilterWithoutOperatorIsEq(row: Row, column: string, v: Value)
    ensures Satisfies(row, Filter(column, v, None)) == Satisfies(row, Filter(column, v, Some("eq")))
    ensures Satisfies(row, Filter(column, v, Some(""))) == Satisfies(row, Filter(column, v, Some("eq")))
    ensures Satisfies(row, Filter(column, v, None)) <==> Cell(row, column) == v && v != VNull
  {
  }

  /** A `like` filter keeps every row whose text holds the value, since the
      value is sent as `%value%`, as long as the value holds no escape
      character; for values without `%`, `_`, `*` or `\` these are exactly
      the rows it keeps. */
  lemma LikeFilterIsSubstring(row: Row, f: Filter)
    requires OperatorOf(f.operator) == Some(Like)
    ensures Cell(row, f.column).VText? && NoEscape(Show(f.value)) && Contains(Cell(row, f.column).t, Show(f.value))
      ==> Satisfies(row, f)
    ensures Literal(Show(f.value)) ==>
      (Satisfies(row, f) <==> Cell(row, f.column).VText? && Contains(Cell(row, f.column).t, Show(f.value)))
  {
    var cell := Cell(row, f.column);
    if cell.VText? {
      if NoEscape(Show(f.value)) && Contains(cell.t, Show(f.value)) {
        var k :| 0 <= k <= |cell.t| && Show(f.value) <= cell.t[k..];
        ContainsMatchesLike(cell.t, Show(f.value), k);
      }
      if Literal(Show(f.value)) {
        LikeIsContains(cell.t, Show(f.value));
      }
    }
  }

  // ---------------------------------------------------------------------
  // Ordering and windows

  datatype Ordering = Ordering(column: string, ascending: bool)

  /** `ascending: options.orderBy.ascending !== false`. */
  function OrderingOf(o: OrderBy): (r: Ordering)
    ensures r.column == o.column
    ensures !r.ascending <==> o.ascending == Some(false)
  {
    Ordering(o.column, o.ascending != Some(false))
  }

  function RowLe(o: Ordering): (Row, Row) -> bool {
    (a: Row, b: Row) =>
      if o.ascending then ValueLe(Cell(a, o.column), Cell(b, o.column))
      else ValueLe(Cell(b, o.column), Cell(a, o.column))
  }

  lemma RowLeTotalPreorder(o: Ordering)
    ensures Seq.TotalPreorder(RowLe(o))
  {
    forall a: Row, b: Row
      ensures RowLe(o)(a, b) || RowLe(o)(b, a)
    {
      ValueLeTotal(Cell(a, o.column), Cell(b, o.column));
    }
    forall a: Row, b: Row, c: Row | RowLe(o)(a, b) && RowLe(o)(b, c)
      ensures RowLe(o)(a, c)
    {
      if o.ascending {
        ValueLeTransitive(Cell(a, o.column), Cell(b, o.column), Cell(c, o.column));
      } else {
        ValueLeTransitive(Cell(c, o.column), Cell(b, o.column), Cell(a, o.column));
      }
    }
  }

  /** The rows requested: all, the first `count`, or the inclusive range
      `from..to`. */
  datatype Window = Everything | FirstRows(count: nat) | Between(from: nat, to: nat)

  /** `if (limit) { limit(L); if (page && page > 1) range(...) }`. */
  function WindowOf(limit: Option<nat>, page: Option<int>): Window {
    if limit.None? || limit.value == 0 then Everything
    else if page.Some? && page.value > 1 then
      Between((page.value - 1) * limit.value, page.value * limit.value - 1)
    else FirstRows(limit.value)
  }

  function ApplyWindow<T>(s: seq<T>, w: Window): seq<T> {
    match w
    case Everything => s
    case FirstRows(n) => Paging.Window(s, 0, n)
    case Between(from, to) => Paging.Range(s, from, to)
  }

  /** The page a `page` option denotes: absent, 1 or less mean page 1. */
  function PageNumber(page: Option<int>): (p: nat)
    ensures p >= 1
  {
    if page.Some? && page.value > 1 then page.value else 1
  }

  /** With a positive limit the hook fetches exactly page `PageNumber(page)`
      of `limit` rows: `[(p-1)*L, p*L-1]`, so page 1 and no page agree. */
  lemma PagedWindowIsPage<T>(s: seq<T>, limit: nat, page: Option<int>)
    requires limit > 0
    ensures ApplyWindow(s, WindowOf(Some(limit), page)) == Paging.Page(s, limit, PageNumber(page))
    ensures WindowOf(Some(limit), page) == WindowOf(Some(limit), None) <==> PageNumber(page) == 1
  {
    var p := PageNumber(page);
    assert p * limit - 1 - (p - 1) * limit + 1 == limit;
    if p == 1 {
      assert Paging.PageStart(1, limit) == 0;
    }
  }

  /** Without a positive limit nothing is cut, whatever the page. */
  lemma NoLimitNoWindow<T>(s: seq<T>, limit: Option<nat>, page: Option<int>)
    requires limit.None? || limit == Some(0)
    ensures ApplyWindow(s, WindowOf(limit, page)) == s
  {
  }

  lemma SortedWindow<T>(s: seq<T>, w: Window, le: (T, T) -> bool)
    requires Seq.Sorted(s, le)
    ensures Seq.Sorted(ApplyWindow(s, w), le)
  {
    var r := ApplyWindow(s, w);
    match w
    case Everything =>
    case FirstRows(n) =>
      assert forall k :: 0 <= k < |r| ==> r[k] == s[k];
    case Between(from, to) =>
      assert forall k :: 0 <= k < |r| ==> from + k < |s| && r[k] == s[from + k];
  }

  lemma WindowFromSource<T>(s: seq<T>, w: Window)
    ensures forall x :: x in ApplyWindow(s, w) ==> x in s
  {
    var r := ApplyWindow(s, w);
    forall x | x in r
      ensures x in s
    {
      var k :| 0 <= k < |r| && r[k] == x;
      match w
      case Everything =>
      case FirstRows(n) =>
        assert r[k] == s[k];
      case Between(from, to) =>
        assert r[k] == s[from + k];
    }
  }

  // ---------------------------------------------------------------------
  // Plans and their execution

  datatype Plan = Plan(
    table: string,
    columns: string,
    conditions: seq<Condition>,
    order: Option<Ordering>,
    window: Window,
    single: bool)

  /** The query `fetchData` builds from the options. */
  function PlanOf(o: QueryOptions): Plan {
    Plan(
      o.table,
      OrElse(o.select, "*"),
      Conditions(o.filters),
      if o.orderBy.Some? then Some(OrderingOf(o.orderBy.value)) else None,
      WindowOf(o.limit, o.page),
      o.single)
  }

  datatype QueryError =
    | StoreFailure(message: string)
    | UnknownTable(name: string)
    | NotExactlyOneRow(found: nat)

  datatype Payload = Many(rows: seq<Row>) | One(row: Row)

  datatype Response = Ok(payload: Payload) | Failed(error: QueryError)

  /** The remote store as a set of named tables; `fault` is a failure of
      the remote call itself (network, permissions). */
  datatype Store = Store(tables: map<string, seq<Row>>, fault: Option<string>)

  /** Reference meaning of a plan over the rows of its table. */
  function Execute(rows: seq<Row>, p: Plan): Response {
    var matching := Seq.Filter(rows, (r: Row) => HoldsAll(r, p.conditions));
    var ordered := if p.order.Some? then Seq.SortBy(matching, RowLe(p.order.value)) else matching;
    var shown := ApplyWindow(ordered, p.window);
    if p.single then
      if |shown| == 1 then Ok(One(shown[0])) else Failed(NotExactlyOneRow(|shown|))
    else Ok(Many(shown))
  }

  /** Sends a plan to the store. */
  function Run(store: Store, p: Plan): Response {
    if store.fault.Some? then Failed(StoreFailure(store.fault.value))
    else if p.table !in store.tables then Failed(UnknownTable(p.table))
    else Execute(store.tables[p.table], p)
  }

  function Query(store: Store, o: QueryOptions): Response {
    Run(store, PlanOf(o))
  }

  /** The rows a query can return at all, before ordering and windowing. */
  function Matching(rows: seq<Row>, fs: seq<Filter>): seq<Row> {
    Seq.Filter(rows, (r: Row) => SatisfiesAll(r, fs))
  }

  lemma {:induction false} FilterSamePredicate<T>(s: seq<T>, p: T -> bool, q: T -> bool)
    requires forall i :: 0 <= i < |s| ==> p(s[i]) == q(s[i])
    ensures Seq.Filter(s, p) == Seq.Filter(s, q)
  {
    if |s| > 0 {
      FilterSamePredicate(s[1..], p, q);
    }
  }

  lemma CompiledFilterIsMatching(rows: seq<Row>, fs: seq<Filter>)
    ensures Seq.Filter(rows, (r: Row) => HoldsAll(r, Conditions(fs))) == Matching(rows, fs)
  {
    forall i | 0 <= i < |rows|
      ensures HoldsAll(rows[i], Conditions(fs)) == SatisfiesAll(rows[i], fs)
    {
      ConditionsMeanAllFilters(rows[i], fs);
    }
    FilterSamePredicate(rows, (r: Row) => HoldsAll(r, Conditions(fs)), (r: Row) => SatisfiesAll(r, fs));
  }

  /** Every row a query returns is a row of its table that meets every
      recognised filter. */
  lemma QueryRowsMeetFilters(store: Store, o: QueryOptions)
    ensures Query(store, o).Ok? ==> store.fault.None? && o.table in store.tables
    ensures Query(store, o).Ok? && Query(store, o).payload.Many? ==>
      forall r :: r in Query(store, o).payload.rows ==> r in store.tables[o.table] && SatisfiesAll(r, o.filters)
    ensures Query(store, o).Ok? && Query(store, o).payload.One? ==>
      Query(store, o).payload.row in store.tables[o.table] && SatisfiesAll(Query(store, o).payload.row, o.filters)
  {
    if store.fault.None? && o.table in store.tables {
      var rows := store.tables[o.table];
      var p := PlanOf(o);
      CompiledFilterIsMatching(rows, o.filters);
      var matching := Matching(rows, o.filters);
      assert Seq.Filter(rows, (r: Row) => HoldsAll(r, p.conditions)) == matching;
      var ordered := if p.order.Some? then Seq.SortBy(matching, RowLe(p.order.value)) else matching;
      var shown := ApplyWindow(ordered, p.window);
      assert Query(store, o) == (if p.single then
        if |shown| == 1 then Ok(One(shown[0])) else Failed(NotExactlyOneRow(|shown|))
        else Ok(Many(shown)));
      forall r | r in shown
        ensures r in rows && SatisfiesAll(r, o.filters)
      {
        WindowFromSource(ordered, p.window);
        assert r in multiset(ordered);
        assert r in matching;
      }
      if |shown| == 1 {
        assert shown[0] in shown;
      }
    }
  }

  /** Without a limit and in list mode a query returns every matching row,
      each as often as it is stored. */
  lemma UnpagedQueryIsComplete(store: Store, o: QueryOptions)
    requires store.fault.None? && o.table in store.tables
    requires o.limit.None? || o.limit == Some(0)
    requires !o.single
    ensures Query(store, o).Ok? && Query(store, o).payload.Many?
    ensures multiset(Query(store, o).payload.rows) == multiset(Matching(store.tables[o.table], o.filters))
  {
    CompiledFilterIsMatching(store.tables[o.table], o.filters);
  }

  /** A list query with an `orderBy` returns rows ascending by that column
      unless `ascending` is exactly `false`, and descending then. */
  lemma QueryRowsOrdered(store: Store, o: QueryOptions)
    requires o.orderBy.Some? && !o.single
    requires Query(store, o).Ok?
    ensures var rows := Query(store, o).payload.rows; var c := o.orderBy.value.column;
      if o.orderBy.value.ascending == Some(false)
      then forall i, j :: 0 <= i < j < |rows| ==> ValueLe(Cell(rows[j], c), Cell(rows[i], c))
      else forall i, j :: 0 <= i < j < |rows| ==> ValueLe(Cell(rows[i], c), Cell(rows[j], c))
  {
    var p := PlanOf(o);
    var ord := p.order.value;
    var matching := Seq.Filter(store.tables[o.table], (r: Row) => HoldsAll(r, p.conditions));
    RowLeTotalPreorder(ord);
    Seq.SortBySorted(matching, RowLe(ord));
    SortedWindow(Seq.SortBy(matching, RowLe(ord)), p.window, RowLe(ord));
  }

  /** Page 1, a page of 0 or less, and no page give the same result. */
  lemma FirstPageSameAsNoPage(store: Store, o: QueryOptions, p: int)
    requires p <= 1
    ensures Query(store, o.(page := Some(p))) == Query(store, o.(page := None))
  {
  }

  /** With a positive limit L and page p, a list query returns page p of the
      ordered matching rows: at most L rows, all of them when that many
      exist past `(p-1)*L`. */
  lemma PagedQueryWidth(store: Store, o: QueryOptions)
    requires store.fault.None? && o.table in store.tables && !o.single
    requires o.limit.Some? && o.limit.value > 0
    ensures Query(store, o).Ok?
    ensures |Query(store, o).payload.rows| <= o.limit.value
    ensures (PageNumber(o.page) - 1) * o.limit.value + o.limit.value <= |Matching(store.tables[o.table], o.filters)|
      ==> |Query(store, o).payload.rows| == o.limit.value
  {
    var p := PlanOf(o);
    var rows := store.tables[o.table];
    CompiledFilterIsMatching(rows, o.filters);
    var matching := Seq.Filter(rows, (r: Row) => HoldsAll(r, p.conditions));
    var ordered := if p.order.Some? then Seq.SortBy(matching, RowLe(p.order.value)) else matching;
    PagedWindowIsPage(ordered, o.limit.value, o.page);
  }

  /** A filter whose operator the switch does not know changes nothing,
      wherever it stands in the list. */
  lemma UnknownOperatorIgnored(store: Store, o: QueryOptions, before: seq<Filter>, after: seq<Filter>, f: Filter)
    requires OperatorOf(f.operator).None?
    requires o.filters == before + [f] + after
    ensures Query(store, o) == Query(store, o.(filters := before + after))
  {
    DropUnknownCondition(before, after, f);
    assert PlanOf(o) == PlanOf(o.(filters := before + after));
  }

  /** Compiling the filters around an unknown one gives the same calls as
      compiling them without it. */
  lemma DropUnknownCondition(before: seq<Filter>, after: seq<Filter>, f: Filter)
    requires OperatorOf(f.operator).None?
    ensures Conditions(before + [f] + after) == Conditions(before + after)
  {
    var bf := before + [f];
    UnknownCompilesToNothing(f);
    ConditionsAppend(bf, after);
    ConditionsAppend(before, [f]);
    ConditionsAppend(before, after);
    calc {
      Conditions(bf + after);
      Conditions(bf) + Conditions(after);
      Conditions(before) + Conditions([f]) + Conditions(after);
      { assert Conditions(before) + [] == Conditions(before); }
      Conditions(before) + Conditions(after);
      Conditions(before + after);
    }
  }

  /** A filter with an unknown operator adds no query call. */
  lemma UnknownCompilesToNothing(f: Filter)
    requires OperatorOf(f.operator).None?
    ensures Conditions([f]) == []
  {
    assert [f][1..] == [];
    assert Compiled(f) == [];
  }

  /** Single mode without a limit (as the by-id fetchers use it) returns
      the one matching row, and fails when none or several match; an
      ordering changes nothing. */
  lemma SingleModeExactlyOne(store: Store, o: QueryOptions)
    requires store.fault.None? && o.table in store.tables && o.single
    requires o.limit.None?
    ensures var m := Matching(store.tables[o.table], o.filters);
      Query(store, o) == if |m| == 1 then Ok(One(m[0])) else Failed(NotExactlyOneRow(|m|))
  {
    var m := Matching(store.tables[o.table], o.filters);
    CompiledFilterIsMatching(store.tables[o.table], o.filters);
    if o.orderBy.Some? {
      var sorted := Seq.SortBy(m, RowLe(OrderingOf(o.orderBy.value)));
      if |m| == 1 {
        SortOfOne(m, sorted);
      }
    }
  }

  /** A list of one element reordered is the same list. */
  lemma SortOfOne<T>(m: seq<T>, sorted: seq<T>)
    requires |m| == 1 && multiset(sorted) == multiset(m)
    ensures sorted == m
  {
    assert m == [m[0]];
    assert |sorted| == |multiset(sorted)| == 1;
    assert sorted[0] in multiset(sorted);
  }

  /** With a limit, single mode counts the window, not the matches:
      under `limit(1)` on the first page, one row comes back whenever
      anything matches, however many rows do. */
  lemma SingleModeCountsWindow(store: Store, o: QueryOptions)
    requires store.fault.None? && o.table in store.tables && o.single
    requires o.limit == Some(1) && PageNumber(o.page) == 1
    ensures var m := Matching(store.tables[o.table], o.filters);
      && (Query(store, o).Ok? <==> |m| >= 1)
      && (Query(store, o).Ok? ==> Query(store, o).payload.One? && Query(store, o).payload.row in m)
  {
    var rows := store.tables[o.table];
    var p := PlanOf(o);
    assert Query(store, o) == Execute(rows, p);
    CompiledFilterIsMatching(rows, o.filters);
    FirstRowSingle(rows, p);
  }

  /** A single-mode plan that fetches one row succeeds exactly when some
      row matches, and returns a matching row. */
  lemma FirstRowSingle(rows: seq<Row>, p: Plan)
    requires p.single && p.window == FirstRows(1)
    ensures var m := Seq.Filter(rows, (r: Row) => HoldsAll(r, p.conditions));
      && (Execute(rows, p).Ok? <==> |m| >= 1)
      && (Execute(rows, p).Ok? ==> Execute(rows, p).payload.One? && Execute(rows, p).payload.row in m)
  {
    var m := Seq.Filter(rows, (r: Row) => HoldsAll(r, p.conditions));
    var ordered := if p.order.Some? then Seq.SortBy(m, RowLe(p.order.value)) else m;
    assert multiset(ordered) == multiset(m);
    var shown := Paging.Window(ordered, 0, 1);
    assert |shown| == (if |m| >= 1 then 1 else 0);
    if |m| >= 1 {
      assert shown[0] == ordered[0];
      assert ordered[0] in multiset(m);
    }
  }

  // ---------------------------------------------------------------------
  // The hook's state

  datatype HookState = HookState(data: Option<Payload>, error: Option<QueryError>, loading: bool)

  /** State before the first fetch settles. */
  const Initial := HookState(None, None, true)

  /** `setData(data); setError(null)` on success, `setError(err);
      setData(null)` on any error, and `setLoading(false)` either way. */
  function Settle(r: Response): (h: HookState)
    ensures !h.loading
    ensures h.data.Some? <==> h.error.None?
    ensures r.Ok? ==> h.data == Some(r.payload)
    ensures r.Failed? ==> h.error == Some(r.error)
  {
    match r
    case Ok(payload) => HookState(Some(payload), None, false)
    case Failed(e) => HookState(None, Some(e), false)
  }

  function UseSupabaseQuery(store: Store, o: QueryOptions): HookState {
    Settle(Query(store, o))
  }

  /** A store fault always surfaces as the hook's error with no data. */
  lemma StoreFaultIsReported(store: Store, o: QueryOptions)
    requires store.fault.Some?
    ensures UseSupabaseQuery(store, o) == HookState(None, Some(StoreFailure(store.fault.value)), false)
  {
  }
}

=== FILE: text.dfy ===
/** String rules the code relies on: JavaScript's `||` on strings,
    `substring(0, n)`, `split(sep)[0]`, and the store's LIKE patterns. */
module Text {
  import opened Common

  /** `s || fallback` for an optional string: absent and empty are falsy. */
  function OrElse(s: Option<string>, fallback: string): (r: string)
    ensures s.Some? && s.value != "" ==> r == s.value
    ensures s.None? || s.value == "" ==> r == fallback
  {
    if s.Some? && s.value != "" then s.value else fallback
  }

  /** `s || null` for an optional string. */
  function EmptyToNull(s: Option<string>): (r: Option<string>)
    ensures r.None? <==> s.None? || s.value == ""
    ensures r.Some? ==> r == s
  {
    if s.Some? && s.value != "" then s else None
  }

  /** `s.substring(0, n)` for n >= 0: at most n leading characters. */
  function Take(s: string, n: nat): (r: string)
    ensures r <= s
    ensures |r| == if n < |s| then n else |s|
  {
    if n < |s| then s[..n] else s
  }

  /** A shorter leading part of a string is a prefix of a longer one. */
  lemma TakePrefixOfTake(s: string, m: nat, n: nat)
    requires m <= n
    ensures Take(s, m) <= Take(s, n)
  {
  }

  /** `x` occurs somewhere inside `t`. */
  predicate Contains(t: string, x: string) {
    exists k :: 0 <= k <= |t| && x <= t[k..]
  }

  /** `s.split(sep)[0]`: the text before the first occurrence of `sep`,
      or all of `s` when `sep` does not occur. */
  function Before(s: string, sep: string): (r: string)
    requires |sep| > 0
    ensures r <= s
    decreases |s|
  {
    if |s| < |sep| then s
    else if s[..|sep|] == sep then ""
    else [s[0]] + Before(s[1..], sep)
  }

  /** When the head of a joined string holds no blank, splitting on
      " - " gives that head back. */
  lemma {:induction false} BeforeSeparatorOfJoin(a: string, b: string)
    requires forall i :: 0 <= i < |a| ==> a[i] != ' '
    ensures Before(a + " - " + b, " - ") == a
    decreases |a|
  {
    var s := a + " - " + b;
    if |a| == 0 {
      assert s[..3] == " - ";
    } else {
      assert s[0] == a[0] && s[0] != ' ';
      assert s[..3] != " - ";
      assert s[1..] == a[1..] + " - " + b;
      BeforeSeparatorOfJoin(a[1..], b);
      assert a == [a[0]] + a[1..];
    }
  }

  /** SQL LIKE as PostgreSQL evaluates it: '%' matches any run of
      characters, '_' any one character, '\' (the default escape) makes the
      character after it match only itself, and every other character
      matches itself. PostgreSQL rejects a pattern that ends in a lone '\';
      here such a pattern matches nothing. */
  predicate Like(t: string, p: string)
    decreases |t| + |p|
  {
    if |p| == 0 then |t| == 0
    else if p[0] == '%' then Like(t, p[1..]) || (|t| > 0 && Like(t[1..], p))
    else if p[0] == '_' then |t| > 0 && Like(t[1..], p[1..])
    else if p[0] == '\\' then |p| > 1 && |t| > 0 && t[0] == p[1] && Like(t[1..], p[2..])
    else |t| > 0 && t[0] == p[0] && Like(t[1..], p[1..])
  }

  /** PostgREST reads '*' in a `like` or `ilike` value as '%'. */
  function StarAsPercent(p: string): (r: string)
    ensures |r| == |p|
    ensures forall i :: 0 <= i < |p| ==> r[i] == if p[i] == '*' then '%' else p[i]
  {
    if |p| == 0 then ""
    else [if p[0] == '*' then '%' else p[0]] + StarAsPercent(p[1..])
  }

  /** What the store keeps for a pattern sent through PostgREST. */
  predicate StoreLike(t: string, p: string) {
    Like(t, StarAsPercent(p))
  }

  /** A text holding no escape character. */
  predicate NoEscape(x: string) {
    forall i :: 0 <= i < |x| ==> x[i] != '\\'
  }

  /** A pattern text each character of which stands for itself on the
      store: no '%', '_', '*' or '\'. */
  predicate Literal(x: string) {
    forall i :: 0 <= i < |x| ==> x[i] != '%' && x[i] != '_' && x[i] != '*' && x[i] != '\\'
  }

  lemma {:induction false} LikeAnything(t: string)
    ensures Like(t, "%")
    decreases |t|
  {
    assert "%"[1..] == "";
    if |t| > 0 {
      LikeAnything(t[1..]);
    }
  }

  /** A literal text followed by '%' matches exactly the texts it starts. */
  lemma {:induction false} LiteralPrefixMatch(t: string, x: string)
    requires Literal(x)
    ensures Like(t, x + "%") <==> x <= t
    decreases |x|
  {
    if |x| == 0 {
      assert x + "%" == "%";
      LikeAnything(t);
    } else {
      var p := x + "%";
      assert p[0] == x[0];
      assert p[1..] == x[1..] + "%";
      if |t| > 0 {
        LiteralPrefixMatch(t[1..], x[1..]);
        assert x <= t <==> t[0] == x[0] && x[1..] <= t[1..];
      }
    }
  }

  /** On the store, `x%` matches exactly the texts that start with the
      literal `x`. */
  lemma LikePrefix(t: string, x: string)
    requires Literal(x)
    ensures StoreLike(t, x + "%") <==> x <= t
  {
    assert StarAsPercent(x + "%") == x + "%";
    LiteralPrefixMatch(t, x);
  }

  /** Any escape-free text matches itself as a pattern followed by '%',
      wildcards included: '%' (or '*') may consume its own character and '_'
      any character. */
  lemma {:induction false} LikeSelfPrefix(x: string, rest: string)
    requires NoEscape(x)
    ensures Like(x + rest, StarAsPercent(x) + "%")
    decreases |x|
  {
    var t := x + rest;
    var p := StarAsPercent(x) + "%";
    if |x| == 0 {
      assert t == rest && p == "%";
      LikeAnything(rest);
    } else {
      assert t[1..] == x[1..] + rest;
      assert p[1..] == StarAsPercent(x[1..]) + "%";
      LikeSelfPrefix(x[1..], rest);
      if p[0] == '%' {
        assert Like(t[1..], p[1..]);
        assert Like(t[1..], p);
      }
    }
  }

  /** Every text that holds an escape-free `x` matches `%x%` on the store,
      whatever wildcards `x` contains. */
  lemma {:induction false} ContainsMatchesLike(t: string, x: string, k: nat)
    requires NoEscape(x)
    requires k <= |t| && x <= t[k..]
    ensures StoreLike(t, "%" + x + "%")
    decreases k
  {
    var p := StarAsPercent("%" + x + "%");
    assert p == "%" + StarAsPercent(x) + "%";
    assert p[1..] == StarAsPercent(x) + "%";
    if k == 0 {
      assert t == x + t[|x|..];
      LikeSelfPrefix(x, t[|x|..]);
    } else {
      assert t[1..][k - 1..] == t[k..];
      ContainsMatchesLike(t[1..], x, k - 1);
    }
  }

  /** For a literal `x`, `%x%` matches exactly the texts holding `x`. */
  lemma {:induction false} LikeIsContains(t: string, x: string)
    requires Literal(x)
    ensures StoreLike(t, "%" + x + "%") <==> Contains(t, x)
    decreases |t|
  {
    var p := "%" + x + "%";
    assert StarAsPercent(p) == p;
    assert p[1..] == x + "%";
    LiteralPrefixMatch(t, x);
    if Contains(t, x) {
      var k :| 0 <= k <= |t| && x <= t[k..];
      ContainsMatchesLike(t, x, k);
    }
    if Like(t, p) {
      if x <= t {
        assert t[0..] == t;
      } else {
        assert |t| > 0 && Like(t[1..], p);
        LikeIsContains(t[1..], x);
        var k :| 0 <= k <= |t[1..]| && x <= t[1..][k..];
        assert t[1..][k..] == t[k + 1..];
      }
    }
  }

  /** Cutting an escape-free pattern head short, and ending it with '%',
      keeps every text the longer pattern matched. */
  lemma {:induction false} LikeShorterPrefix(t: string, q: string, s: string)
    requires NoEscape(q)
    requires Like(t, q + s)
    ensures Like(t, q + "%")
    decreases |t| + |q|
  {
    if |q| == 0 {
      assert q + "%" == "%";
      LikeAnything(t);
    } else {
      var p := q + s;
      var p' := q + "%";
      assert p[0] == q[0] && p'[0] == q[0];
      assert p[1..] == q[1..] + s && p'[1..] == q[1..] + "%";
      if q[0] == '%' {
        if Like(t, p[1..]) {
          LikeShorterPrefix(t, q[1..], s);
        } else {
          LikeShorterPrefix(t[1..], q, s);
        }
      } else {
        assert q[0] != '\\';
        LikeShorterPrefix(t[1..], q[1..], s);
      }
    }
  }
}

=== FILE: trilha_form.dfy ===
/** The trail form (`TrilhaForm`): its schema with the two closed choices,
    its defaults, and the insert row built from validated data. */
module TrilhaForm {
  import opened Common
  import opened Text
  import opened FormRules
  import opened AventuraService

  datatype TrilhaData = TrilhaData(
    tipoVeiculo: string,
    nomeTrilha: string,
    data: Option<Date>,
    hora: string,
    pontoEncontro: string,
    vagas: Digits,
    nivelDificuldade: string,
    observacoes: Option<string>)

  /** `defaultValues`: a jeep trail of medium difficulty, everything else
      empty and no date chosen. */
  const Defaults: TrilhaData := TrilhaData("jipe", "", None, "", "", "", "medio", Some(""))

  const FailureText: string := "Ocorreu um erro ao cadastrar a trilha"

  function Issues(d: TrilhaData): seq<Issue> {
    EnumIssues("tipo_veiculo", ParseTipoVeiculo(d.tipoVeiculo))
    + MinLengthIssues("nome_trilha", d.nomeTrilha, 2)
    + RequiredIssues("data", d.data)
    + MinLengthIssues("hora", d.hora, 1)
    + MinLengthIssues("ponto_encontro", d.pontoEncontro, 2)
    + CountIssues("vagas", d.vagas)
    + EnumIssues("nivel_dificuldade", ParseNivel(d.nivelDificuldade))
  }

  predicate Valid(d: TrilhaData) {
    Issues(d) == []
  }

  /** The schema accepts exactly these forms; the notes play no part. */
  lemma ValidIff(d: TrilhaData)
    ensures Valid(d) <==>
      && d.tipoVeiculo in ["jipe", "moto", "bicicleta"]
      && |d.nomeTrilha| >= 2
      && d.data.Some?
      && |d.hora| >= 1
      && |d.pontoEncontro| >= 2
      && PositiveCount(d.vagas)
      && d.nivelDificuldade in ["facil", "medio", "dificil", "extremo"]
    ensures forall obs: Option<string> :: Valid(d) <==> Valid(d.(observacoes := obs))
  {
    assert ParseTipoVeiculo(d.tipoVeiculo).Some? <==> d.tipoVeiculo in ["jipe", "moto", "bicicleta"];
    assert ParseNivel(d.nivelDificuldade).Some? <==> d.nivelDificuldade in ["facil", "medio", "dificil", "extremo"];
    forall obs: Option<string>
      ensures Issues(d.(observacoes := obs)) == Issues(d)
    {
    }
  }

  /** The defaults pick both closed choices validly (jeep, medium), and the
      untouched form is refused only on the fields left empty. */
  lemma DefaultsChosen()
    ensures ParseTipoVeiculo(Defaults.tipoVeiculo) == Some(Jipe)
    ensures ParseNivel(Defaults.nivelDificuldade) == Some(Medio)
    ensures !Valid(Defaults)
    ensures forall k :: 0 <= k < |Issues(Defaults)| ==>
      Issues(Defaults)[k].field in ["nome_trilha", "data", "hora", "ponto_encontro", "vagas"]
  {
  }

  /** The `trilhas` row `onSubmit` inserts. */
  datatype TrilhaRow = TrilhaRow(
    userId: string,
    tipoVeiculo: TipoVeiculo,
    nomeTrilha: string,
    data: Date,
    hora: string,
    pontoEncontro: string,
    vagas: int,
    nivelDificuldade: Nivel,
    observacoes: Option<string>)

  /** `onSubmit`, which the form calls only with validated data. */
  function Submit(d: TrilhaData, user: Option<User>): (s: Submission<TrilhaRow>)
    requires Valid(d)
    ensures s.RedirectToLogin? <==> user.None?
    ensures s.Insert? ==>
      && s.row.userId == user.value.id
      && s.row.vagas >= 1
      && s.row.vagas == DecimalValue(d.vagas)
      && s.row.nomeTrilha == d.nomeTrilha && s.row.hora == d.hora
      && s.row.pontoEncontro == d.pontoEncontro
      && s.row.observacoes == EmptyToNull(d.observacoes)
      && TipoVeiculoName(s.row.tipoVeiculo) == d.tipoVeiculo
      && NivelName(s.row.nivelDificuldade) == d.nivelDificuldade
      && Some(s.row.data) == d.data
      && (s.row.observacoes.None? <==> d.observacoes.None? || d.observacoes.value == "")
  {
    if user.None? then RedirectToLogin
    else
      Insert(TrilhaRow(
        user.value.id, ParseTipoVeiculo(d.tipoVeiculo).value, d.nomeTrilha, d.data.value, d.hora,
        d.pontoEncontro, ParseCount(d.vagas), ParseNivel(d.nivelDificuldade).value,
        EmptyToNull(d.observacoes)))
  }

  /** The form that writes a given row. */
  function FormOf(row: TrilhaRow): TrilhaData
    requires row.vagas >= 1
  {
    TrilhaData(TipoVeiculoName(row.tipoVeiculo), row.nomeTrilha, Some(row.data), row.hora,
               row.pontoEncontro, NatToString(row.vagas), NivelName(row.nivelDificuldade), row.observacoes)
  }

  /** Submitting the form of a row inserts that very row. */
  lemma SubmitFormOf(row: TrilhaRow, email: string)
    requires row.vagas >= 1 && row.observacoes != Some("")
    requires |row.nomeTrilha| >= 2 && |row.hora| >= 1 && |row.pontoEncontro| >= 2
    ensures Valid(FormOf(row))
    ensures Submit(FormOf(row), Some(User(row.userId, email))) == Insert(row)
  {
    ValidIff(FormOf(row));
    ParseCountOfRendered(row.vagas);
    EnumNamesRoundTrip(TipoTrilha, row.tipoVeiculo, row.nivelDificuldade);
  }

  /** Every accepted form is submitted as a row whose own form is the
      submitted one up to the count's rendering and empty notes (stored as
      null). */
  lemma FormOfSubmit(d: TrilhaData, u: User)
    requires Valid(d)
    ensures Submit(d, Some(u)).Insert?
    ensures FormOf(Submit(d, Some(u)).row) ==
      d.(vagas := NatToString(DecimalValue(d.vagas)), observacoes := EmptyToNull(d.observacoes))
  {
    ValidIff(d);
  }

  /** What a submission leaves behind, with this form's failure text. */
  function Finish(d: TrilhaData, error: Option<ServiceError>): (TrilhaData, Outcome) {
    FormRules.Finish(d, Defaults, FailureText, error)
  }

  /** The date picker refuses past days. */
  predicate DayOffered(date: Date, now: Date) {
    DayEnabled(date, now)
  }
}

=== FILE: use_aventuras.dfy ===
/** The merged feed `useAventuras`: the four record kinds are mapped into
    one item shape, the kind filter picks which are fetched, the included
    lists are concatenated (events, trails, carpools, trips) and the result
    is sorted by the date its `data` text starts with. */
module UseAventuras {
  import opened Common
  import opened Text
  import Seq = Sequences
  import opened AventuraService

  datatype AventuraItem = AventuraItem(
    id: string,
    titulo: string,
    tipo: string,
    data: string,
    local: string,
    imagem: Option<string>,
    descricao: string,
    vagas: int,
    telefone: string,
    contato: string)

  datatype Kind = Eventos | Trilhas | Caronas | Viagens

  /** The filter value naming each kind. */
  function KindName(k: Kind): string {
    match k
    case Eventos => "eventos"
    case Trilhas => "trilhas"
    case Caronas => "caronas"
    case Viagens => "viagens"
  }

  /** `!tipoFiltro || tipoFiltro === name`. */
  predicate Includes(filtro: Option<string>, k: Kind) {
    filtro.None? || filtro.value == "" || filtro.value == KindName(k)
  }

  /** An absent or empty filter takes every kind, a kind's name takes that
      kind alone, and anything else takes none. */
  lemma IncludedKinds(filtro: Option<string>, k: Kind)
    ensures filtro.None? || filtro == Some("") ==> Includes(filtro, k)
    ensures forall j :: Includes(Some(KindName(j)), k) <==> j == k
    ensures filtro.Some? && filtro.value != "" && (forall j :: filtro.value != KindName(j)) ==> !Includes(filtro, k)
  {
  }

  // ---------------------------------------------------------------------
  // Dates as the items carry them

  /** `new Date(d).toLocaleDateString()`, idealised as a rendering that
      reads back to the same date and contains no blank. */
  function RenderDate(d: Date): (r: string)
    ensures |r| > 0 && AllDigits(r)
  {
    NatToString(d)
  }

  /** `new Date(text)` on a rendered date; `None` is an invalid date. */
  function ParseDate(s: string): Option<Date> {
    if |s| > 0 && AllDigits(s) then Some(DecimalValue(s)) else None
  }

  lemma ParseRenderDate(d: Date)
    ensures ParseDate(RenderDate(d)) == Some(d)
  {
    DecimalOfNatToString(d);
  }

  /** `a.data.split(' - ')[0]`, read as a date. */
  function SortKey(item: AventuraItem): Option<Date> {
    ParseDate(Before(item.data, " - "))
  }

  /** Compares by sort key; an unreadable date counts as the earliest. */
  function EarlierOrSame(): (AventuraItem, AventuraItem) -> bool {
    (a: AventuraItem, b: AventuraItem) => SortKey(a).GetOr(0) <= SortKey(b).GetOr(0)
  }

  lemma EarlierOrSameTotalPreorder()
    ensures Seq.TotalPreorder(EarlierOrSame())
  {
  }

  // ---------------------------------------------------------------------
  // The per-kind mappings

  function FromEvento(e: Evento): (r: AventuraItem)
    ensures r.id == e.base.id && r.telefone == e.base.telefone && r.contato == e.base.nome
    ensures r.titulo == e.nomeEvento && r.tipo == "Evento" && r.local == e.localEvento
    ensures r.descricao == e.descricao && r.imagem == e.imagemUrl
    ensures SortKey(r) == Some(e.dataIda)
  {
    RenderedDateKey(e.dataIda);
    AventuraItem(
      e.base.id, e.nomeEvento, "Evento", RenderDate(e.dataIda), e.localEvento,
      e.imagemUrl, e.descricao, if e.vagasIlimitadas then -1 else e.vagas,
      e.base.telefone, e.base.nome)
  }

  function FromTrilha(t: Trilha): (r: AventuraItem)
    ensures r.id == t.base.id && r.telefone == t.base.telefone && r.contato == t.base.nome
    ensures r.titulo == t.nomeTrilha && r.tipo == "Trilha - " + TipoVeiculoName(t.tipoVeiculo)
    ensures r.local == t.pontoEncontro && r.vagas == t.vagas && r.imagem.None?
    ensures |r.descricao| > 0
    ensures SortKey(r) == Some(t.data)
  {
    RenderedDateKey(t.data);
    AventuraItem(
      t.base.id, t.nomeTrilha, "Trilha - " + TipoVeiculoName(t.tipoVeiculo), RenderDate(t.data),
      t.pontoEncontro, None,
      OrElse(t.observacoes, "Trilha " + NivelName(t.nivelDificuldade) + " com " + TipoVeiculoName(t.tipoVeiculo)),
      t.vagas, t.base.telefone, t.base.nome)
  }

  function FromCarona(c: Carona): (r: AventuraItem)
    ensures r.id == c.base.id && r.telefone == c.base.telefone && r.contato == c.base.nome
    ensures r.titulo == "Carona para " + c.destino && r.tipo == "Carona - " + TipoCaronaName(c.tipo)
    ensures r.local == c.pontoEncontro && r.vagas == c.vagas && r.imagem.None?
    ensures |r.descricao| > 0
    ensures SortKey(r) == Some(c.data)
  {
    RenderedDateKey(c.data);
    AventuraItem(
      c.base.id, "Carona para " + c.destino, "Carona - " + TipoCaronaName(c.tipo), RenderDate(c.data),
      c.pontoEncontro, None,
      OrElse(c.observacoes, "Carona em " + c.modeloCarro + " para " + c.destino),
      c.vagas, c.base.telefone, c.base.nome)
  }

  function FromViagem(v: ParceirosViagem): (r: AventuraItem)
    ensures r.id == v.base.id && r.telefone == v.base.telefone && r.contato == v.base.nome
    ensures r.titulo == "Viagem para " + v.cidade + ", " + v.estado && r.tipo == "Parceiros de Viagem"
    ensures r.local == v.cidade + ", " + v.estado && r.vagas == v.numPessoas && r.imagem.None?
    ensures |r.descricao| > 0
    ensures SortKey(r) == Some(v.dataInicio)
    ensures var start := RenderDate(v.dataInicio);
      start + " - " <= r.data && ParseDate(r.data[|start| + 3..]) == Some(v.dataFim)
  {
    var data := RenderDate(v.dataInicio) + " - " + RenderDate(v.dataFim);
    assert data[|RenderDate(v.dataInicio)| + 3..] == RenderDate(v.dataFim);
    ParseRenderDate(v.dataFim);
    BeforeSeparatorOfJoin(RenderDate(v.dataInicio), RenderDate(v.dataFim));
    ParseRenderDate(v.dataInicio);
    AventuraItem(
      v.base.id, "Viagem para " + v.cidade + ", " + v.estado, "Parceiros de Viagem", data,
      v.cidade + ", " + v.estado, None,
      OrElse(v.observacoes, "Busca de " + IntToString(v.numPessoas) + " parceiros para viagem"),
      v.numPessoas, v.base.telefone, v.base.nome)
  }

  /** A single rendered date is its own sort key. */
  lemma RenderedDateKey(d: Date)
    ensures ParseDate(Before(RenderDate(d), " - ")) == Some(d)
  {
    NoSeparatorBefore(RenderDate(d));
    ParseRenderDate(d);
  }

  /** A digit string holds no " - ", so splitting it keeps it whole. */
  lemma {:induction false} NoSeparatorBefore(s: string)
    requires AllDigits(s)
    ensures Before(s, " - ") == s
    decreases |s|
  {
    if |s| >= 3 {
      assert s[..3] != " - " by {
        assert IsDigit(s[0]);
      }
      NoSeparatorBefore(s[1..]);
      assert s == [s[0]] + s[1..];
    }
  }

  /** An event's count is the `-1` sentinel exactly when it is unlimited,
      for any stored count that is not itself negative. */
  lemma EventoVagasSentinel(e: Evento)
    requires e.vagas >= 0
    ensures FromEvento(e).vagas == -1 <==> e.vagasIlimitadas
    ensures !e.vagasIlimitadas ==> FromEvento(e).vagas == e.vagas
  {
  }

  /** Trail, carpool and trip descriptions are the notes when there are
      any, and the synthesised sentence otherwise. */
  lemma DescricaoFallbacks(t: Trilha, c: Carona, v: ParceirosViagem)
    ensures FromTrilha(t).descricao ==
      if t.observacoes.Some? && t.observacoes.value != "" then t.observacoes.value
      else "Trilha " + NivelName(t.nivelDificuldade) + " com " + TipoVeiculoName(t.tipoVeiculo)
    ensures FromCarona(c).descricao ==
      if c.observacoes.Some? && c.observacoes.value != "" then c.observacoes.value
      else "Carona em " + c.modeloCarro + " para " + c.destino
    ensures FromViagem(v).descricao ==
      if v.observacoes.Some? && v.observacoes.value != "" then v.observacoes.value
      else "Busca de " + IntToString(v.numPessoas) + " parceiros para viagem"
  {
  }

  /** The kind an item's `tipo` reveals. */
  function KindOf(item: AventuraItem): Option<Kind> {
    if item.tipo == "Evento" then Some(Eventos)
    else if "Trilha - " <= item.tipo then Some(Trilhas)
    else if "Carona - " <= item.tipo then Some(Caronas)
    else if item.tipo == "Parceiros de Viagem" then Some(Viagens)
    else None
  }

  /** Every mapped item can be traced back to the kind it came from. */
  lemma KindOfRecoversKind(e: Evento, t: Trilha, c: Carona, v: ParceirosViagem)
    ensures KindOf(FromEvento(e)) == Some(Eventos)
    ensures KindOf(FromTrilha(t)) == Some(Trilhas)
    ensures KindOf(FromCarona(c)) == Some(Caronas)
    ensures KindOf(FromViagem(v)) == Some(Viagens)
  {
    TrilhaKind(t);
    CaronaKind(c);
    ViagemKind(v);
  }

  lemma ViagemKind(v: ParceirosViagem)
    ensures KindOf(FromViagem(v)) == Some(Viagens)
  {
    var tipo := "Parceiros de Viagem";
    assert tipo != "Evento" by { assert |tipo| > 6; }
    assert tipo[0] == 'P';
    assert !("Trilha - " <= tipo);
    assert !("Carona - " <= tipo);
  }

  lemma TrilhaKind(t: Trilha)
    ensures KindOf(FromTrilha(t)) == Some(Trilhas)
  {
    var tipo := "Trilha - " + TipoVeiculoName(t.tipoVeiculo);
    assert tipo[..9] == "Trilha - ";
    assert tipo != "Evento" by { assert |tipo| > 6; }
  }

  lemma CaronaKind(c: Carona)
    ensures KindOf(FromCarona(c)) == Some(Caronas)
  {
    var tipo := "Carona - " + TipoCaronaName(c.tipo);
    assert tipo[..9] == "Carona - ";
    assert tipo != "Evento" by { assert |tipo| > 6; }
    assert tipo[0] == 'C';
  }

  // ---------------------------------------------------------------------
  // Merge and sort

  function MapEventos(es: seq<Evento>): (r: seq<AventuraItem>)
    ensures |r| == |es| && forall i :: 0 <= i < |es| ==> r[i] == FromEvento(es[i])
  {
    seq(|es|, i requires 0 <= i < |es| => FromEvento(es[i]))
  }

  function MapTrilhas(ts: seq<Trilha>): (r: seq<AventuraItem>)
    ensures |r| == |ts| && forall i :: 0 <= i < |ts| ==> r[i] == FromTrilha(ts[i])
  {
    seq(|ts|, i requires 0 <= i < |ts| => FromTrilha(ts[i]))
  }

  function MapCaronas(cs: seq<Carona>): (r: seq<AventuraItem>)
    ensures |r| == |cs| && forall i :: 0 <= i < |cs| ==> r[i] == FromCarona(cs[i])
  {
    seq(|cs|, i requires 0 <= i < |cs| => FromCarona(cs[i]))
  }

  function MapViagens(vs: seq<ParceirosViagem>): (r: seq<AventuraItem>)
    ensures |r| == |vs| && forall i :: 0 <= i < |vs| ==> r[i] == FromViagem(vs[i])
  {
    seq(|vs|, i requires 0 <= i < |vs| => FromViagem(vs[i]))
  }

  /** How many places a kind's list takes in the merged list. */
  function Width(filtro: Option<string>, k: Kind, n: nat): nat {
    if Includes(filtro, k) then n else 0
  }

  /** The list before sorting: events, trails, carpools, trips, each part
      present only when its kind is included. */
  function Merge(filtro: Option<string>, es: seq<Evento>, ts: seq<Trilha>, cs: seq<Carona>, vs: seq<ParceirosViagem>): (r: seq<AventuraItem>)
    ensures |r| == Width(filtro, Eventos, |es|) + Width(filtro, Trilhas, |ts|)
                 + Width(filtro, Caronas, |cs|) + Width(filtro, Viagens, |vs|)
  {
    (if Includes(filtro, Eventos) then MapEventos(es) else [])
    + (if Includes(filtro, Trilhas) then MapTrilhas(ts) else [])
    + (if Includes(filtro, Caronas) then MapCaronas(cs) else [])
    + (if Includes(filtro, Viagens) then MapViagens(vs) else [])
  }

  /** The events block opens the merged list: every fetched event is
      there, once per fetch, in fetch order. */
  lemma MergeHoldsEventos(filtro: Option<string>, es: seq<Evento>, ts: seq<Trilha>, cs: seq<Carona>, vs: seq<ParceirosViagem>)
    requires Includes(filtro, Eventos)
    ensures Merge(filtro, es, ts, cs, vs)[..|es|] == MapEventos(es)
  {
    var a := if Includes(filtro, Eventos) then MapEventos(es) else [];
    var b := if Includes(filtro, Trilhas) then MapTrilhas(ts) else [];
    var c := if Includes(filtro, Caronas) then MapCaronas(cs) else [];
    var d := if Includes(filtro, Viagens) then MapViagens(vs) else [];
    assert Merge(filtro, es, ts, cs, vs) == a + b + c + d;
    JoinSlices(a, b, c, d);
  }

  /** The trails follow the events. */
  lemma MergeHoldsTrilhas(filtro: Option<string>, es: seq<Evento>, ts: seq<Trilha>, cs: seq<Carona>, vs: seq<ParceirosViagem>)
    requires Includes(filtro, Trilhas)
    ensures var at := Width(filtro, Eventos, |es|);
      Merge(filtro, es, ts, cs, vs)[at..at + |ts|] == MapTrilhas(ts)
  {
    var a := if Includes(filtro, Eventos) then MapEventos(es) else [];
    var b := if Includes(filtro, Trilhas) then MapTrilhas(ts) else [];
    var c := if Includes(filtro, Caronas) then MapCaronas(cs) else [];
    var d := if Includes(filtro, Viagens) then MapViagens(vs) else [];
    assert Merge(filtro, es, ts, cs, vs) == a + b + c + d;
    JoinSlices(a, b, c, d);
  }

  /** The carpools follow the trails. */
  lemma MergeHoldsCaronas(filtro: Option<string>, es: seq<Evento>, ts: seq<Trilha>, cs: seq<Carona>, vs: seq<ParceirosViagem>)
    requires Includes(filtro, Caronas)
    ensures var at := Width(filtro, Eventos, |es|) + Width(filtro, Trilhas, |ts|);
      Merge(filtro, es, ts, cs, vs)[at..at + |cs|] == MapCaronas(cs)
  {
    var a := if Includes(filtro, Eventos) then MapEventos(es) else [];
    var b := if Includes(filtro, Trilhas) then MapTrilhas(ts) else [];
    var c := if Includes(filtro, Caronas) then MapCaronas(cs) else [];
    var d := if Includes(filtro, Viagens) then MapViagens(vs) else [];
    assert Merge(filtro, es, ts, cs, vs) == a + b + c + d;
    JoinSlices(a, b, c, d);
  }

  /** The trips close the list. */
  lemma MergeHoldsViagens(filtro: Option<string>, es: seq<Evento>, ts: seq<Trilha>, cs: seq<Carona>, vs: seq<ParceirosViagem>)
    requires Includes(filtro, Viagens)
    ensures var at := Width(filtro, Eventos, |es|) + Width(filtro, Trilhas, |ts|) + Width(filtro, Caronas, |cs|);
      Merge(filtro, es, ts, cs, vs)[at..] == MapViagens(vs)
  {
    var a := if Includes(filtro, Eventos) then MapEventos(es) else [];
    var b := if Includes(filtro, Trilhas) then MapTrilhas(ts) else [];
    var c := if Includes(filtro, Caronas) then MapCaronas(cs) else [];
    var d := if Includes(filtro, Viagens) then MapViagens(vs) else [];
    assert Merge(filtro, es, ts, cs, vs) == a + b + c + d;
    JoinSlices(a, b, c, d);
  }

  /** Where each part of a four-part join sits. */
  lemma JoinSlices<T>(a: seq<T>, b: seq<T>, c: seq<T>, d: seq<T>)
    ensures (a + b + c + d)[..|a|] == a
    ensures (a + b + c + d)[|a|..|a| + |b|] == b
    ensures (a + b + c + d)[|a| + |b|..|a| + |b| + |c|] == c
    ensures (a + b + c + d)[|a| + |b| + |c|..] == d
  {
    assert a + b + c + d == a + (b + (c + d));
    assert a + b + c + d == (a + b) + (c + d);
    assert a + b + c + d == (a + b + c) + d;
  }

  /** An item of the feed: it has a readable date key and belongs to a
      kind the filter includes. */
  predicate Admitted(filtro: Option<string>, item: AventuraItem) {
    SortKey(item).Some? && KindOf(item).Some? && Includes(filtro, KindOf(item).value)
  }

  lemma EventosAdmitted(filtro: Option<string>, es: seq<Evento>)
    requires Includes(filtro, Eventos)
    ensures forall item :: item in MapEventos(es) ==> Admitted(filtro, item)
  {
    forall e | e in es ensures Admitted(filtro, FromEvento(e)) {
      assert KindOf(FromEvento(e)) == Some(Eventos);
    }
  }

  lemma TrilhasAdmitted(filtro: Option<string>, ts: seq<Trilha>)
    requires Includes(filtro, Trilhas)
    ensures forall item :: item in MapTrilhas(ts) ==> Admitted(filtro, item)
  {
    forall t | t in ts ensures Admitted(filtro, FromTrilha(t)) {
      TrilhaKind(t);
    }
  }

  lemma CaronasAdmitted(filtro: Option<string>, cs: seq<Carona>)
    requires Includes(filtro, Caronas)
    ensures forall item :: item in MapCaronas(cs) ==> Admitted(filtro, item)
  {
    forall c | c in cs ensures Admitted(filtro, FromCarona(c)) {
      CaronaKind(c);
    }
  }

  lemma ViagensAdmitted(filtro: Option<string>, vs: seq<ParceirosViagem>)
    requires Includes(filtro, Viagens)
    ensures forall item :: item in MapViagens(vs) ==> Admitted(filtro, item)
  {
    forall v | v in vs ensures Admitted(filtro, FromViagem(v)) {
      ViagemKind(v);
    }
  }

  /** Every merged item is admitted. */
  lemma MergedItemsAdmitted(filtro: Option<string>, es: seq<Evento>, ts: seq<Trilha>, cs: seq<Carona>, vs: seq<ParceirosViagem>)
    ensures forall item :: item in Merge(filtro, es, ts, cs, vs) ==> Admitted(filtro, item)
  {
    var a := if Includes(filtro, Eventos) then MapEventos(es) else [];
    var b := if Includes(filtro, Trilhas) then MapTrilhas(ts) else [];
    var c := if Includes(filtro, Caronas) then MapCaronas(cs) else [];
    var d := if Includes(filtro, Viagens) then MapViagens(vs) else [];
    if Includes(filtro, Eventos) { EventosAdmitted(filtro, es); }
    if Includes(filtro, Trilhas) { TrilhasAdmitted(filtro, ts); }
    if Includes(filtro, Caronas) { CaronasAdmitted(filtro, cs); }
    if Includes(filtro, Viagens) { ViagensAdmitted(filtro, vs); }
    assert Merge(filtro, es, ts, cs, vs) == a + b + c + d;
  }

  /** The included kinds, fetched and merged, before sorting. */
  function Fetched(filtro: Option<string>, s: Store): seq<AventuraItem> {
    Merge(filtro,
      if Includes(filtro, Eventos) then GetEventos(s) else [],
      if Includes(filtro, Trilhas) then GetTrilhas(s) else [],
      if Includes(filtro, Caronas) then GetCaronas(s) else [],
      if Includes(filtro, Viagens) then GetParceirosViagem(s) else [])
  }

  /** The feed: fetch the included kinds, merge, sort by date. */
  function Feed(filtro: Option<string>, s: Store): seq<AventuraItem> {
    Seq.SortBy(Fetched(filtro, s), EarlierOrSame())
  }

  /** The feed is the merged list reordered, ascending by date key, and
      holds only items of included kinds with readable dates. */
  lemma FeedSortedPermutation(filtro: Option<string>, s: Store)
    ensures multiset(Feed(filtro, s)) == multiset(Fetched(filtro, s))
    ensures forall i, j :: 0 <= i < j < |Feed(filtro, s)| ==>
      SortKey(Feed(filtro, s)[i]).GetOr(0) <= SortKey(Feed(filtro, s)[j]).GetOr(0)
    ensures forall item :: item in Feed(filtro, s) ==> Admitted(filtro, item)
  {
    var merged := Fetched(filtro, s);
    var feed := Feed(filtro, s);
    EarlierOrSameTotalPreorder();
    Seq.SortBySorted(merged, EarlierOrSame());
    assert Seq.Sorted(feed, EarlierOrSame());
    MergedItemsAdmitted(filtro,
      if Includes(filtro, Eventos) then GetEventos(s) else [],
      if Includes(filtro, Trilhas) then GetTrilhas(s) else [],
      if Includes(filtro, Caronas) then GetCaronas(s) else [],
      if Includes(filtro, Viagens) then GetParceirosViagem(s) else []);
    forall item | item in feed
      ensures Admitted(filtro, item)
    {
      assert item in multiset(feed);
      assert item in merged;
    }
  }

  /** An item of the merged list is an item of the feed. */
  lemma FetchedInFeed(filtro: Option<string>, s: Store, item: AventuraItem)
    requires var l := FetchedLists(filtro, s); item in Merge(filtro, l.0, l.1, l.2, l.3)
    ensures item in Feed(filtro, s)
  {
    FeedSortedPermutation(filtro, s);
    assert item in multiset(Fetched(filtro, s));
  }

  /** The four fetched lists, each empty when its kind is left out. */
  function FetchedLists(filtro: Option<string>, s: Store): (seq<Evento>, seq<Trilha>, seq<Carona>, seq<ParceirosViagem>) {
    (if Includes(filtro, Eventos) then GetEventos(s) else [],
     if Includes(filtro, Trilhas) then GetTrilhas(s) else [],
     if Includes(filtro, Caronas) then GetCaronas(s) else [],
     if Includes(filtro, Viagens) then GetParceirosViagem(s) else [])
  }

  /** A fetched event of an included kind is in the merged list. */
  lemma MergedEventoPresent(filtro: Option<string>, es: seq<Evento>, ts: seq<Trilha>, cs: seq<Carona>, vs: seq<ParceirosViagem>, e: Evento)
    requires Includes(filtro, Eventos) && e in es
    ensures FromEvento(e) in Merge(filtro, es, ts, cs, vs)
  {
    var i :| 0 <= i < |es| && es[i] == e;
    var a := if Includes(filtro, Eventos) then MapEventos(es) else [];
    var b := if Includes(filtro, Trilhas) then MapTrilhas(ts) else [];
    var c := if Includes(filtro, Caronas) then MapCaronas(cs) else [];
    var d := if Includes(filtro, Viagens) then MapViagens(vs) else [];
    assert Merge(filtro, es, ts, cs, vs) == a + b + c + d;
    assert a[i] == FromEvento(e);
  }

  /** Every stored event reaches the feed when its kind is included and
      its table is healthy. */
  lemma StoredEventoInFeed(filtro: Option<string>, s: Store, e: Evento)
    requires Includes(filtro, Eventos) && s.eventos.fault.None?
    requires e in s.eventos.rows
    ensures FromEvento(e) in Feed(filtro, s)
  {
    var l := FetchedLists(filtro, s);
    FetchedEvento(s, e);
    assert e in l.0;
    MergedEventoPresent(filtro, l.0, l.1, l.2, l.3, e);
    FetchedInFeed(filtro, s, FromEvento(e));
  }

  /** A stored event of a healthy table is fetched. */
  lemma FetchedEvento(s: Store, e: Evento)
    requires s.eventos.fault.None? && e in s.eventos.rows
    ensures e in GetEventos(s)
  {
    var j :| 0 <= j < |s.eventos.rows| && s.eventos.rows[j] == e;
    assert e in multiset(GetEventos(s));
  }

  /** A fetched trail of an included kind is in the merged list. */
  lemma MergedTrilhaPresent(filtro: Option<string>, es: seq<Evento>, ts: seq<Trilha>, cs: seq<Carona>, vs: seq<ParceirosViagem>, t: Trilha)
    requires Includes(filtro, Trilhas) && t in ts
    ensures FromTrilha(t) in Merge(filtro, es, ts, cs, vs)
  {
    var i :| 0 <= i < |ts| && ts[i] == t;
    var a := if Includes(filtro, Eventos) then MapEventos(es) else [];
    var b := if Includes(filtro, Trilhas) then MapTrilhas(ts) else [];
    var c := if Includes(filtro, Caronas) then MapCaronas(cs) else [];
    var d := if Includes(filtro, Viagens) then MapViagens(vs) else [];
    assert Merge(filtro, es, ts, cs, vs) == a + b + c + d;
    assert b[i] == FromTrilha(t);
  }

  /** Every stored trail reaches the feed when its kind is included and
      its table is healthy. */
  lemma StoredTrilhaInFeed(filtro: Option<string>, s: Store, t: Trilha)
    requires Includes(filtro, Trilhas) && s.trilhas.fault.None?
    requires t in s.trilhas.rows
    ensures FromTrilha(t) in Feed(filtro, s)
  {
    var l := FetchedLists(filtro, s);
    FetchedTrilha(s, t);
    assert t in l.1;
    MergedTrilhaPresent(filtro, l.0, l.1, l.2, l.3, t);
    FetchedInFeed(filtro, s, FromTrilha(t));
  }

  /** A stored trail of a healthy table is fetched. */
  lemma FetchedTrilha(s: Store, t: Trilha)
    requires s.trilhas.fault.None? && t in s.trilhas.rows
    ensures t in GetTrilhas(s)
  {
    var j :| 0 <= j < |s.trilhas.rows| && s.trilhas.rows[j] == t;
    assert t in multiset(GetTrilhas(s));
  }

  /** A fetched carpool of an included kind is in the merged list. */
  lemma MergedCaronaPresent(filtro: Option<string>, es: seq<Evento>, ts: seq<Trilha>, cs: seq<Carona>, vs: seq<ParceirosViagem>, c: Carona)
    requires Includes(filtro, Caronas) && c in cs
    ensures FromCarona(c) in Merge(filtro, es, ts, cs, vs)
  {
    var i :| 0 <= i < |cs| && cs[i] == c;
    var a := if Includes(filtro, Eventos) then MapEventos(es) else [];
    var b := if Includes(filtro, Trilhas) then MapTrilhas(ts) else [];
    var cc := if Includes(filtro, Caronas) then MapCaronas(cs) else [];
    var d := if Includes(filtro, Viagens) then MapViagens(vs) else [];
    assert Merge(filtro, es, ts, cs, vs) == a + b + cc + d;
    assert cc[i] == FromCarona(c);
  }

  /** Every stored carpool reaches the feed when its kind is included and
      its table is healthy. */
  lemma StoredCaronaInFeed(filtro: Option<string>, s: Store, c: Carona)
    requires Includes(filtro, Caronas) && s.caronas.fault.None?
    requires c in s.caronas.rows
    ensures FromCarona(c) in Feed(filtro, s)
  {
    var l := FetchedLists(filtro, s);
    FetchedCarona(s, c);
    assert c in l.2;
    MergedCaronaPresent(filtro, l.0, l.1, l.2, l.3, c);
    FetchedInFeed(filtro, s, FromCarona(c));
  }

  /** A stored carpool of a healthy table is fetched. */
  lemma FetchedCarona(s: Store, c: Carona)
    requires s.caronas.fault.None? && c in s.caronas.rows
    ensures c in GetCaronas(s)
  {
    var j :| 0 <= j < |s.caronas.rows| && s.caronas.rows[j] == c;
    assert c in multiset(GetCaronas(s));
  }

  /** A fetched travel-partner search of an included kind is in the merged list. */
  lemma MergedViagemPresent(filtro: Option<string>, es: seq<Evento>, ts: seq<Trilha>, cs: seq<Carona>, vs: seq<ParceirosViagem>, v: ParceirosViagem)
    requires Includes(filtro, Viagens) && v in vs
    ensures FromViagem(v) in Merge(filtro, es, ts, cs, vs)
  {
    var i :| 0 <= i < |vs| && vs[i] == v;
    var a := if Includes(filtro, Eventos) then MapEventos(es) else [];
    var b := if Includes(filtro, Trilhas) then MapTrilhas(ts) else [];
    var c := if Includes(filtro, Caronas) then MapCaronas(cs) else [];
    var d := if Includes(filtro, Viagens) then MapViagens(vs) else [];
    assert Merge(filtro, es, ts, cs, vs) == a + b + c + d;
    assert d[i] == FromViagem(v);
  }

  /** Every stored travel-partner search reaches the feed when its kind is included and
      its table is healthy. */
  lemma StoredViagemInFeed(filtro: Option<string>, s: Store, v: ParceirosViagem)
    requires Includes(filtro, Viagens) && s.viagens.fault.None?
    requires v in s.viagens.rows
    ensures FromViagem(v) in Feed(filtro, s)
  {
    var l := FetchedLists(filtro, s);
    FetchedViagem(s, v);
    assert v in l.3;
    MergedViagemPresent(filtro, l.0, l.1, l.2, l.3, v);
    FetchedInFeed(filtro, s, FromViagem(v));
  }

  /** A stored travel-partner search of a healthy table is fetched. */
  lemma FetchedViagem(s: Store, v: ParceirosViagem)
    requires s.viagens.fault.None? && v in s.viagens.rows
    ensures v in GetParceirosViagem(s)
  {
    var j :| 0 <= j < |s.viagens.rows| && s.viagens.rows[j] == v;
    assert v in multiset(GetParceirosViagem(s));
  }

  /** Filtering on one kind's name yields items of that kind only. */
  lemma SingleKindFeed(k: Kind, s: Store)
    ensures forall item :: item in Feed(Some(KindName(k)), s) ==> KindOf(item) == Some(k)
  {
    FeedSortedPermutation(Some(KindName(k)), s);
    IncludedKinds(Some(KindName(k)), k);
    forall item | item in Feed(Some(KindName(k)), s)
      ensures KindOf(item) == Some(k)
    {
      IncludedKinds(Some(KindName(k)), KindOf(item).value);
    }
  }

  /** A filter naming no kind gives an empty feed. */
  lemma UnknownKindGivesNothing(filtro: Option<string>, s: Store)
    requires filtro.Some? && filtro.value != ""
    requires forall k :: filtro.value != KindName(k)
    ensures Feed(filtro, s) == []
  {
  }

  /** With every table empty the feed is empty, not an error. */
  lemma EmptyStoreEmptyFeed(filtro: Option<string>, s: Store)
    requires s.eventos.rows == [] && s.trilhas.rows == [] && s.caronas.rows == [] && s.viagens.rows == []
    ensures Feed(filtro, s) == []
  {
    assert |GetEventos(s)| == 0 by { assert |multiset(GetEventos(s))| == 0; }
    assert |GetTrilhas(s)| == 0 by { assert |multiset(GetTrilhas(s))| == 0; }
    assert |GetCaronas(s)| == 0 by { assert |multiset(GetCaronas(s))| == 0; }
    assert |GetParceirosViagem(s)| == 0 by { assert |multiset(GetParceirosViagem(s))| == 0; }
  }

  /** Sorting the feed again changes nothing. */
  lemma FeedResortStable(filtro: Option<string>, s: Store)
    ensures Seq.SortBy(Feed(filtro, s), EarlierOrSame()) == Feed(filtro, s)
  {
    EarlierOrSameTotalPreorder();
    Seq.SortByIdempotent(Fetched(filtro, s), EarlierOrSame());
  }
}
